=== FILE: README.md ===
# JerryScript debugger client: protocol core in Dafny

This project models the client side of the JerryScript debugger wire
protocol as written in TypeScript under `jerry-debugger/src/lib`, plus two
small pieces: the C argument iterator of `jerry-ext/args` and the
host:port handling of the debugger's command line. Every operation is a
pure function over immutable records. Bytes are integers in `[0, 256)`.
JavaScript strings are sequences of 16-bit code units.

It has three layers.

- **Codecs** (`ByteCodec`, `TextCodec`, `TextSplit`, `StringUtils`).
  - `ByteCodec` holds `getFormatSize` and `decodeMessage`, which read a
    format of `B`, `I` and `C` fields under a pointer width and byte order.
  - `TextCodec` holds the lenient CESU-8 decoder `cesu8ToString` and the
    packet reassembly `assembleUint8Arrays`.
  - `TextSplit` models `String.prototype.split` for the three separators
    the code uses: `':'`, `/\n[\n]/` and `/\r\n[\r\n]/`.
  - `StringUtils` holds the duplicate copies in `string-utils.ts`. They are
    written as the loops the source runs and are proved equal to the
    `TextCodec` definitions.
- **Source model** (`Breakpoints`). A `ParsedFunction` is built from a
  parser stack frame. Its breakpoints are indexed by line and by byte-code
  offset. `Breakpoint.toString` is modelled too.
- **Protocol state machines.** Each takes a state and one message and
  returns an `Outcome`: the new state, the events delivered to the
  delegate, the packets sent to the engine, and the exception thrown, if
  any.
  - `ProtocolHandler` is `protocol-handler.ts`: the current handler.
  - `ProtocolParser` is `protocol-parser.ts`: the earlier handler.
  - `ParsedSources` is `ParsedSource.receive` from `parsed-source.ts`.

  `HandlerProperties`, `HandlerScenarios` and `ParserProperties` prove
  properties that span several messages or several versions.

A thrown JavaScript error is a `Fault`. A protocol error that the source
only reports through `delegate.onError` is an `Error` event carrying a
`Report` tag. Message texts and `console.log` output are not modelled. An
assignment made before a throw is not undone, so after a throw `state` is
the state at the moment of the throw. For example, `onByteCodeCP` pops the
frame before decoding the pointer.

The opcode numbers come from a constants module that is not part of this
model. `Protocol` uses distinct stand-in values. The general properties
depend only on their being distinct. The worked examples that replay the
unit tests' exchanges do use the values: one sends type 255, which none of
the stand-ins equals. The protocol version the current handler accepts
comes from the same module. The model takes 2, the version the handler's
unit tests accept, and `HandlerScenarios.Handshake` and
`HandlerScenarios.ConfigurationExamples` are stated for that value.

Behaviours of the code worth knowing:
- A configuration message longer than 5 bytes is accepted. Its fields are
  stored before they are validated.
- The opcode byte of every fragment is dropped, the first fragment's
  included.
- `onByteCodeCP` pops the frame before decoding the pointer, so a failed
  decode leaves the frame popped.
- `resume` only sends CONTINUE: the current breakpoint stays set and the
  delegate is not told.
- A 4-byte field is a signed 32-bit value.
- The script id advances when SOURCE_CODE_END arrives and the delegate
  defines `onScriptParsed`.
- `stepOut` sends nothing. A unit test expects it to send FINISH, but the
  code only logs.
- `onBacktrace` only logs.

## Model

| member | source | states |
|---|---|---|
| ByteCodec.FormatSize | jerry-debugger/src/lib/utils.ts:23-44 | succeeds exactly when every character is B, C or I, and otherwise throws the unsupported-format error |
| ByteCodec.FormatSizeCounts | jerry-debugger/src/lib/utils.ts:23-44 | the size is 1 per B, plus 4 per I, plus the pointer width per C; the empty format has size 0 |
| ByteCodec.FormatSizeAppend | jerry-debugger/src/lib/utils.ts:23-44 | the size of two consecutive formats is the sum of their sizes |
| ByteCodec.Decode | jerry-debugger/src/lib/utils.ts:46-93 | succeeds exactly when the format is known, `offset + size` fits in the message, and any C has width 2 or 4; throws too-short exactly when the length check fails; a success has one value per format character |
| ByteCodec.DecodeFields | jerry-debugger/src/lib/utils.ts:57-92 | the field loop throws the unexpected-request error exactly when a C meets a width other than 2 or 4, and otherwise yields one value per character |
| ByteCodec.DecodeFieldsValues | jerry-debugger/src/lib/utils.ts:57-92 | value k of the loop is the field of kind `format[k]` read at `offset` plus the widths of the earlier fields |
| ByteCodec.DecodeValues | jerry-debugger/src/lib/utils.ts:46-93 | a successful decode yields the fields in format order, each starting right after the previous one |
| ByteCodec.DecodeFieldsWindow | jerry-debugger/src/lib/utils.ts:57-92 | the field loop reads only bytes `[offset, offset + size)`: messages that agree there decode alike |
| ByteCodec.DecodeReadsOnlyWindow | jerry-debugger/src/lib/utils.ts:46-93 | a decode depends only on the bytes of its window |
| ByteCodec.DecodeOneField | jerry-debugger/src/lib/utils.ts:23-92 | a one-character format has the width of its character and decodes to that one field |
| ByteCodec.Read2 | jerry-debugger/src/lib/utils.ts:64-74 | a 2-byte pointer is an unsigned 16-bit value |
| ByteCodec.PointerEndianMirror2 | jerry-debugger/src/lib/utils.ts:64-74 | C of width 2 on [a, b] is `a + 256*b` little-endian and `256*a + b` big-endian; little-endian [a, b] equals big-endian [b, a] |
| ByteCodec.Read4 | jerry-debugger/src/lib/utils.ts:80-86 | a 4-byte field is a signed 32-bit value |
| ByteCodec.Int32Fields | jerry-debugger/src/lib/utils.ts:80-86 | I on [a, b, c, d] is the unsigned value when d < 0x80, and that value minus 2^32 otherwise; little-endian [a, b, c, d] equals big-endian [d, c, b, a]; C of width 4 reads like I |
| ByteCodec.BadPointerWidthThrows | jerry-debugger/src/lib/utils.ts:76-78 | C with a width other than 2 or 4 throws the unexpected-request error once the length check has passed |
| ByteCodec.EncodeByte | jerry-debugger/src/lib/__tests__/protocol-handler.test.ts:463-479 | encoding B of `[code]` is the single byte `code` |
| ByteCodec.EncodeByteRoundTrip | jerry-debugger/src/lib/utils.ts:58-62 | decoding B from the encoded command byte gives the code back |
| JsValues.Element | jerry-debugger/src/lib/breakpoint.ts:40-41 | `a[i]` is defined exactly for an index in range, and is then `a[i]` |
| JsValues.ToInt32 | jerry-debugger/src/lib/utils.ts:80-86 | the result of a bitwise operator is the signed 32-bit value congruent to its 32-bit pattern |
| JsValues.DecimalRoundTrip | jerry-debugger/src/lib/breakpoint.ts:82 | the decimal text of a natural number reads back as that number |
| TextCodec.DecodeFrom | jerry-debugger/src/lib/utils.ts:102-121 | the decoding loop emits at most one code unit per remaining byte and at least one per three bytes |
| TextCodec.Cesu8ToString | jerry-debugger/src/lib/utils.ts:95-124 | `undefined` gives the empty string; otherwise there are no more code units than bytes and at least one per three bytes; a first byte below 0x7f is the first code unit; a first byte of 0x7f or more, with another byte after it, leads a multi-byte sequence, so fewer code units than bytes come out; bytes all below 0x7f are copied unchanged |
| TextCodec.BitOpsAsArithmetic | jerry-debugger/src/lib/utils.ts:108-117 | the lead test `chr & 0x20` and the 3-byte (4+6+6 bits) and 2-byte (5+6 bits) combinations equal the arithmetic the decoder uses |
| TextCodec.AsciiIsCopied | jerry-debugger/src/lib/utils.ts:105-120 | bytes below 0x7f are copied one-for-one as code units |
| TextCodec.DecodeFromSuffix | jerry-debugger/src/lib/utils.ts:102-121 | decoding from index i depends only on the bytes from i on |
| TextCodec.EncodeUnit | jerry-debugger/src/lib/utils.ts:108-117 | a reference encoder, not part of the client, that the decoder is checked against: one byte below the least lead byte, two below 0x800, three otherwise; with lead 0x80 this is CESU-8, with the source's 0x7f it writes U+007F as the overlong [0xC1, 0xBF] |
| TextCodec.DecodeEncode | jerry-debugger/src/lib/utils.ts:95-124 | for any least lead byte up to 0xC0, the decoding loop reads back every string from the reference encoding with the same lead byte, surrogates included |
| TextCodec.SourceReadsOverlongForm | jerry-debugger/src/lib/utils.ts:95-124 | `cesu8ToString` as written reads back every string, but only from the encoding that writes U+007F overlong |
| TextCodec.DelSwallowsNextBytes | jerry-debugger/src/lib/utils.ts:105-120 | the CESU-8 bytes of "\x7fAB", [0x7f, 0x41, 0x42], decode as written to the single code unit U+F042 |
| TextCodec.Cesu8ToStringCorrected | jerry-debugger/src/lib/utils.ts:95-124 | the decoder with the test `chr >= 0x80`: `undefined` gives the empty string, with the same length bounds; bytes below 0x80, 0x7f included, are copied unchanged, and a first byte of 0x80 or more leads a multi-byte sequence |
| TextCodec.CorrectedReadsCesu8 | jerry-debugger/src/lib/utils.ts:95-124 | the corrected decoder reads back every string from its CESU-8 form, U+007F included |
| TextCodec.TypedArraySet | jerry-debugger/src/lib/utils.ts:141-145 | `set(src, offset)` throws a RangeError unless src fits at offset, and otherwise writes src there and keeps every other byte |
| TextCodec.Payload | jerry-debugger/src/lib/utils.ts:128-131 | a packet's payload is everything after its opcode byte |
| TextCodec.Assemble | jerry-debugger/src/lib/utils.ts:127-148 | no base gives next's payload; next of length at most 1 gives the base unchanged; a non-empty base gives `base ++ next[1..]`; an empty base with a longer next throws |
| TextCodec.AssembleAllFrom | jerry-debugger/src/lib/utils.ts:127-148 | feeding packets one by one into a non-empty buffer appends their payloads |
| TextCodec.AssembleFragments | jerry-debugger/src/lib/utils.ts:127-148 | reassembling packets from nothing concatenates their payloads when the first carries payload; otherwise it throws exactly when a later packet carries payload |
| TextCodec.EmptyBaseAssembly | jerry-debugger/src/lib/utils.ts:138-145 | from an empty buffer, reassembly throws exactly when some packet carries payload |
| StringUtils.Cesu8ToString | jerry-debugger/src/lib/string-utils.ts:15-44 | the loop of the earlier copy computes the decoder of utils.ts, with short sequences at the end read as zero bytes |
| StringUtils.SetBytes | jerry-debugger/src/lib/string-utils.ts:62-65 | the element-by-element copy computes `Uint8Array.prototype.set`, range error included |
| StringUtils.ConcatUint8Arrays | jerry-debugger/src/lib/string-utils.ts:47-68 | the earlier concatenation computes exactly what `assembleUint8Arrays` computes |
| TextSplit.Split | jerry-debugger/src/lib/protocol-handler.ts:249 | a split has at least one piece |
| TextSplit.JoinSplit | jerry-debugger/src/lib/protocol-handler.ts:249 | splitting on ':' or on two line feeds and joining back with the separator gives the original text |
| TextSplit.SplitPiecesHaveNoMatch | jerry-debugger/src/lib/protocol-handler.ts:249 | no piece of a split contains a match of the separator |
| TextSplit.SplitWithoutMatch | jerry-debugger/src/cli/cli.ts:22-23 | a text without a match is a single piece |
| TextSplit.SplitAtFirstColon | jerry-debugger/src/cli/cli.ts:22-26 | splitting `a:b` on ':' with a colon-free a gives a followed by the pieces of b |
| TextSplit.SplitFromShift | jerry-debugger/src/cli/cli.ts:22-26 | splitting a suffix within a longer text gives the pieces of the suffix alone |
| Breakpoints.NewBreakpoint | jerry-debugger/src/lib/breakpoint.ts:64-77 | copies func, line and offset; `activeIndex` is -1 unless one is supplied |
| Breakpoints.LineTable | jerry-debugger/src/lib/breakpoint.ts:43-53 | every entry of the lines table sits under its own line, belongs to the new function and is inactive |
| Breakpoints.OffsetTable | jerry-debugger/src/lib/breakpoint.ts:43-53 | every entry of the offsets table sits under its own offset, belongs to the new function and is inactive |
| Breakpoints.LineTableKeys | jerry-debugger/src/lib/breakpoint.ts:43-51 | the lines table's keys are exactly the frame's lines visited so far |
| Breakpoints.OffsetTableKeys | jerry-debugger/src/lib/breakpoint.ts:43-52 | the offsets table's keys are exactly the offsets paired with the lines visited so far, `undefined` for a missing one |
| Breakpoints.NewParsedFunction | jerry-debugger/src/lib/breakpoint.ts:34-54 | copies isFunc, line, column and name from the frame; takes byteCodeCP from its argument; the first breakpoint line and offset are element 0 of the frame's lists; every breakpoint is inactive, belongs to the function and is stored under its own line and offset |
| Breakpoints.NewParsedFunctionKeys | jerry-debugger/src/lib/breakpoint.ts:43-53 | the constructor's tables hold one entry per distinct frame line, and one per offset paired with a line |
| Breakpoints.LineTableLastWriter | jerry-debugger/src/lib/breakpoint.ts:43-51 | a repeated line keeps the breakpoint of its last occurrence |
| Breakpoints.OffsetTableLastWriter | jerry-debugger/src/lib/breakpoint.ts:43-52 | a repeated offset keeps the breakpoint of its last occurrence |
| Breakpoints.TableSizes | jerry-debugger/src/lib/breakpoint.ts:43 | neither table has more entries than the frame has lines |
| Breakpoints.SurplusOffsetsIgnored | jerry-debugger/src/lib/breakpoint.ts:43 | offsets beyond the number of lines change neither table |
| Breakpoints.DistinctTablesAgree | jerry-debugger/src/lib/breakpoint.ts:43-53 | without repeated lines or offsets, the breakpoint of index i is the same under its line and under its offset |
| Breakpoints.Location | jerry-debugger/src/lib/breakpoint.ts:80 | the location text is never empty: an empty or missing name becomes '<unknown>' |
| Breakpoints.ToString | jerry-debugger/src/lib/breakpoint.ts:79-95 | the text starts with location ':' line, and continues past it exactly for real functions; the two read-back lemmas below state the whole text |
| Breakpoints.ToStringReadsBack | jerry-debugger/src/lib/breakpoint.ts:79-95 | for a top-level breakpoint of a colon-free script name, splitting the text at ':' gives back the name and the line |
| Breakpoints.FunctionToStringReadsBack | jerry-debugger/src/lib/breakpoint.ts:79-95 | for a breakpoint inside a function, with colon-free script and function names, splitting the text at ':' gives exactly four pieces: the location; the breakpoint's line, then " (in ", the function's name or 'function' when it is empty, then "() at line"; the function's line, then ", col"; the function's column, then ")" |
| ProtocolHandler.New | jerry-debugger/src/lib/protocol-handler.ts:86-118 | a fresh handler has no pointer width, little-endian order, no functions, no current breakpoint and the top-level frame alone on its stack |
| ProtocolHandler.Abort | jerry-debugger/src/lib/protocol-handler.ts:358-363 | an error is reported once if the delegate defines `onError`, and otherwise not at all |
| ProtocolHandler.OnConfiguration | jerry-debugger/src/lib/protocol-handler.ts:160-180 | fewer than 5 bytes: one report and no change; otherwise bytes 1 to 4 are stored first, with a non-zero byte 3 meaning little-endian, then one report for a width outside {2, 4} and one for a wrong version |
| HandlerScenarios.Handshake | jerry-debugger/src/lib/protocol-handler.ts:160-180 | a configuration makes no report exactly when it has at least 5 bytes, width 2 or 4 and version 2; after a valid width every mapped message reaches its handler |
| HandlerScenarios.ConfigurationExamples | jerry-debugger/src/lib/__tests__/protocol-handler.test.ts:39-67 | the unit tests' configurations: 4 bytes refused with one report and no change; 6 bytes accepted; width 6 and version 3 each reported once; the normal message accepted |
| ProtocolHandler.HandlerFor | jerry-debugger/src/lib/protocol-handler.ts:94-107 | exactly the twelve listed message types have a handler; the list, source, source-name and backtrace handlers each serve exactly their pair of types |
| ProtocolHandler.OnMessage | jerry-debugger/src/lib/protocol-handler.ts:333-352 | an empty message, a non-configuration message before the configuration, and an unmapped type are each reported once and change nothing; every other message goes to the handler its type maps to |
| HandlerScenarios.OnMessageExamples | jerry-debugger/src/lib/__tests__/protocol-handler.test.ts:265-283 | the unit tests' exchanges: empty, out-of-order and unmapped (255) messages give exactly one report each |
| ProtocolHandler.OnParseFunction | jerry-debugger/src/lib/protocol-handler.ts:203-218 | throws the too-short error, changing nothing, exactly when the message is under 9 bytes; otherwise pushes one function frame whose line and column are the two decoded 4-byte fields, named by the pending function name and carrying the current source and source name with empty lists, and clears that name |
| ProtocolHandler.ListValues | jerry-debugger/src/lib/protocol-handler.ts:234-236 | a list of 4n bytes holds n values |
| ProtocolHandler.ListValuesDecode | jerry-debugger/src/lib/protocol-handler.ts:234-236 | value k of a list is the 4-byte integer decoded at byte `1 + 4k` |
| ProtocolHandler.OnBreakpointList | jerry-debugger/src/lib/protocol-handler.ts:220-237 | throws on a length that is not 1 plus a positive multiple of 4, or with no frame; otherwise appends the (length-1)/4 values to the top frame's lines or offsets only |
| ProtocolHandler.OnByteCodeCP | jerry-debugger/src/lib/protocol-handler.ts:182-201 | throws on an empty stack and changes nothing; otherwise pops exactly one frame, even when the pointer decode then throws; on success registers the popped frame's function under the decoded pointer and touches no other entry; the pop that empties the stack also gives it the script's lines, split on two line feeds, and the script's name |
| ParserProperties.HandlerStoresInner | jerry-debugger/src/lib/protocol-handler.ts:182-201 | a pop that leaves frames behind registers the function built from the popped frame under the decoded pointer and touches no other entry |
| HandlerProperties.ByteCodeCpIndexed | jerry-debugger/src/lib/protocol-handler.ts:182-201 | a registered function, with or without the script's lines and name, keeps every breakpoint under its own line and offset |
| ProtocolHandler.OnSourceCode | jerry-debugger/src/lib/protocol-handler.ts:239-253 | non-END fragments only accumulate; END decodes the whole buffer and clears it, and only with `onScriptParsed` reports id `lastScriptID + 1`, the name or '', and the count of pieces split on two line feeds |
| ProtocolHandler.OnSourceCodeName | jerry-debugger/src/lib/protocol-handler.ts:255-264 | non-END fragments only accumulate; END sets the source name from the whole buffer and clears the buffer |
| HandlerScenarios.SourcePacketsAccumulate | jerry-debugger/src/lib/protocol-handler.ts:239-243 | a run of SOURCE_CODE packets reports nothing and leaves the reassembled bytes in the buffer |
| HandlerScenarios.PacketsFillBuffer | jerry-debugger/src/lib/protocol-handler.ts:239-243 | from an empty buffer, SOURCE_CODE packets leave the non-empty concatenation of their payloads |
| HandlerScenarios.EndPacket | jerry-debugger/src/lib/protocol-handler.ts:239-253 | the END packet on a non-empty buffer reports the script once under the next id and clears the buffer |
| HandlerScenarios.ScriptFromPackets | jerry-debugger/src/lib/protocol-handler.ts:239-253 | a script sent as packets plus an END packet is reported once under the next id, with the text of every payload, and the buffer is cleared |
| HandlerScenarios.AbcText | jerry-debugger/src/lib/__tests__/protocol-handler.test.ts:118-130 | four 'abc' payloads decode to 'abcabcabcabc', one line |
| HandlerScenarios.AbcDecodes | jerry-debugger/src/lib/__tests__/protocol-handler.test.ts:118-130 | the bytes of 'abcabcabcabc' decode to that text, one line |
| HandlerScenarios.AbcPackets | jerry-debugger/src/lib/__tests__/protocol-handler.test.ts:118-130 | the test's three SOURCE_CODE packets and END packet satisfy the multi-packet scenario and decode to 'abcabcabcabc', one line |
| HandlerScenarios.NameReachesNextScript | jerry-debugger/src/lib/protocol-handler.ts:245-264 | a name completed by SOURCE_CODE_NAME_END is the name in the next script's report |
| HandlerScenarios.ScriptsAreSeparate | jerry-debugger/src/lib/protocol-handler.ts:239-253 | the second of two one-packet scripts is decoded from its own packet alone and numbered right after the first |
| ProtocolHandler.Lookup | jerry-debugger/src/lib/protocol-handler.ts:270-293 | a table lookup is defined exactly for a present key |
| ProtocolHandler.NearestBelow | jerry-debugger/src/lib/protocol-handler.ts:284-291 | the nearest offset is the greatest table offset in [0, offset], or -1 when there is none |
| HandlerProperties.ScanNearestBounds | jerry-debugger/src/lib/protocol-handler.ts:284-291 | the scan result never decreases from its start, is a key at most `offset` when it moved, and no key it passed over lies between it and `offset` |
| HandlerProperties.ScanFindsNearestBelow | jerry-debugger/src/lib/protocol-handler.ts:284-291 | whatever order the `for...in` loop visits the keys in, the scan finds the nearest offset below |
| ProtocolHandler.GetBreakpoint | jerry-debugger/src/lib/protocol-handler.ts:266-296 | throws exactly when the function pointer is unknown |
| HandlerProperties.GetBreakpointCases | jerry-debugger/src/lib/protocol-handler.ts:266-296 | an offset in the table resolves exactly to its breakpoint; an offset before the first breakpoint resolves exactly to the first; in every other case the result is inexact and is the table entry at the greatest offset at most the request, with nothing closer |
| ProtocolHandler.OnBreakpointHit | jerry-debugger/src/lib/protocol-handler.ts:298-327 | decodes pointer and offset, stores the resolution in `lastBreakpointHit`, even when undefined, and reports the hit only when found and the delegate listens |
| HandlerProperties.UnresolvedHitClearsCurrentBreakpoint | jerry-debugger/src/lib/protocol-handler.ts:298-313 | any decodable hit on a registered function without breakpoints throws after setting `lastBreakpointHit` to undefined, changing nothing else but the exactness flag |
| HandlerProperties.UnresolvedHitExample | jerry-debugger/src/lib/protocol-handler.ts:298-313 | an example: a hit at offset 0 of function 7 under 2-byte little-endian pointers clears `lastBreakpointHit` |
| HandlerProperties.OnlyHitsMoveTheCurrentBreakpoint | jerry-debugger/src/lib/protocol-handler.ts:333-352 | no message other than BREAKPOINT_HIT changes `lastBreakpointHit` |
| ProtocolHandler.ResumeExec | jerry-debugger/src/lib/protocol-handler.ts:365-373 | throws without a client or without a current breakpoint, sending nothing; otherwise sends exactly the byte `[code]`; state unchanged |
| ProtocolHandler.StepOver | jerry-debugger/src/lib/protocol-handler.ts:126-128 | throws exactly without a client or current breakpoint; otherwise sends only `[NEXT]` |
| ProtocolHandler.StepInto | jerry-debugger/src/lib/protocol-handler.ts:130-132 | throws exactly without a client or current breakpoint; otherwise sends only `[STEP]` |
| ProtocolHandler.Resume | jerry-debugger/src/lib/protocol-handler.ts:148-150 | throws exactly without a client or current breakpoint; otherwise sends only `[CONTINUE]` |
| ProtocolHandler.StepOut | jerry-debugger/src/lib/protocol-handler.ts:134-136 | sends nothing, reports nothing and changes nothing |
| ProtocolHandler.Pause | jerry-debugger/src/lib/protocol-handler.ts:138-146 | throws without a client, and when a breakpoint is current; otherwise sends only `[STOP]` |
| HandlerProperties.CommandsKeepState | jerry-debugger/src/lib/protocol-handler.ts:126-150 | no outbound command changes the handler, so none clears `lastBreakpointHit` |
| HandlerProperties.QuietKeeps | jerry-debugger/src/lib/protocol-handler.ts:358-363 | a step that only reports errors, through a listening delegate, keeps the run invariants |
| HandlerProperties.ConfigurationKeeps | jerry-debugger/src/lib/protocol-handler.ts:160-180 | a configuration keeps the delegate, the stack and the script numbering, and calls only defined callbacks |
| HandlerProperties.ByteCodeCpKeeps | jerry-debugger/src/lib/protocol-handler.ts:182-201 | BYTE_CODE_CP changes the stack only by popping one frame |
| HandlerProperties.ParseFunctionKeeps | jerry-debugger/src/lib/protocol-handler.ts:203-218 | PARSE_FUNCTION changes the stack only by pushing one function frame |
| HandlerProperties.BreakpointListKeeps | jerry-debugger/src/lib/protocol-handler.ts:220-237 | a breakpoint list changes only the top frame, keeping its kind |
| HandlerProperties.SourceCodeKeeps | jerry-debugger/src/lib/protocol-handler.ts:239-253 | SOURCE_CODE reports only through `onScriptParsed`, when defined, with the next id |
| HandlerProperties.SourceCodeNameKeeps | jerry-debugger/src/lib/protocol-handler.ts:255-264 | SOURCE_CODE_NAME keeps the stack and reports nothing |
| HandlerProperties.BreakpointHitKeeps | jerry-debugger/src/lib/protocol-handler.ts:298-327 | a breakpoint hit keeps the stack and calls only defined callbacks |
| HandlerProperties.MessageKeeps | jerry-debugger/src/lib/protocol-handler.ts:333-352 | every message keeps the delegate, moves the stack by at most one push, pop or top-frame change, calls only defined callbacks and hands out script ids one by one |
| HandlerProperties.RunKeeps | jerry-debugger/src/lib/protocol-handler.ts:109-117 | over any run: the delegate is fixed; only defined callbacks fire; scripts are numbered consecutively; the seeded top-level frame is never re-seeded |
| HandlerProperties.MessageKeepsIndexed | jerry-debugger/src/lib/protocol-handler.ts:333-352 | every message keeps each registered function indexed by its breakpoints' own lines and offsets |
| HandlerProperties.RunKeepsIndexed | jerry-debugger/src/lib/protocol-handler.ts:182-201 | every state a run reaches keeps the function table indexed |
| HandlerProperties.NoListenerNoIds | jerry-debugger/src/lib/protocol-handler.ts:245-247 | without `onScriptParsed`, `lastScriptID` never advances |
| HandlerProperties.NoScriptsWithoutListener | jerry-debugger/src/lib/protocol-handler.ts:245-247 | without `onScriptParsed`, no script is ever reported |
| HandlerProperties.FreshHandlerStack | jerry-debugger/src/lib/protocol-handler.ts:109-117 | from a fresh handler, only the bottom frame can ever be a top-level frame |
| HandlerScenarios.RunCons | jerry-debugger/src/lib/protocol-handler.ts:333-352 | a run is its first message's outcome followed, unless it threw, by the run of the rest |
| HandlerScenarios.ThenAssociative | jerry-debugger/src/lib/protocol-handler.ts:333-352 | chaining outcomes is associative |
| HandlerScenarios.RunAppend | jerry-debugger/src/lib/protocol-handler.ts:333-352 | the run over `a + b` is the run over a followed, unless it threw, by the run over b |
| ProtocolParser.New | jerry-debugger/src/lib/protocol-parser.ts:63-107 | a fresh parser has width 0, little-endian order, no buffer, no functions and the top-level frame alone |
| ProtocolParser.Abort | jerry-debugger/src/lib/protocol-parser.ts:109-113 | an error is reported once if the delegate defines `onError` |
| ProtocolParser.AddSize | jerry-debugger/src/lib/protocol-parser.ts:228-230 | adding `undefined` gives NaN; otherwise the sum |
| ProtocolParser.FormatSize | jerry-debugger/src/lib/protocol-parser.ts:220-241 | succeeds exactly for a known format; it is NaN exactly when a C meets an undefined width |
| ParserProperties.FormatSizeAgrees | jerry-debugger/src/lib/protocol-parser.ts:220-241 | with a stored width, the parser's size equals the size from utils.ts, and both throw on the same formats |
| ProtocolParser.Read4 | jerry-debugger/src/lib/protocol-parser.ts:275-281 | little-endian equals the utils.ts read; big-endian ORs the fourth byte into the top byte |
| ProtocolParser.DecodeFields | jerry-debugger/src/lib/protocol-parser.ts:254-287 | the field loop throws exactly when a C meets a width other than 2 or 4; only B fields can be undefined |
| ProtocolParser.DecodeOneField | jerry-debugger/src/lib/protocol-parser.ts:254-287 | a one-character format decodes to that one field |
| ProtocolParser.Decode | jerry-debugger/src/lib/protocol-parser.ts:243-288 | a message too short for the format is reported, not refused, and the loop still runs |
| ParserProperties.DecodeAgrees | jerry-debugger/src/lib/protocol-parser.ts:243-288 | wherever utils.ts succeeds, little-endian or without 4-byte fields, the parser reports nothing and returns the same values |
| ParserProperties.FieldsAgree | jerry-debugger/src/lib/protocol-parser.ts:254-287 | the two field loops agree on every in-range little-endian or narrow format |
| ParserProperties.FieldsAgreeWithoutPointer | jerry-debugger/src/lib/protocol-parser.ts:254-287 | a format without C decodes alike whatever the stored width |
| ParserProperties.TooShortIsReportedNotThrown | jerry-debugger/src/lib/protocol-parser.ts:250-252 | a too-short message gives one report and still a successful decode |
| ParserProperties.ShortByteIsUndefined | jerry-debugger/src/lib/protocol-parser.ts:250-258 | B past the end is reported and reads `undefined` |
| ParserProperties.BigEndianLowByteLost | jerry-debugger/src/lib/protocol-parser.ts:279-280 | the parser's big-endian 4-byte value always has a zero low byte and `b0 \| b3` as its top byte |
| ParserProperties.BigEndianIntAsWritten | jerry-debugger/src/lib/protocol-parser.ts:279-280 | big-endian [1, 2, 3, 4] reads 0x05020300 in the parser and 0x01020304 in utils.ts |
| ProtocolParser.OnConfiguration | jerry-debugger/src/lib/protocol-parser.ts:115-133 | always stores bytes 1 to 4, missing ones undefined; reports a length other than 5, a previously stored width outside {2, 4}, and a version other than 1 |
| ParserProperties.ConfigurationChecksOldWidth | jerry-debugger/src/lib/protocol-parser.ts:115-133 | a fresh parser reports an invalid width for every configuration; a valid one silences the check for the next |
| ParserProperties.ValidConfigurationReported | jerry-debugger/src/lib/protocol-parser.ts:115-133 | the configuration [CONFIGURATION, 128, 2, 1, 1] is reported as invalid width by a fresh parser, while its version-2 counterpart passes the later handler |
| ParserProperties.WrongLengthStillStored | jerry-debugger/src/lib/protocol-parser.ts:115-133 | a 3-byte configuration is reported for its length and version, yet its width is stored |
| ProtocolParser.HandlerFor | jerry-debugger/src/lib/protocol-parser.ts:86-96 | exactly nine message types have a handler; the list, source and source-name handlers each serve exactly their pair of types |
| ParserProperties.TablesAgree | jerry-debugger/src/lib/protocol-parser.ts:86-96 | the earlier table is the later one's without breakpoint hits and backtraces, and every type both map reaches the same operation |
| ProtocolParser.ParseData | jerry-debugger/src/lib/protocol-parser.ts:290-309 | empty and out-of-order messages are reported but still dispatched; an unmapped type is only logged |
| ParserProperties.NonConfigurationFirstStillHandled | jerry-debugger/src/lib/protocol-parser.ts:290-309 | a script END packet first is reported and still parsed into a script, while the later handler only reports it |
| ParserProperties.UnhandledTypeOnlyLogged | jerry-debugger/src/lib/protocol-parser.ts:303-308 | a type without a handler changes nothing and reports nothing |
| ProtocolParser.OnSourceCode | jerry-debugger/src/lib/protocol-parser.ts:193-208 | END decodes the whole buffer, which stays, and with `onScriptParsed` reports the next id and the count of pieces split on CR LF followed by CR or LF |
| ProtocolParser.OnSourceCodeName | jerry-debugger/src/lib/protocol-parser.ts:210-218 | END sets the name from the whole buffer, which stays |
| ParserProperties.SourceDataNeverCleared | jerry-debugger/src/lib/protocol-parser.ts:193-208 | the second of two one-packet scripts is decoded with the first script's bytes in front |
| ParserProperties.SecondScriptAsWritten | jerry-debugger/src/lib/protocol-parser.ts:193-208 | scripts 'a' then 'b' leave the source 'ab' |
| ProtocolParser.OnParseFunction | jerry-debugger/src/lib/protocol-parser.ts:156-171 | never throws; a short message is reported and read as zeros; pushes one function frame named by the pending name |
| ParserProperties.ParseFunctionAgrees | jerry-debugger/src/lib/protocol-parser.ts:156-171 | on a long enough little-endian message both machines push the same frame |
| ProtocolParser.ListValues | jerry-debugger/src/lib/protocol-parser.ts:187-189 | a list of 4n bytes holds n values |
| ParserProperties.ListValuesAgree | jerry-debugger/src/lib/protocol-parser.ts:187-189 | little-endian list values are those of the later handler |
| ProtocolParser.OnBreakpointList | jerry-debugger/src/lib/protocol-parser.ts:173-191 | the same length check, frame check and append as the later handler |
| ParserProperties.BreakpointListAgrees | jerry-debugger/src/lib/protocol-parser.ts:173-191 | little-endian breakpoint lists throw alike and leave the same parse state in both machines |
| ProtocolParser.OnByteCodeCP | jerry-debugger/src/lib/protocol-parser.ts:135-154 | throws on an empty stack; otherwise pops one frame, passes on the decode's reports, and throws exactly when the width is not 2 or 4; on success registers the popped frame's function under the decoded pointer and touches no other entry; the pop that empties the stack also gives it the script's lines, split on CR LF, and the script's name |
| ParserProperties.OuterByteCodeCpAgrees | jerry-debugger/src/lib/protocol-parser.ts:135-154 | the pop that empties the stack registers the same function in the earlier and the later handler, except that the lines are split on CR LF rather than on two line feeds |
| ParserProperties.ByteCodeCpAgrees | jerry-debugger/src/lib/protocol-parser.ts:135-154 | both machines throw alike and pop the same frame; below the outermost frame they register the same function |
| ParserProperties.ParserStoresInner | jerry-debugger/src/lib/protocol-parser.ts:135-154 | a pop that leaves frames registers the popped frame's function under the decoded pointer |
| ParserProperties.PoppedDecodesSame | jerry-debugger/src/lib/protocol-parser.ts:137-142 | after the pop both machines read the same pointer, the parser without reports |
| ParsedSources.New | jerry-debugger/src/lib/parsed-source.ts:50-63 | a fresh receiver has the top-level frame alone, empty buffers, no functions and the client's table |
| ParsedSources.OnSourceCode | jerry-debugger/src/lib/parsed-source.ts:73-87 | END emits `scriptParsed` with the next id, whatever listens, and never clears the buffer |
| ParsedSources.OnSourceCodeName | jerry-debugger/src/lib/parsed-source.ts:89-96 | only END sets the name, from the whole buffer, which stays |
| ParsedSources.OnFunctionName | jerry-debugger/src/lib/parsed-source.ts:98-102 | FUNCTION_NAME and its END only accumulate the pending name |
| ParsedSources.OnParseFunction | jerry-debugger/src/lib/parsed-source.ts:104-120 | pushes one function frame named by the pending name and drops the name; a short message throws and changes nothing |
| ParsedSources.OnBreakpointList | jerry-debugger/src/lib/parsed-source.ts:122-140 | the length check and the append go to the top frame's matching list only |
| ParsedSources.OnByteCodeCP | jerry-debugger/src/lib/parsed-source.ts:142-161 | throws on an empty stack; pops one frame; registers the function; only a pop that empties the stack copies the whole table into the client's |
| ParsedSources.Store | jerry-debugger/src/lib/parsed-source.ts:152-176 | the function is registered under cp; publishing copies every entry into the client's table and keeps the client's other entries |
| ParsedSources.Receive | jerry-debugger/src/lib/parsed-source.ts:69-177 | an empty message or a type without a case changes nothing; only an emptying BYTE_CODE_CP touches the client's table, which only grows; script ids follow the last one |
| ParsedSources.RunNumbersScripts | jerry-debugger/src/lib/parsed-source.ts:73-87 | over any run, scripts are numbered one after another and the client's table only gains keys |
| ParsedSources.EmptyingPopPublishes | jerry-debugger/src/lib/parsed-source.ts:157-176 | the pop that empties the stack publishes every function collected so far |
| ParsedSources.StackNotReseeded | jerry-debugger/src/lib/parsed-source.ts:122-161 | once the seeded top-level frame is popped, the next breakpoint list throws |
| ParsedSources.ReceiveByteCodeCp | jerry-debugger/src/lib/parsed-source.ts:142-161 | `receive` hands BYTE_CODE_CP to its case |
| ParsedSources.ListWithoutFrame | jerry-debugger/src/lib/parsed-source.ts:122-140 | a breakpoint list on an empty stack throws |
| ParsedSources.RunOfTwo | jerry-debugger/src/lib/parsed-source.ts:69-177 | the second message of a run is received in the state the first left |
| ParsedSources.SourceDataNeverCleared | jerry-debugger/src/lib/parsed-source.ts:73-87 | the second script is decoded from both scripts' bytes |
| ParsedSources.ParseFunctionAgrees | jerry-debugger/src/lib/parsed-source.ts:104-120 | PARSE_FUNCTION throws alike and leaves the same parse state as the later handler |
| ParsedSources.BreakpointListAgrees | jerry-debugger/src/lib/parsed-source.ts:122-140 | breakpoint lists throw alike and leave the same parse state as the later handler |
| ParsedSources.ByteCodeCpAgrees | jerry-debugger/src/lib/parsed-source.ts:142-161 | throws alike and pops alike; while frames remain, registers the same function as the later handler; the pop that empties the stack differs only in the outermost function's lines, split on CR LF rather than on two line feeds |
| ArgIterator.Pop | jerry-ext/args/arg-js-iterator-helper.c:26-31 | the index always advances by one, modulo 2^32; below the count the value is read and the pointer advances; otherwise undefined and the pointer stays |
| ArgIterator.Peek | jerry-ext/args/arg-js-iterator-helper.c:42-47 | peek returns what the next pop returns |
| ArgIterator.Pops | jerry-ext/args/arg-js-iterator-helper.c:26-31 | n pops read the arguments in order while the index is below the count, then undefined; the pointer advances once per argument read |
| ArgIterator.FreshPops | jerry-ext/args/arg-js-iterator-helper.c:26-31 | from index 0, n pops leave index n and the pointer advanced by min(n, cnt) |
| ArgIterator.IndexWraps | jerry-ext/args/arg-js-iterator-helper.c:26-31 | a pop at index 0xFFFFFFFF wraps the index to 0 |
| Cli.ToNumber | jerry-debugger/src/cli/cli.ts:26 | `Number('')` is 0; decimal digits worth at most 2^53 give their exact value, and an evaluated result never exceeds 2^53 |
| Cli.GetHostAndPort | jerry-debugger/src/cli/cli.ts:21-28 | text without a colon is a port on 127.0.0.1; text with a colon gives a colon-free host that ends right before the first colon |
| Cli.GetOptionsFromArgs | jerry-debugger/src/cli/cli.ts:30-44 | the options are exactly `getHostAndPort` of the inspect-brk value, which defaults to 127.0.0.1:9229 |
| Cli.PortOnly | jerry-debugger/src/cli/cli.ts:18-27 | text without ':' is a port on 127.0.0.1 |
| Cli.HostBeforeFirstColon | jerry-debugger/src/cli/cli.ts:21-27 | the host is the text before the first ':', even if empty; the port is the next piece; later pieces are ignored |
| Cli.HostAndPortRoundTrip | jerry-debugger/src/cli/cli.ts:21-27 | `host:port` with a colon-free host and a port of at most 2^53 reads back as that host and port |
| Cli.DefaultDecodes | jerry-debugger/src/cli/cli.ts:18-33 | the default target decodes to 127.0.0.1 and 9229 |

## Left out

- Opcode values: the constants module is not part of this model. The stand-ins are distinct, and nothing depends on their values.
- `encodeMessage`: only the single-byte `B` command encoding is modelled, because the encoder is not part of this model.
- `onBacktrace`: it only logs. `exceptionData` and the EXCEPTION_HIT branch of `onBreakpointHit` are unreachable: the opcode has no entry in the dispatch table.
- Console logging and error message texts: an error is a tag.
- `getSource` and `getLastBreakpoint` of protocol-handler.ts: they are plain field reads.
- Unit tests that call members absent from the modelled handler (`findBreakpoint`, `updateBreakpoint`, `requestBacktrace`, an `onBacktrace` delegate) or that expect `stepOut` to send FINISH: they do not describe this code.
- `debugger-client.ts`: the socket client. The `decodeMessage` that `parsed-source.ts` calls is modelled by `ByteCodec.Decode`, and the client's `functions` table by the receiver's `published` field.
- `cli.ts` `main()`, the proxy server and minimist: `GetOptionsFromArgs` receives the parsed `--inspect-brk` value.
- `cdt-controller.ts` and `cdt-proxy.ts`: adapters and a WebSocket server, outside the protocol core.
- Cli.ToNumber: evaluates only the empty string and plain decimal digits worth at most 2^53. Any other text stays the symbolic value `NumberOf(text)`, because the full `Number()` grammar (whitespace, signs, exponents, hex, NaN) and IEEE 754 rounding are not part of this model. Larger digit strings, which `Number` rounds to the nearest double (or Infinity), are symbolic too.
- Cli.HostAndPortRoundTrip: covers ports up to 2^53 only, since larger ports are not read back exactly by the source either.
- ArgIterator.Pops: requires the index not to wrap during the n pops. A single wrapping pop is covered by `ArgIterator.IndexWraps`.
- ArgIterator.GetIndex: a plain field read with no contract, used in the iterator lemmas.
- ParserProperties.ParseFunctionAgrees: covers little-endian messages only, because the parser's big-endian 4-byte read differs (see Findings).
- The `func` object reference of a breakpoint is the function's byte-code pointer. JavaScript object keys are numbers rather than strings, and the key `undefined` is `None`.
- `getBreakpoint`'s `for...in` scan is defined as a downward search, and `HandlerProperties.ScanFindsNearestBelow` proves any enumeration order gives the same result.
- Runs stop at the first thrown exception, as an uncaught throw ends the message handler's caller.
- The protocol machines decode with `cesu8ToString` as written, 0x7f taken as a lead byte, since every version calls that one function; the corrected decoder of the Findings table is proved about but not used by them.
- Concurrency: WebSocket delivery and event-loop timing are outside the model. Messages arrive one at a time, in order.

## Findings

| source | as written | input that shows it | evidently intended | confidence | as-written member | corrected member |
|---|---|---|---|---|---|---|
| jerry-debugger/src/lib/protocol-parser.ts:279-280 | a big-endian 4-byte field shifts the fourth byte left by 24 instead of 0 | big-endian `I` on [1, 2, 3, 4] gives 0x05020300 | 0x01020304, as in utils.ts:80-86 | not executed; high | ParserProperties.BigEndianIntAsWritten | ParserProperties.DecodeAgrees |
| jerry-debugger/src/lib/protocol-parser.ts:120-122 | the pointer width is checked before the new one is stored | [CONFIGURATION, 128, 2, 1, 1] on a fresh parser reports an invalid width | check the received width, as protocol-handler.ts:167-175 does | not executed; high | ParserProperties.ValidConfigurationReported | HandlerScenarios.Handshake |
| jerry-debugger/src/lib/protocol-parser.ts:193-208 | `sourceData` is never cleared after SOURCE_CODE_END | two one-packet scripts 'a' and 'b': the second is reported as 'ab' | each script decoded from its own packets, as protocol-handler.ts:244 does | not executed; medium | ParserProperties.SecondScriptAsWritten | HandlerScenarios.ScriptsAreSeparate |
| jerry-debugger/src/lib/utils.ts:108 | `chr >= 0x7f` takes the CESU-8 byte 0x7f, U+007F, for the lead of a multi-byte sequence | [0x7f, 0x41, 0x42], the CESU-8 bytes of "\x7fAB", decodes to the single code unit U+F042 | `chr >= 0x80`, so that 0x7f is copied as U+007F | not executed; medium | TextCodec.DelSwallowsNextBytes | TextCodec.CorrectedReadsCesu8 |

=== FILE: arg_iterator.dfy ===
/** jerry-ext/args/arg-js-iterator-helper.c: the iterator over the
    JavaScript arguments of a native call. The C pointer `js_arg_p` is a
    position `pos` in the argument array; `js_arg_idx` and `js_arg_cnt` are
    `jerry_length_t`, an unsigned 32-bit integer, so the index wraps. A
    returned `jerry_create_undefined ()` is None. */
module ArgIterator {

  import opened Wrappers

  const Uint32Limit: int := 0x1_0000_0000

  type Uint32 = x: int | 0 <= x < Uint32Limit

  /** `jerryx_arg_js_iterator_t`. */
  datatype Iterator<T> = Iterator(args: seq<T>, pos: nat, idx: Uint32, cnt: Uint32)

  /** A popped value with the iterator after the pop. */
  datatype Popped<T> = Popped(value: Option<T>, iter: Iterator<T>)

  /** The pointer may be read: it is in the array whenever the index is
      below the count. */
  predicate Readable<T>(it: Iterator<T>) {
    it.idx < it.cnt ==> it.pos < |it.args|
  }

  /** `jerryx_arg_js_iterator_pop`: the index is post-incremented on every
      call (modulo 2^32); the pointer is read and advanced only when the
      old index was below the count. */
  function Pop<T>(it: Iterator<T>): (r: Popped<T>)
    requires Readable(it)
    ensures r.iter.args == it.args && r.iter.cnt == it.cnt
    ensures r.iter.idx == (it.idx + 1) % Uint32Limit
    ensures it.idx < it.cnt ==> r.value == Some(it.args[it.pos]) && r.iter.pos == it.pos + 1
    ensures it.idx >= it.cnt ==> r.value.None? && r.iter.pos == it.pos
  {
    var next := it.(idx := (it.idx + 1) % Uint32Limit);
    if it.idx < it.cnt then Popped(Some(it.args[it.pos]), next.(pos := it.pos + 1))
    else Popped(None, next)
  }

  /** `jerryx_arg_js_iterator_peek`: the value the next pop returns. */
  function Peek<T>(it: Iterator<T>): (r: Option<T>)
    requires Readable(it)
    ensures r == Pop(it).value
  {
    if it.idx < it.cnt then Some(it.args[it.pos]) else None
  }

  /** `jerryx_arg_js_iterator_get_index`. */
  function GetIndex<T>(it: Iterator<T>): Uint32 {
    it.idx
  }

  /** The arguments still to come fit in the array. */
  predicate InBounds<T>(it: Iterator<T>) {
    it.idx < it.cnt ==> it.pos + (it.cnt - it.idx) <= |it.args|
  }

  /** `n` pops in a row, while the index does not wrap: the values are the
      arguments from the pointer on while the index is below the count, and
      undefined after; the pointer advances once per argument read. */
  function Pops<T>(it: Iterator<T>, n: nat): (r: (seq<Option<T>>, Iterator<T>))
    requires InBounds(it) && it.idx + n < Uint32Limit
    ensures |r.0| == n
    ensures r.1.args == it.args && r.1.cnt == it.cnt && r.1.idx == it.idx + n
    ensures r.1.pos == it.pos + (if it.idx >= it.cnt then 0 else if it.idx + n <= it.cnt then n else it.cnt - it.idx)
    ensures forall k :: 0 <= k < n && it.idx + k < it.cnt ==> r.0[k] == Some(it.args[it.pos + k])
    ensures forall k :: 0 <= k < n && it.idx + k >= it.cnt ==> r.0[k].None?
    ensures InBounds(r.1)
    decreases n
  {
    if n == 0 then ([], it)
    else
      var first := Pop(it);
      var rest := Pops(first.iter, n - 1);
      ([first.value] + rest.0, rest.1)
  }

  /** From a fresh iterator (index 0, pointer at the first argument), `n`
      pops read the `cnt` arguments in order and then undefined; the index
      is `n` and the pointer has advanced by min(n, cnt). */
  lemma FreshPops<T>(args: seq<T>, cnt: Uint32, n: nat)
    requires cnt <= |args| && n < Uint32Limit
    ensures var r := Pops(Iterator(args, 0, 0, cnt), n);
      && GetIndex(r.1) == n
      && r.1.pos == (if n <= cnt then n else cnt)
      && (n <= cnt ==> r.0 == seq(n, k requires 0 <= k < n => Some(args[k])))
      && (n > cnt ==> r.0 == seq(cnt, k requires 0 <= k < cnt => Some(args[k])) + seq(n - cnt, _ => None))
  {
    var r := Pops(Iterator(args, 0, 0, cnt), n);
    if n > cnt {
      var none: Option<T> := None;
      var expected := seq(cnt, k requires 0 <= k < cnt => Some(args[k])) + seq(n - cnt, _ => none);
      forall k | 0 <= k < n
        ensures r.0[k] == expected[k]
      {
      }
    }
  }

  /** At index 0xFFFFFFFF a pop wraps the index to 0; with a non-zero
      count the iterator then reads from its pointer again. */
  lemma IndexWraps<T>(it: Iterator<T>)
    requires it.idx == Uint32Limit - 1 && Readable(it)
    ensures GetIndex(Pop(it).iter) == 0
    ensures it.cnt > 0 && it.pos < |it.args| ==> Peek(Pop(it).iter) == Some(it.args[it.pos])
  {
  }
}

=== FILE: breakpoint.dfy ===
/** jerry-debugger/src/lib/breakpoint.ts: a function whose byte code has
    been received (`ParsedFunction`), built from the parser stack frame that
    collected its breakpoint lines and byte-code offsets, and its
    `Breakpoint`s, indexed by line and by offset. */
module Breakpoints {

  import opened Wrappers
  import opened JsValues
  import TextSplit

  /** `ParserStackFrame`: a function whose byte code is still arriving. */
  datatype Frame = Frame(
    isFunc: bool,
    line: int,
    column: int,
    name: JsString,
    source: JsString,
    sourceName: Option<JsString>,
    lines: seq<int>,
    offsets: seq<int>)

  /** The frame for the script's top-level code that every version of the
      protocol machine seeds its parser stack with. */
  const TopLevelFrame: Frame := Frame(false, 1, 1, [], [], None, [], [])

  /** A `Breakpoint`. The source's `func` reference is represented by the
      byte-code pointer under which its `ParsedFunction` is registered.
      `offset` is `frame.offsets[i]`, which is `undefined` (None) when the
      frame received fewer offsets than lines. */
  datatype Breakpoint = Breakpoint(funcCP: int, line: int, offset: Option<int>, activeIndex: int)

  /** A `ParsedFunction`. JavaScript object keys are strings: the offset
      table's key `undefined` is None. `source` and `sourceName` are set
      only on the outermost function, after construction. */
  datatype ParsedFunction = ParsedFunction(
    isFunc: bool,
    byteCodeCP: int,
    line: int,
    column: int,
    name: JsString,
    firstBreakpointLine: Option<int>,
    firstBreakpointOffset: Option<int>,
    lines: map<int, Breakpoint>,
    offsets: map<Option<int>, Breakpoint>,
    source: Option<seq<JsString>>,
    sourceName: Option<JsString>)

  /** The `Breakpoint` constructor: `activeIndex` is -1 unless supplied. */
  function NewBreakpoint(funcCP: int, line: int, offset: Option<int>, activeIndex: Option<int>): (r: Breakpoint)
    ensures r.funcCP == funcCP && r.line == line && r.offset == offset
    ensures activeIndex.None? ==> r.activeIndex == -1
    ensures activeIndex.Some? ==> r.activeIndex == activeIndex.value
  {
    Breakpoint(funcCP, line, offset, activeIndex.GetOr(-1))
  }

  /** The breakpoint the constructor creates for index `i` of the frame. */
  function MakeBreakpoint(cp: int, frame: Frame, i: nat): Breakpoint
    requires i < |frame.lines|
  {
    NewBreakpoint(cp, frame.lines[i], Element(frame.offsets, i), Some(-1))
  }

  /** The `lines` table after the first `n` iterations of the constructor
      loop: each breakpoint stored under its own line. */
  function LineTable(cp: int, frame: Frame, n: nat): (r: map<int, Breakpoint>)
    requires n <= |frame.lines|
    ensures forall l :: l in r ==> r[l].line == l && r[l].funcCP == cp && r[l].activeIndex == -1
  {
    if n == 0 then map[]
    else
      var bp := MakeBreakpoint(cp, frame, n - 1);
      LineTable(cp, frame, n - 1)[bp.line := bp]
  }

  /** The `offsets` table after the first `n` iterations: each breakpoint
      stored under its own offset. */
  function OffsetTable(cp: int, frame: Frame, n: nat): (r: map<Option<int>, Breakpoint>)
    requires n <= |frame.lines|
    ensures forall o :: o in r ==> r[o].offset == o && r[o].funcCP == cp && r[o].activeIndex == -1
  {
    if n == 0 then map[]
    else
      var bp := MakeBreakpoint(cp, frame, n - 1);
      OffsetTable(cp, frame, n - 1)[bp.offset := bp]
  }

  /** The lines table holds exactly the lines of the first `n` indices. */
  lemma {:induction false} LineTableKeys(cp: int, frame: Frame, n: nat)
    requires n <= |frame.lines|
    ensures LineTable(cp, frame, n).Keys == set i | 0 <= i < n :: frame.lines[i]
  {
    if n > 0 {
      LineTableKeys(cp, frame, n - 1);
      assert (set i | 0 <= i < n :: frame.lines[i]) == (set i | 0 <= i < n - 1 :: frame.lines[i]) + {frame.lines[n - 1]};
    }
  }

  /** The offsets table holds exactly the offsets of the first `n`
      indices, `undefined` for an index past the offsets. */
  lemma {:induction false} OffsetTableKeys(cp: int, frame: Frame, n: nat)
    requires n <= |frame.lines|
    ensures OffsetTable(cp, frame, n).Keys == set i | 0 <= i < n :: Element(frame.offsets, i)
  {
    if n > 0 {
      OffsetTableKeys(cp, frame, n - 1);
      assert (set i | 0 <= i < n :: Element(frame.offsets, i))
          == (set i | 0 <= i < n - 1 :: Element(frame.offsets, i)) + {Element(frame.offsets, n - 1)};
    }
  }

  /** Every breakpoint is stored under its own line and its own offset. */
  predicate Indexed(f: ParsedFunction) {
    && (forall l :: l in f.lines ==> f.lines[l].line == l)
    && (forall o :: o in f.offsets ==> f.offsets[o].offset == o)
  }

  /** The `ParsedFunction` constructor. */
  function NewParsedFunction(byteCodeCP: int, frame: Frame): (r: ParsedFunction)
    ensures r.isFunc == frame.isFunc && r.byteCodeCP == byteCodeCP
    ensures r.line == frame.line && r.column == frame.column && r.name == frame.name
    ensures r.firstBreakpointLine == Element(frame.lines, 0)
    ensures r.firstBreakpointOffset == Element(frame.offsets, 0)
    ensures forall l :: l in r.lines ==> r.lines[l].line == l && r.lines[l].funcCP == byteCodeCP && r.lines[l].activeIndex == -1
    ensures forall o :: o in r.offsets ==> r.offsets[o].offset == o && r.offsets[o].funcCP == byteCodeCP && r.offsets[o].activeIndex == -1
    ensures r.source.None? && r.sourceName.None?
    ensures Indexed(r)
  {
    ParsedFunction(
      frame.isFunc, byteCodeCP, frame.line, frame.column, frame.name,
      Element(frame.lines, 0), Element(frame.offsets, 0),
      LineTable(byteCodeCP, frame, |frame.lines|),
      OffsetTable(byteCodeCP, frame, |frame.lines|),
      None, None)
  }

  /** The constructor's tables hold one entry per distinct line of the
      frame, and one per offset paired with a line (an offset without a
      line goes under `undefined`). */
  lemma NewParsedFunctionKeys(byteCodeCP: int, frame: Frame)
    ensures var r := NewParsedFunction(byteCodeCP, frame);
      && r.lines.Keys == (set i | 0 <= i < |frame.lines| :: frame.lines[i])
      && r.offsets.Keys == (set i | 0 <= i < |frame.lines| :: Element(frame.offsets, i))
  {
    LineTableKeys(byteCodeCP, frame, |frame.lines|);
    OffsetTableKeys(byteCodeCP, frame, |frame.lines|);
  }

  /** The table entry for line `l` is the breakpoint of the LAST index
      carrying that line: later iterations overwrite earlier ones. */
  lemma {:induction false} LineTableLastWriter(cp: int, frame: Frame, n: nat, l: int)
    requires n <= |frame.lines|
    requires l in LineTable(cp, frame, n)
    ensures exists j ::
              && 0 <= j < n && frame.lines[j] == l
              && LineTable(cp, frame, n)[l] == MakeBreakpoint(cp, frame, j)
              && forall k :: j < k < n ==> frame.lines[k] != l
  {
    var prev := LineTable(cp, frame, n - 1);
    if frame.lines[n - 1] == l {
      assert LineTable(cp, frame, n)[l] == MakeBreakpoint(cp, frame, n - 1);
    } else {
      assert l in prev;
      LineTableLastWriter(cp, frame, n - 1, l);
      var j :| 0 <= j < n - 1 && frame.lines[j] == l &&
        prev[l] == MakeBreakpoint(cp, frame, j) &&
        forall k :: j < k < n - 1 ==> frame.lines[k] != l;
      assert LineTable(cp, frame, n)[l] == MakeBreakpoint(cp, frame, j);
    }
  }

  /** The same for the offset table. */
  lemma {:induction false} OffsetTableLastWriter(cp: int, frame: Frame, n: nat, o: Option<int>)
    requires n <= |frame.lines|
    requires o in OffsetTable(cp, frame, n)
    ensures exists j ::
              && 0 <= j < n && Element(frame.offsets, j) == o
              && OffsetTable(cp, frame, n)[o] == MakeBreakpoint(cp, frame, j)
              && forall k :: j < k < n ==> Element(frame.offsets, k) != o
  {
    var prev := OffsetTable(cp, frame, n - 1);
    if Element(frame.offsets, n - 1) == o {
      assert OffsetTable(cp, frame, n)[o] == MakeBreakpoint(cp, frame, n - 1);
    } else {
      assert o in prev;
      OffsetTableLastWriter(cp, frame, n - 1, o);
      var j :| 0 <= j < n - 1 && Element(frame.offsets, j) == o &&
        prev[o] == MakeBreakpoint(cp, frame, j) &&
        forall k :: j < k < n - 1 ==> Element(frame.offsets, k) != o;
      assert OffsetTable(cp, frame, n)[o] == MakeBreakpoint(cp, frame, j);
    }
  }

  /** The loop runs over `frame.lines` only: neither table has more
      entries than there are lines. */
  lemma {:induction false} TableSizes(cp: int, frame: Frame, n: nat)
    requires n <= |frame.lines|
    ensures |LineTable(cp, frame, n)| <= n
    ensures |OffsetTable(cp, frame, n)| <= n
  {
    if n > 0 {
      TableSizes(cp, frame, n - 1);
      var bp := MakeBreakpoint(cp, frame, n - 1);
      MapUpdateSize(LineTable(cp, frame, n - 1), bp.line, bp);
      MapUpdateSize(OffsetTable(cp, frame, n - 1), bp.offset, bp);
    }
  }

  lemma MapUpdateSize<K, V>(m: map<K, V>, k: K, v: V)
    ensures |m[k := v]| <= |m| + 1
  {
    assert m[k := v].Keys == m.Keys + {k};
  }

  /** Offsets beyond the number of lines never reach either table. */
  lemma {:induction false} SurplusOffsetsIgnored(cp: int, frame: Frame, extra: seq<int>, n: nat)
    requires n <= |frame.lines| <= |frame.offsets|
    ensures OffsetTable(cp, frame.(offsets := frame.offsets + extra), n) == OffsetTable(cp, frame, n)
    ensures LineTable(cp, frame.(offsets := frame.offsets + extra), n) == LineTable(cp, frame, n)
  {
    if n > 0 {
      SurplusOffsetsIgnored(cp, frame, extra, n - 1);
      assert (frame.offsets + extra)[n - 1] == frame.offsets[n - 1];
    }
  }

  predicate Distinct(s: seq<int>) {
    forall i, j :: 0 <= i < j < |s| ==> s[i] != s[j]
  }

  /** With no repeated line and no repeated offset, the breakpoint of index
      `i` is found both under its line and under its offset. */
  lemma DistinctTablesAgree(cp: int, frame: Frame, i: nat)
    requires Distinct(frame.lines) && Distinct(frame.offsets)
    requires i < |frame.lines| && i < |frame.offsets|
    ensures var f := NewParsedFunction(cp, frame);
      frame.lines[i] in f.lines && Some(frame.offsets[i]) in f.offsets &&
      f.lines[frame.lines[i]] == f.offsets[Some(frame.offsets[i])] == MakeBreakpoint(cp, frame, i)
  {
    var n := |frame.lines|;
    var l := frame.lines[i];
    var o := Element(frame.offsets, i);
    LineTableKeys(cp, frame, n);
    OffsetTableKeys(cp, frame, n);
    assert l in LineTable(cp, frame, n);
    assert o in OffsetTable(cp, frame, n);
    LineTableLastWriter(cp, frame, n, l);
    OffsetTableLastWriter(cp, frame, n, o);
    var j :| 0 <= j < n && frame.lines[j] == l &&
      LineTable(cp, frame, n)[l] == MakeBreakpoint(cp, frame, j) &&
      forall k :: j < k < n ==> frame.lines[k] != l;
    var j' :| 0 <= j' < n && Element(frame.offsets, j') == o &&
      OffsetTable(cp, frame, n)[o] == MakeBreakpoint(cp, frame, j') &&
      forall k :: j' < k < n ==> Element(frame.offsets, k) != o;
    assert j == i;
    assert j' == i;
  }

  /** `func.sourceName || '<unknown>'`: the empty name counts as missing. */
  function Location(func: ParsedFunction): (r: JsString)
    ensures |r| > 0
  {
    match func.sourceName
    case Some(n) => if |n| > 0 then n else Str("<unknown>")
    case None => Str("<unknown>")
  }

  /** `Breakpoint.toString()`, with `func` the breakpoint's function. */
  function ToString(bp: Breakpoint, func: ParsedFunction): (r: JsString)
    ensures Location(func) + [TextSplit.ColonUnit] + IntToString(bp.line) <= r
    ensures func.isFunc <==> |r| > |Location(func)| + 1 + |IntToString(bp.line)|
  {
    var head := Location(func) + [TextSplit.ColonUnit] + IntToString(bp.line);
    if func.isFunc then
      var tail := Str(" (in ") + (if |func.name| > 0 then func.name else Str("function"))
        + Str("() at line:") + IntToString(func.line) + Str(", col:") + IntToString(func.column) + Str(")");
      assert |tail| > 0 && head <= head + tail;
      head + tail
    else head
  }

  /** For a top-level breakpoint whose script name has no ':', splitting
      the text at ':' gives back the script name and the line. */
  lemma ToStringReadsBack(bp: Breakpoint, func: ParsedFunction)
    requires !func.isFunc && bp.line >= 0
    requires TextSplit.ColonUnit !in Location(func)
    ensures var pieces := TextSplit.Split(ToString(bp, func), TextSplit.Colon);
      |pieces| == 2 && pieces[0] == Location(func) &&
      AllDigits(pieces[1]) && ParseDecimal(pieces[1]) == bp.line
  {
    var digits := DecimalString(bp.line);
    TextSplit.SplitAtFirstColon(Location(func), digits);
    assert TextSplit.NoMatch(TextSplit.Colon, digits) by {
      forall i: nat | i < |digits|
        ensures !TextSplit.MatchesAt(TextSplit.Colon, digits, i)
      {
        assert IsDigit(digits[i]);
      }
    }
    TextSplit.SplitWithoutMatch(digits, TextSplit.Colon);
    DecimalRoundTrip(bp.line);
  }

  /** For a breakpoint inside a function, when neither the script name nor
      the function name holds a ':', splitting the text at ':' gives back
      the script name, then the breakpoint's line followed by
      " (in <name or 'function'>() at line", then the function's line
      followed by ", col", then its column followed by ")". */
  lemma FunctionToStringReadsBack(bp: Breakpoint, func: ParsedFunction)
    requires func.isFunc
    requires TextSplit.ColonUnit !in Location(func) && TextSplit.ColonUnit !in func.name
    ensures var pieces := TextSplit.Split(ToString(bp, func), TextSplit.Colon);
      && |pieces| == 4
      && pieces[0] == Location(func)
      && pieces[1] == IntToString(bp.line) + Str(" (in ")
                      + (if |func.name| > 0 then func.name else Str("function")) + Str("() at line")
      && pieces[2] == IntToString(func.line) + Str(", col")
      && pieces[3] == IntToString(func.column) + Str(")")
  {
    var shown := if |func.name| > 0 then func.name else Str("function");
    var a := Location(func);
    var b := IntToString(bp.line) + Str(" (in ") + shown + Str("() at line");
    var c := IntToString(func.line) + Str(", col");
    var d := IntToString(func.column) + Str(")");
    ShownNameColonFree(func);
    NumberThenLiteralColonFree(bp.line, " (in ");
    NoColonInLiteral("() at line");
    NoColonConcat(IntToString(bp.line) + Str(" (in "), shown);
    NoColonConcat(IntToString(bp.line) + Str(" (in ") + shown, Str("() at line"));
    NumberThenLiteralColonFree(func.line, ", col");
    NumberThenLiteralColonFree(func.column, ")");
    FunctionTextShape(bp, func);
    SplitFourPieces(a, b, c, d);
  }

  /** The text of a breakpoint inside a function, grouped at its colons. */
  lemma FunctionTextShape(bp: Breakpoint, func: ParsedFunction)
    requires func.isFunc
    ensures var shown := if |func.name| > 0 then func.name else Str("function");
      var colon := [TextSplit.ColonUnit];
      ToString(bp, func)
        == Location(func) + colon
           + (IntToString(bp.line) + Str(" (in ") + shown + Str("() at line") + colon
              + (IntToString(func.line) + Str(", col") + colon + (IntToString(func.column) + Str(")"))))
  {
    var colon := [TextSplit.ColonUnit];
    ColonEndsLiteral("() at line");
    ColonEndsLiteral(", col");
    assert Str("() at line:") == Str("() at line" + ":");
    assert Str(", col:") == Str(", col" + ":");
    Regroup(Location(func), colon, IntToString(bp.line), Str(" (in "),
            if |func.name| > 0 then func.name else Str("function"), Str("() at line"),
            IntToString(func.line), Str(", col"), IntToString(func.column), Str(")"));
  }

  /** A literal ending in ':' is the literal without it, then the colon. */
  lemma ColonEndsLiteral(s: string)
    ensures Str(s + ":") == Str(s) + [TextSplit.ColonUnit]
  {
  }

  lemma Regroup<T>(a: seq<T>, colon: seq<T>, n1: seq<T>, t1: seq<T>, shown: seq<T>, t2: seq<T>,
                   n2: seq<T>, t3: seq<T>, n3: seq<T>, t4: seq<T>)
    ensures a + colon + n1 + (t1 + shown + (t2 + colon) + n2 + (t3 + colon) + n3 + t4)
         == a + colon + (n1 + t1 + shown + t2 + colon + (n2 + t3 + colon + (n3 + t4)))
  {
  }

  /** Three colons between four colon-free texts split them apart again. */
  lemma SplitFourPieces(a: JsString, b: JsString, c: JsString, d: JsString)
    requires TextSplit.ColonUnit !in a && TextSplit.ColonUnit !in b
    requires TextSplit.ColonUnit !in c && TextSplit.ColonUnit !in d
    ensures var colon := [TextSplit.ColonUnit];
      TextSplit.Split(a + colon + (b + colon + (c + colon + d)), TextSplit.Colon) == [a, b, c, d]
  {
    var colon := [TextSplit.ColonUnit];
    TextSplit.SplitAtFirstColon(a, b + colon + (c + colon + d));
    TextSplit.SplitAtFirstColon(b, c + colon + d);
    TextSplit.SplitAtFirstColon(c, d);
    NoColonNoMatch(d);
    TextSplit.SplitWithoutMatch(d, TextSplit.Colon);
  }

  lemma ShownNameColonFree(func: ParsedFunction)
    requires TextSplit.ColonUnit !in func.name
    ensures TextSplit.ColonUnit !in (if |func.name| > 0 then func.name else Str("function"))
  {
    NoColonInLiteral("function");
  }

  lemma NumberThenLiteralColonFree(n: int, s: string)
    requires forall i :: 0 <= i < |s| ==> (s[i] as int) % 0x1_0000 != TextSplit.ColonUnit
    ensures TextSplit.ColonUnit !in IntToString(n) + Str(s)
  {
    NoColonInNumber(n);
    NoColonInLiteral(s);
    NoColonConcat(IntToString(n), Str(s));
  }

  lemma NoColonConcat(x: JsString, y: JsString)
    requires TextSplit.ColonUnit !in x && TextSplit.ColonUnit !in y
    ensures TextSplit.ColonUnit !in x + y
  {
  }

  lemma NoColonInLiteral(s: string)
    requires forall i :: 0 <= i < |s| ==> (s[i] as int) % 0x1_0000 != TextSplit.ColonUnit
    ensures TextSplit.ColonUnit !in Str(s)
  {
  }

  lemma NoColonInNumber(n: int)
    ensures TextSplit.ColonUnit !in IntToString(n)
  {
    var s := if n < 0 then DecimalString(-n) else DecimalString(n);
    forall i | 0 <= i < |s|
      ensures s[i] != TextSplit.ColonUnit
    {
      assert IsDigit(s[i]);
    }
    assert TextSplit.ColonUnit !in Str("-");
  }

  lemma NoColonNoMatch(s: JsString)
    requires TextSplit.ColonUnit !in s
    ensures TextSplit.NoMatch(TextSplit.Colon, s)
  {
    forall i: nat | i < |s|
      ensures !TextSplit.MatchesAt(TextSplit.Colon, s, i)
    {
      assert s[i] in s;
    }
  }
}

=== FILE: byte_codec.dfy ===
/** The fixed-field codec of jerry-debugger/src/lib/utils.ts: `getFormatSize`
    and `decodeMessage` over a format string of `B` (byte), `I` (4-byte
    integer) and `C` (compressed pointer of the configured width). */
module ByteCodec {

  import opened Wrappers
  import opened JsValues

  /** Pointer width and byte order negotiated by the configuration message. */
  datatype ByteConfig = ByteConfig(cpointerSize: int, littleEndian: bool)

  /** Bytes one format character occupies, or None for an unknown character. */
  function FieldWidth(config: ByteConfig, c: char): Option<int> {
    if c == 'B' then Some(1)
    else if c == 'C' then Some(config.cpointerSize)
    else if c == 'I' then Some(4)
    else None
  }

  predicate KnownFormat(format: string) {
    forall i :: 0 <= i < |format| ==> format[i] in {'B', 'C', 'I'}
  }

  /** `getFormatSize`: the byte length of a format, or a throw on an unknown character. */
  function FormatSize(config: ByteConfig, format: string): (r: Result<int>)
    ensures r.Success? <==> KnownFormat(format)
    ensures r.Failure? ==> r.error == FormatUnsupported
    ensures r.Success? ==> r.value >= 0 || (config.cpointerSize < 0 && 'C' in format)
  {
    if |format| == 0 then Success(0)
    else
      assert format == [format[0]] + format[1..];
      match FieldWidth(config, format[0])
      case None => Failure(FormatUnsupported)
      case Some(w) =>
        var rest :- FormatSize(config, format[1..]);
        Success(w + rest)
  }

  /** How many times `c` occurs in `s`. */
  function Occurrences(s: string, c: char): nat {
    if |s| == 0 then 0 else (if s[0] == c then 1 else 0) + Occurrences(s[1..], c)
  }

  /** Each `B` adds 1, each `I` adds 4 and each `C` adds the pointer width;
      the empty format has size 0. */
  lemma {:induction false} FormatSizeCounts(config: ByteConfig, format: string)
    requires KnownFormat(format)
    ensures FormatSize(config, format).value ==
      Occurrences(format, 'B') + 4 * Occurrences(format, 'I') + config.cpointerSize * Occurrences(format, 'C')
    decreases |format|
  {
    if |format| > 0 {
      var rest := format[1..];
      FormatSizeCounts(config, rest);
      var db := if format[0] == 'B' then 1 else 0;
      var di := if format[0] == 'I' then 1 else 0;
      var dc := if format[0] == 'C' then 1 else 0;
      assert FormatSize(config, format).value == db + 4 * di + config.cpointerSize * dc + FormatSize(config, rest).value;
      assert Occurrences(format, 'B') == Occurrences(rest, 'B') + db;
      assert Occurrences(format, 'I') == Occurrences(rest, 'I') + di;
      assert Occurrences(format, 'C') == Occurrences(rest, 'C') + dc;
      CountStep(config.cpointerSize, Occurrences(rest, 'B'), Occurrences(rest, 'I'), Occurrences(rest, 'C'), db, di, dc);
    }
  }

  lemma CountStep(k: int, b: int, i: int, c: int, db: int, di: int, dc: int)
    ensures db + 4 * di + k * dc + (b + 4 * i + k * c) == (b + db) + 4 * (i + di) + k * (c + dc)
  {
    assert k * (c + dc) == k * c + k * dc;
  }

  /** The sizes of consecutive formats add up. */
  lemma {:induction false} FormatSizeAppend(config: ByteConfig, f: string, g: string)
    requires KnownFormat(f) && KnownFormat(g)
    ensures KnownFormat(f + g)
    ensures FormatSize(config, f + g).value == FormatSize(config, f).value + FormatSize(config, g).value
    decreases |f|
  {
    if |f| > 0 {
      assert (f + g)[1..] == f[1..] + g;
      FormatSizeAppend(config, f[1..], g);
    } else {
      assert f + g == g;
    }
  }

  /** A 2-byte field at `i` (`C` with pointer width 2). */
  function Read2(littleEndian: bool, m: Bytes, i: int): (r: int)
    ensures 0 <= r < 0x1_0000
  {
    if littleEndian then At(m, i) + At(m, i + 1) * 0x100
    else At(m, i) * 0x100 + At(m, i + 1)
  }

  /** A 4-byte field at `i` (`I`, or `C` with width 4): the bytes OR-ed
      together with JavaScript's 32-bit signed shifts, hence ToInt32. */
  function Read4(littleEndian: bool, m: Bytes, i: int): (r: int)
    ensures -TwoTo31 <= r < TwoTo31
  {
    if littleEndian then
      ToInt32(At(m, i) + At(m, i + 1) * 0x100 + At(m, i + 2) * 0x1_0000 + At(m, i + 3) * 0x100_0000)
    else
      ToInt32(At(m, i) * 0x100_0000 + At(m, i + 1) * 0x1_0000 + At(m, i + 2) * 0x100 + At(m, i + 3))
  }

  /** `decodeMessage`: the length check against the whole format first,
      then one value per format character. */
  function Decode(config: ByteConfig, format: string, message: Bytes, offset: nat): (r: Result<seq<int>>)
    ensures r.Success? <==>
      KnownFormat(format) && offset + FormatSize(config, format).value <= |message| &&
      ('C' in format ==> config.cpointerSize == 2 || config.cpointerSize == 4)
    ensures r.Failure? && r.error == TooShort <==>
      KnownFormat(format) && offset + FormatSize(config, format).value > |message|
    ensures r.Success? ==> |r.value| == |format|
  {
    var size :- FormatSize(config, format);
    if offset + size > |message| then Failure(TooShort)
    else DecodeFields(config, format, message, offset)
  }

  /** The decoding loop over the format characters, starting at byte `offset`:
      `B` takes one byte, `C` with width 2 two bytes, and `I` or `C` with
      width 4 four bytes; `C` with any other width throws. */
  function DecodeFields(config: ByteConfig, format: string, message: Bytes, offset: nat): (r: Result<seq<int>>)
    requires KnownFormat(format)
    ensures r.Success? <==> ('C' in format ==> config.cpointerSize == 2 || config.cpointerSize == 4)
    ensures r.Failure? ==> r.error == UnexpectedDecodeRequest
    ensures r.Success? ==> |r.value| == |format|
  {
    if |format| == 0 then Success([])
    else
      var c := format[0];
      var width := if c == 'B' then 1 else if c == 'C' && config.cpointerSize == 2 then 2 else 4;
      if c != 'B' && !(c == 'C' && config.cpointerSize == 2) && c != 'I' && (c != 'C' || config.cpointerSize != 4) then
        Failure(UnexpectedDecodeRequest)
      else
        match DecodeFields(config, format[1..], message, offset + width)
        case Failure(e) => Failure(e)
        case Success(rest) => Success([FieldValue(config, c, message, offset)] + rest)
  }

  /** The value of one field of kind `c` whose first byte is at `pos`. */
  function FieldValue(config: ByteConfig, c: char, message: Bytes, pos: int): int {
    if c == 'B' then At(message, pos)
    else if c == 'C' && config.cpointerSize == 2 then Read2(config.littleEndian, message, pos)
    else Read4(config.littleEndian, message, pos)
  }

  /** Byte position of field `k`: `offset` plus the size of the fields before it. */
  function FieldPosition(config: ByteConfig, format: string, offset: nat, k: nat): int
    requires KnownFormat(format) && k <= |format|
  {
    assert KnownFormat(format[..k]);
    offset + FormatSize(config, format[..k]).value
  }

  lemma {:induction false} DecodeFieldsValues(config: ByteConfig, format: string, message: Bytes, offset: nat)
    requires KnownFormat(format)
    requires DecodeFields(config, format, message, offset).Success?
    ensures forall k :: 0 <= k < |format| ==>
      DecodeFields(config, format, message, offset).value[k]
        == FieldValue(config, format[k], message, FieldPosition(config, format, offset, k))
    decreases |format|
  {
    if |format| > 0 {
      assert format == [format[0]] + format[1..];
      var w := FieldWidth(config, format[0]).value;
      var rest := format[1..];
      var values := DecodeFields(config, format, message, offset).value;
      var restValues := DecodeFields(config, rest, message, offset + w).value;
      assert values == [FieldValue(config, format[0], message, offset)] + restValues;
      DecodeFieldsValues(config, rest, message, offset + w);
      forall k | 0 <= k < |format|
        ensures values[k] == FieldValue(config, format[k], message, FieldPosition(config, format, offset, k))
      {
        if k > 0 {
          FieldPositionStep(config, format, offset, k, w);
          assert values[k] == restValues[k - 1];
        } else {
          assert format[..0] == [];
        }
      }
    }
  }

  /** Past the first field, positions are those of the remaining format
      shifted by the first field's width. */
  lemma FieldPositionStep(config: ByteConfig, format: string, offset: nat, k: nat, w: nat)
    requires KnownFormat(format) && 0 < k <= |format|
    requires FieldWidth(config, format[0]) == Some(w)
    ensures FieldPosition(config, format, offset, k) == FieldPosition(config, format[1..], offset + w, k - 1)
  {
    var rest := format[1..];
    assert format[..k] == [format[0]] + rest[..k - 1];
    assert KnownFormat(rest[..k - 1]);
    assert ([format[0]] + rest[..k - 1])[1..] == rest[..k - 1];
  }

  /** A successful decode yields, for each format character in order, the
      field that starts after all earlier fields. */
  lemma DecodeValues(config: ByteConfig, format: string, message: Bytes, offset: nat)
    requires Decode(config, format, message, offset).Success?
    ensures forall k :: 0 <= k < |format| ==>
      Decode(config, format, message, offset).value[k]
        == FieldValue(config, format[k], message, FieldPosition(config, format, offset, k))
  {
    DecodeFieldsValues(config, format, message, offset);
  }

  lemma {:induction false} DecodeFieldsWindow(config: ByteConfig, format: string, m1: Bytes, m2: Bytes, offset: nat)
    requires KnownFormat(format)
    requires ('C' in format ==> config.cpointerSize == 2 || config.cpointerSize == 4)
    requires offset + FormatSize(config, format).value <= |m1| && offset + FormatSize(config, format).value <= |m2|
    requires forall j :: offset <= j < offset + FormatSize(config, format).value ==> m1[j] == m2[j]
    ensures DecodeFields(config, format, m1, offset) == DecodeFields(config, format, m2, offset)
    decreases |format|
  {
    if |format| > 0 {
      assert format == [format[0]] + format[1..];
      var w := FieldWidth(config, format[0]).value;
      assert w >= 1;
      assert FormatSize(config, format).value == w + FormatSize(config, format[1..]).value;
      FieldValueWindow(config, format[0], m1, m2, offset, w);
      DecodeFieldsWindow(config, format[1..], m1, m2, offset + w);
    }
  }

  lemma FieldValueWindow(config: ByteConfig, c: char, m1: Bytes, m2: Bytes, pos: nat, w: nat)
    requires w == (if c == 'B' then 1 else if c == 'C' && config.cpointerSize == 2 then 2 else 4)
    requires forall j :: pos <= j < pos + w ==> At(m1, j) == At(m2, j)
    ensures FieldValue(config, c, m1, pos) == FieldValue(config, c, m2, pos)
  {
    assert At(m1, pos) == At(m2, pos);
    if w >= 2 {
      assert At(m1, pos + 1) == At(m2, pos + 1);
    }
    if w == 4 {
      assert At(m1, pos + 2) == At(m2, pos + 2);
      assert At(m1, pos + 3) == At(m2, pos + 3);
    }
  }

  /** `decodeMessage` reads only the bytes `[offset, offset + size)`: two
      messages that agree there decode alike. */
  lemma DecodeReadsOnlyWindow(config: ByteConfig, format: string, m1: Bytes, m2: Bytes, offset: nat)
    requires Decode(config, format, m1, offset).Success?
    requires offset + FormatSize(config, format).value <= |m2|
    requires m1[offset..offset + FormatSize(config, format).value] == m2[offset..offset + FormatSize(config, format).value]
    ensures Decode(config, format, m1, offset) == Decode(config, format, m2, offset)
  {
    var size := FormatSize(config, format).value;
    forall j | offset <= j < offset + size
      ensures m1[j] == m2[j]
    {
      assert m1[offset..offset + size][j - offset] == m2[offset..offset + size][j - offset];
    }
    DecodeFieldsWindow(config, format, m1, m2, offset);
  }

  /** Decoding a one-character format yields that one field. */
  lemma DecodeOneField(config: ByteConfig, c: char, message: Bytes, offset: nat)
    requires c == 'B' || c == 'I' || (c == 'C' && (config.cpointerSize == 2 || config.cpointerSize == 4))
    ensures FormatSize(config, [c]) == Success(FieldWidth(config, c).value)
    ensures DecodeFields(config, [c], message, offset) == Success([FieldValue(config, c, message, offset)])
  {
    assert [c][1..] == [];
    var n := FormatSize(config, [c]);
    assert n.Success?;
    var x := DecodeFields(config, [c], message, offset);
    assert x.Success?;
    assert x.value == [FieldValue(config, c, message, offset)];
  }

  /** A 2-byte pointer read little-endian from [a, b] equals the big-endian
      read of [b, a]. */
  lemma PointerEndianMirror2(a: Byte, b: Byte)
    ensures Decode(ByteConfig(2, true), "C", [a, b], 0) == Success([a + 0x100 * b])
    ensures Decode(ByteConfig(2, false), "C", [a, b], 0) == Success([0x100 * a + b])
    ensures Decode(ByteConfig(2, true), "C", [a, b], 0) == Decode(ByteConfig(2, false), "C", [b, a], 0)
  {
    assert "C" == ['C'];
    DecodeOneField(ByteConfig(2, true), 'C', [a, b], 0);
    DecodeOneField(ByteConfig(2, false), 'C', [a, b], 0);
    DecodeOneField(ByteConfig(2, false), 'C', [b, a], 0);
  }

  /** The unsigned value of four bytes, least significant first. */
  function Unsigned32(b0: Byte, b1: Byte, b2: Byte, b3: Byte): (r: int)
    ensures 0 <= r < TwoTo32
  {
    b0 + b1 * 0x100 + b2 * 0x1_0000 + b3 * 0x100_0000
  }

  /** A 4-byte field is the unsigned value when the top byte is below 0x80
      and that value minus 2^32 otherwise; little-endian [a, b, c, d] reads
      like big-endian [d, c, b, a]. */
  lemma Int32Fields(config: ByteConfig, a: Byte, b: Byte, c: Byte, d: Byte)
    ensures Decode(config.(littleEndian := true), "I", [a, b, c, d], 0) ==
      Success([if d < 0x80 then Unsigned32(a, b, c, d) else Unsigned32(a, b, c, d) - TwoTo32])
    ensures Decode(config.(littleEndian := true), "I", [a, b, c, d], 0)
         == Decode(config.(littleEndian := false), "I", [d, c, b, a], 0)
    ensures Decode(ByteConfig(4, true), "C", [a, b, c, d], 0)
         == Decode(ByteConfig(4, false), "C", [d, c, b, a], 0)
         == Decode(ByteConfig(4, true), "I", [a, b, c, d], 0)
  {
    assert "C" == ['C'] && "I" == ['I'];
    var u := Unsigned32(a, b, c, d);
    var v := if d < 0x80 then u else u - TwoTo32;
    assert Read4(true, [a, b, c, d], 0) == v;
    assert Read4(false, [d, c, b, a], 0) == v;
    DecodeOneField(config.(littleEndian := true), 'I', [a, b, c, d], 0);
    DecodeOneField(config.(littleEndian := false), 'I', [d, c, b, a], 0);
    DecodeOneField(ByteConfig(4, true), 'C', [a, b, c, d], 0);
    DecodeOneField(ByteConfig(4, false), 'C', [d, c, b, a], 0);
    DecodeOneField(ByteConfig(4, true), 'I', [a, b, c, d], 0);
  }

  /** A pointer width other than 2 or 4 makes `C` throw once the length
      check has passed. */
  lemma BadPointerWidthThrows(width: int, message: Bytes)
    requires width != 2 && width != 4 && width <= |message|
    ensures Decode(ByteConfig(width, true), "C", message, 0) == Failure(UnexpectedDecodeRequest)
  {
    assert "C" == ['C'] && "C"[1..] == "";
    var n := FormatSize(ByteConfig(width, true), "C");
    assert n.Success?;
    assert n.value == width + FormatSize(ByteConfig(width, true), "").value;
  }

  /** `encodeMessage(config, 'B', [code])` is the single byte `code`. */
  function EncodeByte(code: Byte): (r: Bytes)
    ensures |r| == 1 && r[0] == code
  {
    [code]
  }

  /** Decoding the encoded command byte gives the code back. */
  lemma EncodeByteRoundTrip(config: ByteConfig, code: Byte)
    ensures Decode(config, "B", EncodeByte(code), 0) == Success([code])
  {
    assert "B" == ['B'];
    DecodeOneField(config, 'B', [code], 0);
  }
}

=== FILE: cli.dfy ===
/** jerry-debugger/src/cli/cli.ts: turning the `--inspect-brk` value into
    the host and port the proxy listens on. */
module Cli {

  import opened Wrappers
  import opened JsValues
  import TextSplit

  const DefaultHost: JsString := Str("127.0.0.1")
  const DefaultPort: nat := 9229

  /** `Number(text)`. Only the empty string and plain decimal digits up to
      2^53 are evaluated: every integer in that range is a double, so
      `Number` gives it exactly. Any other text, larger digit strings
      (which `Number` rounds to the nearest double) included, stands for
      `Number` applied to it. */
  datatype JsNumber = Int(value: int) | NumberOf(text: JsString)

  /** 2^53: the integers up to here are all exactly representable as doubles. */
  const MaxExactInteger: nat := 0x20_0000_0000_0000

  function ToNumber(text: JsString): (r: JsNumber)
    ensures |text| == 0 ==> r == Int(0)
    ensures AllDigits(text) && ParseDecimal(text) <= MaxExactInteger ==> r == Int(ParseDecimal(text))
    ensures r.NumberOf? ==> r.text == text && (!AllDigits(text) || ParseDecimal(text) > MaxExactInteger)
    ensures r.Int? ==> 0 <= r.value <= MaxExactInteger
  {
    if AllDigits(text) && ParseDecimal(text) <= MaxExactInteger then Int(ParseDecimal(text)) else NumberOf(text)
  }

  datatype HostAndPort = HostAndPort(host: JsString, port: JsNumber)

  /** `getHostAndPort`: a single piece is the port on the default host;
      otherwise the host is the first piece and the port the second. Text
      without a colon is a port on the default host; text with one yields
      the colon-free host that ends right before its first colon. */
  function GetHostAndPort(input: JsString): (r: HostAndPort)
    ensures TextSplit.ColonUnit !in input ==> r == HostAndPort(DefaultHost, ToNumber(input))
    ensures TextSplit.ColonUnit in input ==>
      TextSplit.ColonUnit !in r.host && r.host + [TextSplit.ColonUnit] <= input
  {
    FirstPiece(input);
    var pieces := TextSplit.Split(input, TextSplit.Colon);
    var onlyPort := |pieces| == 1;
    HostAndPort(if onlyPort then DefaultHost else pieces[0],
                ToNumber(if onlyPort then pieces[0] else pieces[1]))
  }

  /** The `--inspect-brk` default, `${DEFAULT_HOST}:${DEFAULT_PORT}`. */
  function DefaultTarget(): JsString {
    DefaultHost + [TextSplit.ColonUnit] + DecimalString(DefaultPort)
  }

  /** `getOptionsFromArgs`, from the `--inspect-brk` value the argument
      parser found (None: the option was not given). */
  function GetOptionsFromArgs(inspectBrk: Option<JsString>): (r: HostAndPort)
    ensures inspectBrk.Some? ==> r == GetHostAndPort(inspectBrk.value)
    ensures inspectBrk.None? ==> r == HostAndPort(DefaultHost, Int(DefaultPort))
  {
    DefaultDecodes();
    GetHostAndPort(inspectBrk.GetOr(DefaultTarget()))
  }

  /** The first piece of a split at ':' holds no colon; it is the whole
      text exactly when the text holds none, and is otherwise followed by
      the first colon. */
  lemma FirstPiece(input: JsString)
    ensures var pieces := TextSplit.Split(input, TextSplit.Colon);
      && TextSplit.ColonUnit !in pieces[0]
      && (|pieces| == 1 <==> TextSplit.ColonUnit !in input)
      && (|pieces| == 1 ==> pieces[0] == input)
      && (|pieces| > 1 ==> pieces[0] + [TextSplit.ColonUnit] <= input)
  {
    var pieces := TextSplit.Split(input, TextSplit.Colon);
    TextSplit.SplitPiecesHaveNoMatch(input, TextSplit.Colon);
    TextSplit.JoinSplit(input, TextSplit.Colon);
    assert TextSplit.ColonUnit !in pieces[0] by {
      forall i | 0 <= i < |pieces[0]|
        ensures pieces[0][i] != TextSplit.ColonUnit
      {
        assert !TextSplit.MatchesAt(TextSplit.Colon, pieces[0], i);
      }
    }
    if |pieces| == 1 {
      assert TextSplit.Join(pieces, [TextSplit.ColonUnit]) == pieces[0];
    } else {
      var rest := TextSplit.Join(pieces[1..], [TextSplit.ColonUnit]);
      assert input == pieces[0] + [TextSplit.ColonUnit] + rest;
      assert input[|pieces[0]|] == TextSplit.ColonUnit;
      assert (pieces[0] + [TextSplit.ColonUnit]) == input[..|pieces[0]| + 1];
    }
    if TextSplit.ColonUnit !in input {
      NoMatchWithoutColon(input);
      TextSplit.SplitWithoutMatch(input, TextSplit.Colon);
    }
  }

  lemma NoColonInDigits(s: JsString)
    requires AllDigits(s)
    ensures TextSplit.ColonUnit !in s
  {
    forall i | 0 <= i < |s|
      ensures s[i] != TextSplit.ColonUnit
    {
      assert IsDigit(s[i]);
    }
  }

  lemma NoMatchWithoutColon(s: JsString)
    requires TextSplit.ColonUnit !in s
    ensures TextSplit.NoMatch(TextSplit.Colon, s)
  {
    forall i: nat | i < |s|
      ensures !TextSplit.MatchesAt(TextSplit.Colon, s, i)
    {
      assert s[i] in s;
    }
  }

  /** Text without a colon is a port on the default host. */
  lemma PortOnly(input: JsString)
    requires TextSplit.ColonUnit !in input
    ensures GetHostAndPort(input) == HostAndPort(DefaultHost, ToNumber(input))
  {
    NoMatchWithoutColon(input);
    TextSplit.SplitWithoutMatch(input, TextSplit.Colon);
  }

  /** With a colon, the host is the text before the first colon (possibly
      empty) and the port the text up to the next colon; anything after a
      second colon is ignored. */
  lemma HostBeforeFirstColon(host: JsString, port: JsString, rest: JsString)
    requires TextSplit.ColonUnit !in host && TextSplit.ColonUnit !in port
    ensures GetHostAndPort(host + [TextSplit.ColonUnit] + port) == HostAndPort(host, ToNumber(port))
    ensures GetHostAndPort(host + [TextSplit.ColonUnit] + port + [TextSplit.ColonUnit] + rest) == HostAndPort(host, ToNumber(port))
  {
    TextSplit.SplitAtFirstColon(host, port);
    NoMatchWithoutColon(port);
    TextSplit.SplitWithoutMatch(port, TextSplit.Colon);
    var tail := port + [TextSplit.ColonUnit] + rest;
    TextSplit.SplitAtFirstColon(port, rest);
    TextSplit.SplitAtFirstColon(host, tail);
    assert host + [TextSplit.ColonUnit] + port + [TextSplit.ColonUnit] + rest == host + [TextSplit.ColonUnit] + tail;
  }

  /** `host:port` with a colon-free host and a decimal port reads back as
      that host and port. */
  lemma HostAndPortRoundTrip(host: JsString, port: nat)
    requires TextSplit.ColonUnit !in host && port <= MaxExactInteger
    ensures GetHostAndPort(host + [TextSplit.ColonUnit] + DecimalString(port)) == HostAndPort(host, Int(port))
  {
    NoColonInDigits(DecimalString(port));
    HostBeforeFirstColon(host, DecimalString(port), []);
    DecimalRoundTrip(port);
  }

  /** The default target decodes to the default host and port. */
  lemma DefaultDecodes()
    ensures GetHostAndPort(DefaultTarget()) == HostAndPort(DefaultHost, Int(DefaultPort))
  {
    assert TextSplit.ColonUnit !in DefaultHost by {
      assert forall i :: 0 <= i < |DefaultHost| ==> DefaultHost[i] != TextSplit.ColonUnit;
    }
    HostAndPortRoundTrip(DefaultHost, DefaultPort);
  }
}

=== FILE: handler_properties.dfy ===
/** Properties of the protocol handler of protocol-handler.ts that span
    several messages: the parser-stack discipline, which callbacks can fire,
    the numbering of scripts, when the current breakpoint changes, and the
    resolution of a breakpoint hit. */
module HandlerProperties {

  import opened Wrappers
  import opened JsValues
  import opened Protocol
  import opened Breakpoints
  import opened ProtocolHandler
  import ByteCodec
  import TextCodec
  import TextSplit

  // ---------------------------------------------------------------------
  // What every message keeps

  /** One message changes the parser stack in one of four ways: not at
      all, a pushed function frame, a popped frame, or the top frame
      replaced by one of the same kind. */
  predicate StackStep(before: seq<Frame>, after: seq<Frame>) {
    || after == before
    || (|after| == |before| + 1 && after[..|before|] == before && after[|before|].isFunc)
    || (|before| > 0 && after == before[..|before| - 1])
    || (|before| > 0 && |after| == |before| && after[..|before| - 1] == before[..|before| - 1]
        && after[|before| - 1].isFunc == before[|before| - 1].isFunc)
  }

  /** A callback is only called when the delegate defines it. */
  predicate Allowed(d: Delegate, e: Event) {
    match e
    case Error(_, _) => d.hasOnError
    case ScriptParsed(_, _, _) => d.hasOnScriptParsed
    case HitBreakpoint(_, _) => d.hasOnBreakpointHit
  }

  predicate AllAllowed(d: Delegate, events: seq<Event>) {
    forall i :: 0 <= i < |events| ==> Allowed(d, events[i])
  }

  /** The ids of the ScriptParsed reports among `events`, in order. */
  function ScriptIds(events: seq<Event>): seq<int> {
    if |events| == 0 then []
    else (if events[0].ScriptParsed? then [events[0].id] else []) + ScriptIds(events[1..])
  }

  /** The integers from `from + 1` to `to`. */
  function Consecutive(from: int, to: int): (r: seq<int>)
    requires from <= to
    ensures |r| == to - from
    ensures forall i :: 0 <= i < |r| ==> r[i] == from + 1 + i
  {
    seq(to - from, i => from + 1 + i)
  }

  /** What one transition keeps: the delegate, the stack discipline, the
      delegate's callbacks, and script ids handed out one by one. */
  predicate Keeps(h: Handler, r: Transition) {
    && r.state.delegate == h.delegate
    && StackStep(h.stack, r.state.stack)
    && AllAllowed(h.delegate, r.events)
    && h.lastScriptID <= r.state.lastScriptID
    && ScriptIds(r.events) == Consecutive(h.lastScriptID, r.state.lastScriptID)
  }

  /** A transition that only reports errors, through a delegate that
      listens for them, keeps the four properties. */
  lemma QuietKeeps(h: Handler, r: Transition)
    requires r.state.delegate == h.delegate && r.state.stack == h.stack && r.state.lastScriptID == h.lastScriptID
    requires forall i :: 0 <= i < |r.events| ==> r.events[i].Error? && h.delegate.hasOnError
    ensures Keeps(h, r)
  {
    NoScriptIdsAmongErrors(r.events);
  }

  lemma {:induction false} NoScriptIdsAmongErrors(events: seq<Event>)
    requires forall i :: 0 <= i < |events| ==> events[i].Error?
    ensures ScriptIds(events) == []
    decreases |events|
  {
    if |events| > 0 {
      NoScriptIdsAmongErrors(events[1..]);
    }
  }

  lemma ConfigurationKeeps(h: Handler, data: Bytes)
    ensures Keeps(h, OnConfiguration(h, data))
  {
    QuietKeeps(h, OnConfiguration(h, data));
  }

  lemma ByteCodeCpKeeps(h: Handler, data: Bytes)
    ensures Keeps(h, OnByteCodeCP(h, data))
  {
  }

  lemma ParseFunctionKeeps(h: Handler, data: Bytes)
    ensures Keeps(h, OnParseFunction(h, data))
  {
  }

  lemma BreakpointListKeeps(h: Handler, data: Bytes)
    ensures Keeps(h, OnBreakpointList(h, data))
  {
  }

  lemma SourceCodeKeeps(h: Handler, data: Bytes)
    ensures Keeps(h, OnSourceCode(h, data))
  {
  }

  lemma SourceCodeNameKeeps(h: Handler, data: Bytes)
    ensures Keeps(h, OnSourceCodeName(h, data))
  {
  }

  lemma BreakpointHitKeeps(h: Handler, data: Bytes)
    ensures Keeps(h, OnBreakpointHit(h, data))
  {
  }

  /** Every message keeps the four properties. */
  lemma MessageKeeps(h: Handler, message: Bytes)
    ensures Keeps(h, OnMessage(h, message))
  {
    var r := OnMessage(h, message);
    if |message| == 0 || (h.byteConfig.cpointerSize == 0 && message[0] != Configuration) {
      QuietKeeps(h, r);
    } else {
      match HandlerFor(message[0])
      case None => QuietKeeps(h, r);
      case Some(kind) =>
        match kind {
          case ConfigurationHandler => ConfigurationKeeps(h, message);
          case ByteCodeCpHandler => ByteCodeCpKeeps(h, message);
          case ParseFunctionHandler => ParseFunctionKeeps(h, message);
          case BreakpointListHandler => BreakpointListKeeps(h, message);
          case SourceCodeHandler => SourceCodeKeeps(h, message);
          case SourceCodeNameHandler => SourceCodeNameKeeps(h, message);
          case BreakpointHitHandler => BreakpointHitKeeps(h, message);
          case BacktraceHandler => QuietKeeps(h, r);
        }
    }
  }

  lemma {:induction false} ScriptIdsAppend(a: seq<Event>, b: seq<Event>)
    ensures ScriptIds(a + b) == ScriptIds(a) + ScriptIds(b)
    decreases |a|
  {
    if |a| == 0 {
      assert a + b == b;
    } else {
      var c := a + b;
      var head := if a[0].ScriptParsed? then [a[0].id] else [];
      assert c[0] == a[0];
      assert c[1..] == a[1..] + b;
      ScriptIdsAppend(a[1..], b);
      calc {
        ScriptIds(c);
        head + ScriptIds(a[1..] + b);
        head + (ScriptIds(a[1..]) + ScriptIds(b));
        { assert head + (ScriptIds(a[1..]) + ScriptIds(b)) == (head + ScriptIds(a[1..])) + ScriptIds(b); }
        ScriptIds(a) + ScriptIds(b);
      }
    }
  }

  // ---------------------------------------------------------------------
  // Whole runs

  /** Only the bottom frame may be a non-function (top-level) frame. */
  predicate TopLevelOnlyAtBottom(stack: seq<Frame>) {
    forall i :: 1 <= i < |stack| ==> stack[i].isFunc
  }

  /** Every frame is a function frame: the top-level frame is gone. */
  predicate OnlyFunctionFrames(stack: seq<Frame>) {
    forall i :: 0 <= i < |stack| ==> stack[i].isFunc
  }

  lemma StackStepShapes(before: seq<Frame>, after: seq<Frame>)
    requires StackStep(before, after)
    ensures TopLevelOnlyAtBottom(before) ==> TopLevelOnlyAtBottom(after)
    ensures OnlyFunctionFrames(before) ==> OnlyFunctionFrames(after)
  {
    if |after| == |before| + 1 && after[..|before|] == before {
      assert forall i :: 0 <= i < |before| ==> after[i] == before[i];
    } else if |before| > 0 && |after| == |before| && after[..|before| - 1] == before[..|before| - 1] {
      assert forall i :: 0 <= i < |before| - 1 ==> after[i] == before[i];
    }
  }

  /** What a whole run keeps, in terms of the handler it starts from. */
  predicate RunProperties(h: Handler, r: Transition) {
    && r.state.delegate == h.delegate
    && AllAllowed(h.delegate, r.events)
    && h.lastScriptID <= r.state.lastScriptID
    && ScriptIds(r.events) == Consecutive(h.lastScriptID, r.state.lastScriptID)
    && (TopLevelOnlyAtBottom(h.stack) ==> TopLevelOnlyAtBottom(r.state.stack))
    && (OnlyFunctionFrames(h.stack) ==> OnlyFunctionFrames(r.state.stack))
  }

  lemma KeepsCompose(h: Handler, first: Transition, rest: Transition)
    requires Keeps(h, first) && RunProperties(first.state, rest)
    ensures RunProperties(h, Then(first, rest))
  {
    StackStepShapes(h.stack, first.state.stack);
    ScriptIdsAppend(first.events, rest.events);
    assert Consecutive(h.lastScriptID, first.state.lastScriptID)
         + Consecutive(first.state.lastScriptID, rest.state.lastScriptID)
        == Consecutive(h.lastScriptID, rest.state.lastScriptID);
  }

  /** Over any run: the delegate never changes, only defined callbacks are
      called, scripts are numbered consecutively from the old
      `lastScriptID` (so a fresh handler numbers them from 1), and the
      constructor's top-level frame is never re-seeded: the only
      non-function frame stays at the bottom, and once it has been popped
      every frame is a function frame. */
  lemma {:induction false} RunKeeps(h: Handler, messages: seq<Bytes>)
    ensures RunProperties(h, Run(h, messages))
    decreases |messages|
  {
    if |messages| == 0 {
      assert ScriptIds([]) == [];
    } else {
      var first := OnMessage(h, messages[0]);
      assert Keeps(h, first) by {
        MessageKeeps(h, messages[0]);
      }
      if first.Threw() {
        assert Run(h, messages) == first;
        StackStepShapes(h.stack, first.state.stack);
      } else {
        var rest := Run(first.state, messages[1..]);
        RunKeeps(first.state, messages[1..]);
        assert Run(h, messages) == Then(first, rest);
        KeepsCompose(h, first, rest);
      }
    }
  }

  /** Every registered function is indexed by its breakpoints' own lines
      and offsets, which `getBreakpoint`'s resolution relies on. */
  predicate AllIndexed(functions: map<int, ParsedFunction>) {
    forall cp :: cp in functions ==> Indexed(functions[cp])
  }

  /** `onByteCodeCP` registers a function built by the `ParsedFunction`
      constructor, possibly with its script's lines and name attached. */
  lemma ByteCodeCpIndexed(h: Handler, data: Bytes)
    requires AllIndexed(h.functions)
    ensures AllIndexed(OnByteCodeCP(h, data).state.functions)
  {
    if |h.stack| > 0 && ByteCodec.Decode(h.byteConfig, "C", data, 1).Success? {
      var cp := ByteCodec.Decode(h.byteConfig, "C", data, 1).value[0];
      var func := NewParsedFunction(cp, h.stack[|h.stack| - 1]);
      var outer := func.(source := Some(TextSplit.Split(h.source, TextSplit.DoubleLineFeed)), sourceName := h.sourceName);
      assert Indexed(outer) by {
        assert outer.lines == func.lines && outer.offsets == func.offsets;
      }
      StoreIndexed(h.functions, cp, func);
      StoreIndexed(h.functions, cp, outer);
    }
  }

  lemma StoreIndexed(functions: map<int, ParsedFunction>, cp: int, func: ParsedFunction)
    requires AllIndexed(functions) && Indexed(func)
    ensures AllIndexed(functions[cp := func])
  {
  }

  /** No other handler touches the function table. */
  lemma MessageKeepsIndexed(h: Handler, message: Bytes)
    requires AllIndexed(h.functions)
    ensures AllIndexed(OnMessage(h, message).state.functions)
  {
    if |message| > 0 && (h.byteConfig.cpointerSize != 0 || message[0] == Configuration) {
      match HandlerFor(message[0])
      case None =>
      case Some(kind) =>
        if kind == ByteCodeCpHandler {
          ByteCodeCpIndexed(h, message);
        } else {
          OthersKeepFunctions(kind, h, message);
        }
    }
  }

  lemma OthersKeepFunctions(kind: HandlerKind, h: Handler, message: Bytes)
    requires kind != ByteCodeCpHandler
    ensures Dispatch(kind, h, message).state.functions == h.functions
  {
    match kind {
      case ConfigurationHandler =>
      case ParseFunctionHandler =>
      case BreakpointListHandler =>
      case SourceCodeHandler =>
      case SourceCodeNameHandler =>
      case BreakpointHitHandler => assert OnBreakpointHit(h, message).state.functions == h.functions;
      case BacktraceHandler =>
    }
  }

  /** Every state a run reaches from one with an indexed function table
      (a fresh handler's is empty) has an indexed function table. */
  lemma {:induction false} RunKeepsIndexed(h: Handler, messages: seq<Bytes>)
    requires AllIndexed(h.functions)
    ensures AllIndexed(Run(h, messages).state.functions)
    decreases |messages|
  {
    if |messages| > 0 {
      var first := OnMessage(h, messages[0]);
      MessageKeepsIndexed(h, messages[0]);
      if !first.Threw() {
        RunKeepsIndexed(first.state, messages[1..]);
        assert Run(h, messages).state == Run(first.state, messages[1..]).state;
      }
    }
  }

  /** Without `onScriptParsed`, `lastScriptID` never advances. */
  lemma NoListenerNoIds(h: Handler, messages: seq<Bytes>)
    requires !h.delegate.hasOnScriptParsed
    ensures Run(h, messages).state.lastScriptID == h.lastScriptID
  {
    RunKeeps(h, messages);
    var r := Run(h, messages);
    NoScriptsWithoutListener(h.delegate, r.events);
  }

  lemma {:induction false} NoScriptsWithoutListener(d: Delegate, events: seq<Event>)
    requires AllAllowed(d, events) && !d.hasOnScriptParsed
    ensures ScriptIds(events) == []
    decreases |events|
  {
    if |events| > 0 {
      assert Allowed(d, events[0]);
      NoScriptsWithoutListener(d, events[1..]);
    }
  }

  lemma FreshHandlerStack(delegate: Delegate, messages: seq<Bytes>)
    ensures TopLevelOnlyAtBottom(Run(New(delegate), messages).state.stack)
  {
    RunKeeps(New(delegate), messages);
  }

  // ---------------------------------------------------------------------
  // The current breakpoint

  /** Only a BREAKPOINT_HIT message changes `lastBreakpointHit`. */
  lemma OnlyHitsMoveTheCurrentBreakpoint(h: Handler, message: Bytes)
    requires |message| == 0 || message[0] != BreakpointHit
    ensures OnMessage(h, message).state.lastBreakpointHit == h.lastBreakpointHit
  {
    if |message| > 0 && (h.byteConfig.cpointerSize != 0 || message[0] == Configuration) {
      match HandlerFor(message[0])
      case None =>
      case Some(kind) =>
        assert kind != BreakpointHitHandler;
        OthersKeepCurrentBreakpoint(kind, h, message);
    }
  }

  lemma OthersKeepCurrentBreakpoint(kind: HandlerKind, h: Handler, message: Bytes)
    requires kind != BreakpointHitHandler
    ensures Dispatch(kind, h, message).state.lastBreakpointHit == h.lastBreakpointHit
  {
    match kind {
      case ConfigurationHandler =>
      case ByteCodeCpHandler =>
      case ParseFunctionHandler =>
      case BreakpointListHandler =>
      case SourceCodeHandler =>
      case SourceCodeNameHandler =>
      case BacktraceHandler =>
    }
  }

  /** The outbound commands change no state, so they never clear the
      current breakpoint either. */
  lemma CommandsKeepState(h: Handler)
    ensures StepOver(h).state == StepInto(h).state == Resume(h).state == h
    ensures Pause(h).state == StepOut(h).state == h
  {
  }

  /** A hit that resolves to no breakpoint stores `undefined` as the current
      breakpoint before the property access throws: any decodable hit on a
      registered function without breakpoints clears `lastBreakpointHit`. */
  lemma UnresolvedHitClearsCurrentBreakpoint(h: Handler, data: Bytes)
    requires ByteCodec.Decode(h.byteConfig, "CI", data, 1).Success?
    requires var cp := ByteCodec.Decode(h.byteConfig, "CI", data, 1).value[0];
      cp in h.functions && h.functions[cp].offsets == map[]
    ensures var r := OnBreakpointHit(h, data);
      r.Threw() && r.fault == Some(UndefinedAccess) && r.state.lastBreakpointHit.None?
      && r.state == h.(lastBreakpointHit := None, lastBreakpointExact := r.state.lastBreakpointExact)
  {
  }

  /** The general case applies to a hit at offset 0 of function 7 under
      2-byte little-endian pointers. */
  lemma UnresolvedHitExample(h: Handler, bp: Breakpoint)
    requires h.byteConfig == ByteCodec.ByteConfig(2, true)
    requires h.lastBreakpointHit == Some(bp)
    requires h.functions == map[7 := NewParsedFunction(7, Frame(true, 1, 1, [], [], None, [], []))]
    ensures var r := OnBreakpointHit(h, [BreakpointHit, 7, 0, 0, 0, 0, 0]);
      r.Threw() && r.state.lastBreakpointHit.None?
  {
    var data: Bytes := [BreakpointHit, 7, 0, 0, 0, 0, 0];
    assert "CI" == ['C'] + "I";
    ByteCodec.FormatSizeAppend(h.byteConfig, "C", "I");
    ByteCodec.DecodeOneField(h.byteConfig, 'C', data, 1);
    ByteCodec.DecodeOneField(h.byteConfig, 'I', data, 3);
    var d := ByteCodec.Decode(h.byteConfig, "CI", data, 1);
    assert d.Success?;
    assert ByteCodec.DecodeFields(h.byteConfig, "CI", data, 1).value
        == [ByteCodec.FieldValue(h.byteConfig, 'C', data, 1)] + ByteCodec.DecodeFields(h.byteConfig, "I", data, 3).value;
    assert d.value == [7, 0];
    UnresolvedHitClearsCurrentBreakpoint(h, data);
  }

  // ---------------------------------------------------------------------
  // Breakpoint resolution

  /** The source's scan over `for (currentOffset in func.offsets)`, in
      whatever order the keys are enumerated: a key replaces the best so
      far when it is at most `offset` and greater than the best. */
  function ScanNearest(keys: seq<Option<int>>, offset: int, best: int): int {
    if |keys| == 0 then best
    else
      var k := keys[0];
      var next := if k.Some? && k.value <= offset && k.value > best then k.value else best;
      ScanNearest(keys[1..], offset, next)
  }

  lemma {:induction false} ScanNearestBounds(keys: seq<Option<int>>, offset: int, best: int)
    ensures var r := ScanNearest(keys, offset, best);
      && best <= r
      && (r == best || (Some(r) in keys && r <= offset))
      && forall i :: 0 <= i < |keys| && keys[i].Some? && r < keys[i].value ==> keys[i].value > offset
    decreases |keys|
  {
    if |keys| > 0 {
      var k := keys[0];
      var next := if k.Some? && k.value <= offset && k.value > best then k.value else best;
      ScanNearestBounds(keys[1..], offset, next);
      var r := ScanNearest(keys[1..], offset, next);
      forall i | 0 <= i < |keys| && keys[i].Some? && r < keys[i].value
        ensures keys[i].value > offset
      {
        if i > 0 {
          assert keys[1..][i - 1] == keys[i];
        }
      }
    }
  }

  /** Whatever the enumeration order of the table's keys, the source's scan
      finds the offset `NearestBelow` defines. */
  lemma ScanFindsNearestBelow(offsets: map<Option<int>, Breakpoint>, keys: seq<Option<int>>, offset: int)
    requires forall k :: k in offsets <==> k in keys
    ensures ScanNearest(keys, offset, -1) == NearestBelow(offsets, offset)
  {
    var r1 := NearestBelow(offsets, offset);
    var r2 := ScanNearest(keys, offset, -1);
    ScanNearestBounds(keys, offset, -1);
    assert r2 <= r1 by {
      if r2 != -1 {
        assert Some(r2) in offsets;
      }
    }
    assert r1 <= r2 by {
      if r1 != -1 {
        assert Some(r1) in keys;
        var i :| 0 <= i < |keys| && keys[i] == Some(r1);
      }
    }
  }

  /** `getBreakpoint` on a function whose tables are indexed by their
      breakpoints' own offsets: a breakpoint at the requested offset is
      found exactly; an offset before the first breakpoint resolves exactly
      to the first breakpoint; otherwise the resolution is inexact and
      yields the breakpoint at the greatest table offset in [0, offset];
      when that range holds none, the scan's initial -1 is looked up. Whatever is found is
      one of the function's breakpoints. */
  lemma GetBreakpointCases(h: Handler, cp: int, offset: int)
    requires cp in h.functions && Indexed(h.functions[cp])
    ensures var f := h.functions[cp];
      var r := GetBreakpoint(h, cp, offset).state;
      && (r.breakpoint.Some? ==> r.breakpoint.value in f.offsets.Values)
      && (Some(offset) in f.offsets ==> r.exact && r.breakpoint.Some? && r.breakpoint.value.offset == Some(offset))
      && (Some(offset) !in f.offsets && f.firstBreakpointOffset.Some? && offset < f.firstBreakpointOffset.value
            && f.firstBreakpointOffset in f.offsets ==>
            r.exact && r.breakpoint.Some? && r.breakpoint.value.offset == f.firstBreakpointOffset)
      && (Some(offset) !in f.offsets && f.firstBreakpointOffset.Some? && offset < f.firstBreakpointOffset.value ==>
            r.exact && r.breakpoint == Lookup(f.offsets, f.firstBreakpointOffset))
      && (Some(offset) !in f.offsets && !(f.firstBreakpointOffset.Some? && offset < f.firstBreakpointOffset.value) ==>
            !r.exact && r.breakpoint == Lookup(f.offsets, Some(NearestBelow(f.offsets, offset))))
      && (!r.exact ==>
            && Some(offset) !in f.offsets
            && (r.breakpoint.Some? ==>
                  exists n :: && (n == -1 || 0 <= n <= offset) && r.breakpoint.value.offset == Some(n)
                              && forall k :: n < k <= offset && k >= 0 ==> Some(k) !in f.offsets)
            && (r.breakpoint.None? ==> forall k :: 0 <= k <= offset ==> Some(k) !in f.offsets))
  {
    var f := h.functions[cp];
    var r := GetBreakpoint(h, cp, offset).state;
    if !r.exact {
      var n := NearestBelow(f.offsets, offset);
      assert r.breakpoint == Lookup(f.offsets, Some(n));
      if r.breakpoint.Some? {
        assert r.breakpoint.value.offset == Some(n);
      }
    }
  }
}

=== FILE: handler_scenarios.dfy ===
/** Multi-message behaviour of `JerryDebugProtocolHandler`
    (jerry-debugger/src/lib/protocol-handler.ts): the configuration
    handshake, the reassembly of a script's text from several SOURCE_CODE
    packets, the way a received name reaches the next script's report, and
    the concrete exchanges of the handler's unit tests. */
module HandlerScenarios {

  import opened Wrappers
  import opened JsValues
  import opened Protocol
  import opened ProtocolHandler
  import TextCodec
  import TextSplit

  // ---------------------------------------------------------------------
  // Runs

  /** One step of `Run`. */
  lemma RunCons(h: Handler, messages: seq<Bytes>)
    requires |messages| > 0
    ensures var first := OnMessage(h, messages[0]);
      Run(h, messages) == if first.Threw() then first else Then(first, Run(first.state, messages[1..]))
  {
  }

  /** `Then` is associative. */
  lemma ThenAssociative(x: Transition, y: Transition, z: Transition)
    ensures Then(x, Then(y, z)) == Then(Then(x, y), z)
  {
    assert x.events + (y.events + z.events) == (x.events + y.events) + z.events;
    assert x.sent + (y.sent + z.sent) == (x.sent + y.sent) + z.sent;
  }

  /** A run over `a + b` is the run over `a` followed, unless it threw, by
      the run over `b` from the state it left. */
  lemma {:induction false} RunAppend(h: Handler, a: seq<Bytes>, b: seq<Bytes>)
    ensures var ra := Run(h, a);
      Run(h, a + b) == if ra.Threw() then ra else Then(ra, Run(ra.state, b))
    decreases |a|
  {
    if |a| == 0 {
      assert a + b == b;
      var rb := Run(h, b);
      assert Then(Done(h, []), rb) == rb by {
        assert [] + rb.events == rb.events;
        assert [] + rb.sent == rb.sent;
      }
    } else {
      var first := OnMessage(h, a[0]);
      assert Run(h, a + b) == if first.Threw() then first else Then(first, Run(first.state, a[1..] + b)) by {
        RunCons(h, a + b);
        assert (a + b)[0] == a[0];
        assert (a + b)[1..] == a[1..] + b;
      }
      RunCons(h, a);
      if !first.Threw() {
        RunAppend(first.state, a[1..], b);
        var rest := Run(first.state, a[1..]);
        if !rest.Threw() {
          ThenAssociative(first, rest, Run(rest.state, b));
        }
      }
    }
  }

  // ---------------------------------------------------------------------
  // Handshake

  /** Once a configuration with a valid pointer width has been stored,
      `onMessage` hands every mapped message to its handler. */
  predicate Configured(h: Handler) {
    h.byteConfig.cpointerSize == 2 || h.byteConfig.cpointerSize == 4
  }

  /** A CONFIGURATION message is accepted without a report exactly when it
      has at least five bytes, a pointer width of 2 or 4 and the expected
      version; with a valid width, the next message is dispatched to its
      handler whatever its type. */
  lemma Handshake(h: Handler, data: Bytes, next: Bytes)
    requires h.delegate.hasOnError
    ensures var r := OnConfiguration(h, data);
      r.events == [] <==> |data| >= 5 && (data[2] == 2 || data[2] == 4) && data[4] == Version
    ensures |data| >= 5 && (data[2] == 2 || data[2] == 4) ==>
      var h1 := OnConfiguration(h, data).state;
      && Configured(h1)
      && (|next| > 0 && HandlerFor(next[0]).Some? ==>
            OnMessage(h1, next) == Dispatch(HandlerFor(next[0]).value, h1, next))
  {
  }

  /** The five configuration exchanges of the unit tests, for a delegate
      that defines `onError`: a 4-byte message is refused with one report,
      a longer valid one is accepted, a pointer width of 6 and a version of
      3 are each reported once, and the normal message passes. */
  lemma ConfigurationExamples(h: Handler)
    requires h.delegate.hasOnError
    ensures OnConfiguration(h, [1, 2, 3, 4]).events == [Error(0, ConfigurationWrongSize)]
    ensures OnConfiguration(h, [1, 2, 3, 4]).state == h
    ensures OnConfiguration(h, [0, 200, 4, 1, 2, 0]).events == []
    ensures OnConfiguration(h, [0, 200, 6, 1, 2]).events == [Error(0, PointerWidthInvalid)]
    ensures OnConfiguration(h, [0, 200, 4, 1, 3]).events == [Error(0, VersionMismatch)]
    ensures OnConfiguration(h, [0, 200, 4, 1, 2]).events == []
  {
  }

  /** The `onMessage` exchanges of the unit tests: an empty message, a
      first message other than CONFIGURATION, and (after a valid
      configuration) a message of unmapped type 255 are each reported
      once; the configuration itself is not. */
  lemma OnMessageExamples(d: Delegate)
    requires d.hasOnError
    ensures OnMessage(New(d), []).events == [Error(0, MessageTooShort)]
    ensures OnMessage(New(d), [SourceCodeEnd, 1, 2, 3]).events == [Error(0, ConfigurationNotFirst)]
    ensures var r := Run(New(d), [[Configuration, 200, 4, 1, 2], [255, 200, 4, 1, 2]]);
      !r.Threw() && r.events == [Error(0, UnhandledMessage)]
  {
    var h := New(d);
    var c: Bytes := [Configuration, 200, 4, 1, 2];
    var u: Bytes := [255, 200, 4, 1, 2];
    var h1 := OnMessage(h, c).state;
    assert OnMessage(h, c) == Done(h1, []);
    assert OnMessage(h1, u) == Done(h1, [Error(0, UnhandledMessage)]);
    assert Run(h1, [u]) == Then(Done(h1, [Error(0, UnhandledMessage)]), Done(h1, []));
    assert [c, u][1..] == [u];
  }

  // ---------------------------------------------------------------------
  // Script text and name

  /** SOURCE_CODE packets (not the END one) only accumulate: after a run
      of them the buffer holds what `assembleUint8Arrays` folded together,
      and nothing is reported. */
  lemma {:induction false} SourcePacketsAccumulate(h: Handler, frags: seq<Bytes>)
    requires Configured(h) && |frags| > 0
    requires forall i :: 0 <= i < |frags| ==> |frags[i]| > 0 && frags[i][0] == SourceCode
    requires TextCodec.AssembleAll(h.sourceData, frags).Success?
    ensures Run(h, frags) == Done(h.(sourceData := Some(TextCodec.AssembleAll(h.sourceData, frags).value)), [])
    decreases |frags|
  {
    var f := frags[0];
    var next := TextCodec.Assemble(h.sourceData, f);
    assert next.Success?;
    var h1 := h.(sourceData := Some(next.value));
    assert OnMessage(h, f) == Done(h1, []) by {
      assert HandlerFor(f[0]) == Some(SourceCodeHandler);
      assert !IsEnd(f, SourceCodeEnd);
    }
    if |frags| == 1 {
      assert TextCodec.AssembleAll(h.sourceData, frags) == next;
    } else {
      forall i | 0 <= i < |frags[1..]|
        ensures |frags[1..][i]| > 0 && frags[1..][i][0] == SourceCode
      {
        assert frags[1..][i] == frags[i + 1];
      }
      SourcePacketsAccumulate(h1, frags[1..]);
    }
  }

  /** A script sent as SOURCE_CODE packets followed by a SOURCE_CODE_END
      packet, starting from an empty buffer, is reported once under the
      next id, with the text decoded from every packet's payload, opcode
      bytes dropped, and the buffer is cleared. */
  lemma ScriptFromPackets(h: Handler, frags: seq<Bytes>, last: Bytes)
    requires Configured(h) && h.delegate.hasOnScriptParsed && h.sourceData.None?
    requires |frags| > 0 && |frags[0]| >= 2
    requires forall i :: 0 <= i < |frags| ==> |frags[i]| > 0 && frags[i][0] == SourceCode
    requires |last| > 0 && last[0] == SourceCodeEnd
    ensures var r := Run(h, frags + [last]);
      var text := TextCodec.Cesu8ToString(Some(TextCodec.Payloads(frags + [last])));
      && !r.Threw()
      && r.events == [ScriptParsed(h.lastScriptID + 1, h.sourceName.GetOr([]), LineCount(text))]
      && r.state.source == text && r.state.sourceData.None?
      && r.state.lastScriptID == h.lastScriptID + 1
  {
    var buffer := TextCodec.Payloads(frags);
    var h1 := h.(sourceData := Some(buffer));
    var r1 := Run(h, frags);
    var r2 := Run(h1, [last]);
    assert r1 == Done(h1, []) && |buffer| >= 1 by {
      PacketsFillBuffer(h, frags);
    }
    assert Run(h, frags + [last]) == r2 by {
      RunAppend(h, frags, [last]);
      QuietThen(r1, r2);
    }
    var text := TextCodec.Cesu8ToString(Some(TextCodec.Payloads(frags + [last])));
    assert TextCodec.Cesu8ToString(Some(buffer + TextCodec.Payload(last))) == text by {
      assert (frags + [last])[..|frags|] == frags;
      assert TextCodec.Payloads(frags + [last]) == buffer + TextCodec.Payload(last);
    }
    assert && !r2.Threw()
           && r2.events == [ScriptParsed(h.lastScriptID + 1, h.sourceName.GetOr([]), LineCount(text))]
           && r2.state.source == text && r2.state.sourceData.None?
           && r2.state.lastScriptID == h.lastScriptID + 1 by {
      EndPacket(h1, last);
    }
  }

  /** A step that reports, sends and throws nothing adds nothing to what
      follows it. */
  lemma QuietThen(first: Transition, rest: Transition)
    requires first.events == [] && first.sent == [] && !first.Threw()
    ensures Then(first, rest) == rest
  {
    assert [] + rest.events == rest.events;
    assert [] + rest.sent == rest.sent;
  }

  /** From an empty buffer, SOURCE_CODE packets whose first one carries a
      payload leave the non-empty concatenation of their payloads. */
  lemma PacketsFillBuffer(h: Handler, frags: seq<Bytes>)
    requires Configured(h) && h.sourceData.None?
    requires |frags| > 0 && |frags[0]| >= 2
    requires forall i :: 0 <= i < |frags| ==> |frags[i]| > 0 && frags[i][0] == SourceCode
    ensures Run(h, frags) == Done(h.(sourceData := Some(TextCodec.Payloads(frags))), [])
    ensures |TextCodec.Payloads(frags)| >= 1
  {
    assert TextCodec.AssembleAll(None, frags) == Success(TextCodec.Payloads(frags)) by {
      TextCodec.AssembleFragments(frags);
    }
    SourcePacketsAccumulate(h, frags);
    assert |TextCodec.Payloads(frags)| >= 1 by {
      TextCodec.PayloadsFirst(frags);
    }
  }

  /** The END packet on a non-empty buffer completes the script. */
  lemma EndPacket(h: Handler, last: Bytes)
    requires Configured(h) && h.delegate.hasOnScriptParsed
    requires h.sourceData.Some? && |h.sourceData.value| >= 1
    requires |last| > 0 && last[0] == SourceCodeEnd
    ensures var r := Run(h, [last]);
      var text := TextCodec.Cesu8ToString(Some(h.sourceData.value + TextCodec.Payload(last)));
      && !r.Threw()
      && r.events == [ScriptParsed(h.lastScriptID + 1, h.sourceName.GetOr([]), LineCount(text))]
      && r.state.source == text && r.state.sourceData.None?
      && r.state.lastScriptID == h.lastScriptID + 1
  {
    TextCodec.AssembleStep(h.sourceData.value, last);
    assert HandlerFor(last[0]) == Some(SourceCodeHandler);
    var end := OnMessage(h, last);
    assert end == OnSourceCode(h, last);
    RunCons(h, [last]);
    assert [last][1..] == [];
    assert Run(h, [last]) == Then(end, Done(end.state, []));
  }

  /** A name completed by SOURCE_CODE_NAME_END is the name of the next
      script reported. */
  lemma NameReachesNextScript(h: Handler, nameData: Bytes, sourceData: Bytes)
    requires h.delegate.hasOnScriptParsed
    requires IsEnd(nameData, SourceCodeNameEnd) && IsEnd(sourceData, SourceCodeEnd)
    requires TextCodec.Assemble(h.sourceNameData, nameData).Success?
    requires TextCodec.Assemble(h.sourceData, sourceData).Success?
    ensures var named := OnSourceCodeName(h, nameData).state;
      var r := OnSourceCode(named, sourceData);
      var name := TextCodec.Cesu8ToString(Some(TextCodec.Assemble(h.sourceNameData, nameData).value));
      && !r.Threw() && |r.events| == 1 && r.events[0].ScriptParsed?
      && r.events[0].name == name && r.events[0].id == h.lastScriptID + 1
      && r.state.sourceName == Some(name)
  {
  }

  /** Each script's text is its own: the END packet clears the buffer, so
      the second of two one-packet scripts is decoded from its packet
      alone and numbered after the first. */
  lemma ScriptsAreSeparate(h: Handler, first: Bytes, second: Bytes)
    requires h.sourceData.None? && h.delegate.hasOnScriptParsed
    requires IsEnd(first, SourceCodeEnd) && IsEnd(second, SourceCodeEnd)
    ensures var r1 := OnSourceCode(h, first);
      var r2 := OnSourceCode(r1.state, second);
      && !r1.Threw() && !r2.Threw()
      && r1.state.source == TextCodec.Cesu8ToString(Some(first[1..]))
      && r2.state.source == TextCodec.Cesu8ToString(Some(second[1..]))
      && r2.state.sourceData.None?
      && r1.events[0].id == h.lastScriptID + 1 && r2.events[0].id == h.lastScriptID + 2
  {
  }

  /** Script text of the unit tests: the payloads of the four 'abc'
      packets decode to 'abcabcabcabc', a single line. */
  lemma AbcText(frags: seq<Bytes>)
    requires |frags| == 4
    requires forall i :: 0 <= i < 4 ==> TextCodec.Payload(frags[i]) == [97, 98, 99]
    ensures TextCodec.Cesu8ToString(Some(TextCodec.Payloads(frags))) == Str("abcabcabcabc")
    ensures LineCount(TextCodec.Cesu8ToString(Some(TextCodec.Payloads(frags)))) == 1
  {
    var abc: Bytes := [97, 98, 99];
    var bytes: Bytes := [97, 98, 99, 97, 98, 99, 97, 98, 99, 97, 98, 99];
    assert TextCodec.Payloads(frags) == Repeat(abc, 4) by {
      PayloadsRepeat(frags, abc);
    }
    RepeatAbc(abc, bytes);
    AbcDecodes(bytes);
  }

  lemma RepeatAbc(abc: Bytes, bytes: Bytes)
    requires abc == [97, 98, 99]
    requires bytes == [97, 98, 99, 97, 98, 99, 97, 98, 99, 97, 98, 99]
    ensures Repeat(abc, 4) == bytes
  {
    assert Repeat(abc, 1) == abc by {
      assert Repeat(abc, 0) == [];
    }
    assert Repeat(abc, 3) == abc + abc + abc;
    assert Repeat(abc, 4) == abc + abc + abc + abc;
  }

  /** `n` copies of `p`, one after another. */
  function Repeat(p: Bytes, n: nat): Bytes {
    if n == 0 then [] else Repeat(p, n - 1) + p
  }

  lemma {:induction false} PayloadsRepeat(frags: seq<Bytes>, p: Bytes)
    requires forall i :: 0 <= i < |frags| ==> TextCodec.Payload(frags[i]) == p
    ensures TextCodec.Payloads(frags) == Repeat(p, |frags|)
  {
    if |frags| > 0 {
      PayloadsRepeat(frags[..|frags| - 1], p);
    }
  }

  lemma AbcDecodes(bytes: Bytes)
    requires bytes == [97, 98, 99, 97, 98, 99, 97, 98, 99, 97, 98, 99]
    ensures TextCodec.Cesu8ToString(Some(bytes)) == Str("abcabcabcabc")
    ensures LineCount(TextCodec.Cesu8ToString(Some(bytes))) == 1
  {
    assert TextCodec.Cesu8ToString(Some(bytes)) == bytes by {
      TextCodec.AsciiIsCopied(bytes, 0, TextCodec.SourceLeadMin);
    }
    assert Str("abcabcabcabc") == bytes;
    OneLine(bytes);
  }

  /** Text without a line feed is a single line. */
  lemma OneLine(text: JsString)
    requires forall i :: 0 <= i < |text| ==> text[i] != TextSplit.LF
    ensures LineCount(text) == 1
  {
    assert TextSplit.NoMatch(TextSplit.DoubleLineFeed, text) by {
      forall i: nat | i < |text|
        ensures !TextSplit.MatchesAt(TextSplit.DoubleLineFeed, text, i)
      {
        assert text[i] != TextSplit.LF;
      }
    }
    TextSplit.SplitWithoutMatch(text, TextSplit.DoubleLineFeed);
  }

  /** The unit tests' multi-packet script: three 'abc' packets and an 'abc'
      END packet meet `ScriptFromPackets`' conditions, and their payloads
      decode to 'abcabcabcabc', a single line; so a configured handler
      with `onScriptParsed` reports it once, with line count 1. */
  lemma AbcPackets(frags: seq<Bytes>, last: Bytes)
    requires |frags| == 3 && forall i :: 0 <= i < 3 ==> frags[i] == [SourceCode, 97, 98, 99]
    requires last == [SourceCodeEnd, 97, 98, 99]
    ensures |frags[0]| >= 2
    ensures forall i :: 0 <= i < |frags| ==> |frags[i]| > 0 && frags[i][0] == SourceCode
    ensures TextCodec.Cesu8ToString(Some(TextCodec.Payloads(frags + [last]))) == Str("abcabcabcabc")
    ensures LineCount(TextCodec.Cesu8ToString(Some(TextCodec.Payloads(frags + [last])))) == 1
  {
    var all := frags + [last];
    assert forall i :: 0 <= i < 4 ==> TextCodec.Payload(all[i]) == [97, 98, 99] by {
      assert all[3] == last;
    }
    AbcText(all);
  }
}

=== FILE: js_values.dfy ===
/** JavaScript values the model needs: bytes of a Uint8Array, UTF-16 code
    units of a string, int32 results of bitwise operators, and the decimal
    text of an integer. */
module JsValues {

  import opened Wrappers

  type Byte = b: int | 0 <= b < 0x100
  type Bytes = seq<Byte>

  /** A JavaScript string is a sequence of 16-bit code units (surrogates included). */
  type CodeUnit = c: int | 0 <= c < 0x1_0000
  type JsString = seq<CodeUnit>

  const TwoTo31: int := 0x8000_0000
  const TwoTo32: int := 0x1_0000_0000

  /** A string literal of the source, as code units (all literals used are ASCII). */
  function Str(s: string): (r: JsString)
    ensures |r| == |s|
  {
    seq(|s|, i requires 0 <= i < |s| => (s[i] as int) % 0x1_0000)
  }

  /** `a[i]` of a Uint8Array: `undefined` past the end. */
  function Element(a: seq<int>, i: int): (r: Option<int>)
    ensures r.Some? <==> 0 <= i < |a|
    ensures r.Some? ==> r.value == a[i]
  {
    if 0 <= i < |a| then Some(a[i]) else None
  }

  /** `a[i]` used as an operand of `|`, `&` or `<<`: `undefined` converts to 0. */
  function At(a: Bytes, i: int): (r: Byte)
    ensures 0 <= i < |a| ==> r == a[i]
    ensures !(0 <= i < |a|) ==> r == 0
  {
    if 0 <= i < |a| then a[i] else 0
  }

  /** The ToInt32 conversion every JavaScript bitwise operator applies to its
      result, for a value already reduced to 32 bits. */
  function ToInt32(u: int): (r: int)
    requires 0 <= u < TwoTo32
    ensures -TwoTo31 <= r < TwoTo31
    ensures r % TwoTo32 == u
    ensures u < TwoTo31 ==> r == u
  {
    if u < TwoTo31 then u else u - TwoTo32
  }

  predicate IsDigit(c: CodeUnit) {
    '0' as int <= c <= '9' as int
  }

  predicate AllDigits(s: JsString) {
    forall i :: 0 <= i < |s| ==> IsDigit(s[i])
  }

  /** Decimal text of a natural number, most significant digit first. */
  function DecimalString(n: nat): (r: JsString)
    ensures |r| > 0 && AllDigits(r)
    decreases n
  {
    if n < 10 then [('0' as int) + n]
    else DecimalString(n / 10) + [('0' as int) + n % 10]
  }

  /** The value of a string of decimal digits. */
  function ParseDecimal(s: JsString): (r: nat)
    requires AllDigits(s)
    decreases |s|
  {
    if |s| == 0 then 0
    else ParseDecimal(s[..|s| - 1]) * 10 + (s[|s| - 1] - '0' as int)
  }

  /** `String(n)` for an integer `n`. */
  function IntToString(n: int): (r: JsString)
    ensures |r| > 0
  {
    if n < 0 then Str("-") + DecimalString(-n) else DecimalString(n)
  }

  /** Reading back the decimal text of `n` gives `n`. */
  lemma {:induction false} DecimalRoundTrip(n: nat)
    ensures ParseDecimal(DecimalString(n)) == n
    decreases n
  {
    if n >= 10 {
      var s := DecimalString(n);
      assert s[..|s| - 1] == DecimalString(n / 10);
      DecimalRoundTrip(n / 10);
    }
  }
}

=== FILE: parsed_source.dfy ===
/** jerry-debugger/src/lib/parsed-source.ts: the earliest receiver of the
    parse messages. It decodes through the client's `decodeMessage`, emits
    `scriptParsed` for every script whether or not anyone listens, never
    clears its source buffers, and copies its whole function table into the
    client's table each time the parser stack is emptied. */
module ParsedSources {

  import opened Wrappers
  import opened JsValues
  import opened Protocol
  import opened Breakpoints
  import ByteCodec
  import TextCodec
  import TextSplit
  import ProtocolHandler
  import ProtocolParser

  /** A `scriptParsed` emission. The name is `undefined` (None) until a
      SOURCE_CODE_NAME_END has arrived. */
  datatype Event = ScriptParsed(scriptId: int, name: Option<JsString>, endLine: nat, endColumn: int, hasSourceURL: bool)

  /** The object's fields, with the two parts of the debugger client it
      uses: the byte layout its `decodeMessage` reads with (`config`), and
      its `functions` table (`published`). */
  datatype ParsedSource = ParsedSource(
    config: ByteCodec.ByteConfig,
    stack: seq<Frame>,
    source: JsString,
    sourceData: Option<Bytes>,
    sourceName: Option<JsString>,
    sourceNameData: Option<Bytes>,
    functionName: Option<Bytes>,
    functions: map<int, ParsedFunction>,
    lastScriptID: int,
    published: map<int, ParsedFunction>)

  type Transition = Outcome<ParsedSource, Event>

  /** The constructor, for a client with the given layout and table. */
  function New(config: ByteCodec.ByteConfig, published: map<int, ParsedFunction>): (r: ParsedSource)
    ensures r.stack == [TopLevelFrame] && r.source == [] && r.lastScriptID == 0
    ensures r.sourceData.None? && r.sourceName.None? && r.sourceNameData.None? && r.functionName.None?
    ensures r.functions == map[] && r.config == config && r.published == published
  {
    ParsedSource(config, [TopLevelFrame], [], None, None, None, None, map[], 0, published)
  }

  function Done(s: ParsedSource, events: seq<Event>): Transition {
    Outcome(s, events, [], None)
  }

  function Throw(s: ParsedSource, fault: Fault): Transition {
    Outcome(s, [], [], Some(fault))
  }

  /** The message types `receive` has a case for. */
  predicate Handled(code: Byte) {
    code in {SourceCode, SourceCodeEnd, SourceCodeName, SourceCodeNameEnd, FunctionName, FunctionNameEnd,
             ParseFunction, BreakpointList, BreakpointOffsetList, ByteCodeCp}
  }

  /** SOURCE_CODE(_END): appends the fragment; the END fragment decodes the
      whole buffer, which is NOT cleared, and emits the next script id. */
  function OnSourceCode(s: ParsedSource, message: Bytes): (r: Transition)
    ensures r.sent == []
    ensures r.Threw() <==> TextCodec.Assemble(s.sourceData, message).Failure?
    ensures r.Threw() ==> r.state == s
    ensures !r.Threw() ==> r.state.sourceData == Some(TextCodec.Assemble(s.sourceData, message).value)
    ensures !r.Threw() && !IsEnd(message, SourceCodeEnd) ==>
      r.state == s.(sourceData := r.state.sourceData) && r.events == []
    ensures !r.Threw() && IsEnd(message, SourceCodeEnd) ==>
      var text := TextCodec.Cesu8ToString(r.state.sourceData);
      && r.state == s.(sourceData := r.state.sourceData, source := text, lastScriptID := s.lastScriptID + 1)
      && r.events == [ScriptParsed(s.lastScriptID + 1, s.sourceName, ProtocolParser.EndLine(text), 0, false)]
  {
    match TextCodec.Assemble(s.sourceData, message)
    case Failure(e) => Throw(s, e)
    case Success(assembled) =>
      var s1 := s.(sourceData := Some(assembled));
      if IsEnd(message, SourceCodeEnd) then
        var text := TextCodec.Cesu8ToString(s1.sourceData);
        var id := s1.lastScriptID + 1;
        Done(s1.(source := text, lastScriptID := id), [ScriptParsed(id, s1.sourceName, ProtocolParser.EndLine(text), 0, false)])
      else Done(s1, [])
  }

  /** SOURCE_CODE_NAME(_END): appends the fragment; the END fragment sets
      the name from the whole buffer, which is NOT cleared. */
  function OnSourceCodeName(s: ParsedSource, message: Bytes): (r: Transition)
    ensures r.events == [] && r.sent == []
    ensures r.Threw() <==> TextCodec.Assemble(s.sourceNameData, message).Failure?
    ensures r.Threw() ==> r.state == s
    ensures !r.Threw() && !IsEnd(message, SourceCodeNameEnd) ==>
      r.state == s.(sourceNameData := Some(TextCodec.Assemble(s.sourceNameData, message).value))
    ensures !r.Threw() && IsEnd(message, SourceCodeNameEnd) ==>
      var data := TextCodec.Assemble(s.sourceNameData, message).value;
      r.state == s.(sourceNameData := Some(data), sourceName := Some(TextCodec.Cesu8ToString(Some(data))))
  {
    match TextCodec.Assemble(s.sourceNameData, message)
    case Failure(e) => Throw(s, e)
    case Success(assembled) =>
      var s1 := s.(sourceNameData := Some(assembled));
      if IsEnd(message, SourceCodeNameEnd) then Done(s1.(sourceName := Some(TextCodec.Cesu8ToString(s1.sourceNameData))), [])
      else Done(s1, [])
  }

  /** FUNCTION_NAME(_END): appends the fragment to the pending name. */
  function OnFunctionName(s: ParsedSource, message: Bytes): (r: Transition)
    ensures r.events == [] && r.sent == []
    ensures r.Threw() <==> TextCodec.Assemble(s.functionName, message).Failure?
    ensures r.Threw() ==> r.state == s
    ensures !r.Threw() ==> r.state == s.(functionName := Some(TextCodec.Assemble(s.functionName, message).value))
  {
    match TextCodec.Assemble(s.functionName, message)
    case Failure(e) => Throw(s, e)
    case Success(assembled) => Done(s.(functionName := Some(assembled)), [])
  }

  /** PARSE_FUNCTION: decodes line and column and pushes a function frame
      named by the pending name, which is then dropped. */
  function OnParseFunction(s: ParsedSource, message: Bytes): (r: Transition)
    ensures r.events == [] && r.sent == []
    ensures r.Threw() <==> |message| < 9
    ensures r.Threw() ==> r.state == s && r.fault == Some(TooShort)
    ensures !r.Threw() ==>
      && r.state == s.(stack := r.state.stack, functionName := None)
      && |r.state.stack| == |s.stack| + 1 && r.state.stack[..|s.stack|] == s.stack
      && r.state.stack[|s.stack|] == Frame(true, ByteCodec.Read4(s.config.littleEndian, message, 1),
                                           ByteCodec.Read4(s.config.littleEndian, message, 5),
                                           TextCodec.Cesu8ToString(s.functionName), s.source, s.sourceName, [], [])
  {
    assert "II" == ['I'] + "I" && "I" == ['I'];
    ByteCodec.FormatSizeAppend(s.config, "I", "I");
    match ByteCodec.Decode(s.config, "II", message, 1)
    case Failure(e) => Throw(s, e)
    case Success(position) =>
      assert position == [ByteCodec.Read4(s.config.littleEndian, message, 1), ByteCodec.Read4(s.config.littleEndian, message, 5)] by {
        ByteCodec.DecodeValues(s.config, "II", message, 1);
        assert "II"[..0] == "" && "II"[..1] == "I" && "I"[1..] == "";
      }
      var frame := Frame(true, position[0], position[1], TextCodec.Cesu8ToString(s.functionName), s.source, s.sourceName, [], []);
      Done(s.(stack := s.stack + [frame], functionName := None), [])
  }

  /** BREAKPOINT_LIST and BREAKPOINT_OFFSET_LIST: the length must be 1 plus
      a positive multiple of 4; the 4-byte values go to the top frame's
      `lines` or `offsets`; with no frame the property access throws. */
  function OnBreakpointList(s: ParsedSource, message: Bytes): (r: Transition)
    ensures r.events == [] && r.sent == []
    ensures r.fault == Some(BreakpointListLength) <==> |message| % 4 != 1 || |message| < 5
    ensures r.fault == Some(UndefinedAccess) <==> |message| % 4 == 1 && |message| >= 5 && |s.stack| == 0
    ensures r.Threw() ==> r.state == s
    ensures !r.Threw() ==>
      var n := |s.stack|;
      var top := s.stack[n - 1];
      var values := ProtocolHandler.ListValues(s.config, message, 1);
      && |values| == (|message| - 1) / 4
      && r.state == s.(stack := r.state.stack)
      && |r.state.stack| == n && r.state.stack[..n - 1] == s.stack[..n - 1]
      && (message[0] == BreakpointList ==> r.state.stack[n - 1] == top.(lines := top.lines + values))
      && (message[0] != BreakpointList ==> r.state.stack[n - 1] == top.(offsets := top.offsets + values))
  {
    if |message| % 4 != 1 || |message| < 5 then Throw(s, BreakpointListLength)
    else if |s.stack| == 0 then Throw(s, UndefinedAccess)
    else
      var values := ProtocolHandler.ListValues(s.config, message, 1);
      var top := s.stack[|s.stack| - 1];
      var top' := if message[0] == BreakpointList then top.(lines := top.lines + values)
                  else top.(offsets := top.offsets + values);
      Done(s.(stack := s.stack[..|s.stack| - 1] + [top']), [])
  }

  /** BYTE_CODE_CP: pops a frame (none: throws), decodes the pointer (a
      throw leaves the frame popped) and registers the function. A pop
      that leaves frames behind ends there; one that empties the stack
      gives the function the script's lines and name and copies the whole
      table into the client's. */
  function OnByteCodeCP(s: ParsedSource, message: Bytes): (r: Transition)
    ensures r.events == [] && r.sent == []
    ensures |s.stack| == 0 <==> r.fault == Some(MissingStackFrame)
    ensures |s.stack| == 0 ==> r.state == s
    ensures |s.stack| > 0 ==> r.state.stack == s.stack[..|s.stack| - 1]
    ensures |s.stack| > 0 ==>
      (r.Threw() <==> ByteCodec.Decode(s.config, "C", message, 1).Failure?)
    ensures r.Threw() ==> r.state == s.(stack := r.state.stack)
    ensures !r.Threw() ==>
      var cp := ByteCodec.Decode(s.config, "C", message, 1).value[0];
      var frame := s.stack[|s.stack| - 1];
      && r.state == s.(stack := r.state.stack, functions := r.state.functions, published := r.state.published)
      && r.state.functions.Keys == s.functions.Keys + {cp}
      && (forall k :: k in s.functions && k != cp ==> r.state.functions[k] == s.functions[k])
      && (|r.state.stack| > 0 ==> r.state.functions[cp] == NewParsedFunction(cp, frame) && r.state.published == s.published)
      && (|r.state.stack| == 0 ==>
            && r.state.functions[cp] == NewParsedFunction(cp, frame).(
                 source := Some(TextSplit.Split(s.source, TextSplit.CrLfThenCrOrLf)), sourceName := s.sourceName)
            && r.state.published.Keys == s.published.Keys + r.state.functions.Keys
            && (forall k :: k in r.state.functions ==> r.state.published[k] == r.state.functions[k])
            && (forall k :: k in s.published && k !in r.state.functions ==> r.state.published[k] == s.published[k]))
  {
    if |s.stack| == 0 then Throw(s, MissingStackFrame)
    else
      var frame := s.stack[|s.stack| - 1];
      var popped := s.(stack := s.stack[..|s.stack| - 1]);
      match ByteCodec.Decode(s.config, "C", message, 1)
      case Failure(e) => Throw(popped, e)
      case Success(values) =>
        var cp := values[0];
        var func := NewParsedFunction(cp, frame);
        if |popped.stack| > 0 then Done(Store(popped, cp, func, false), [])
        else
          var outer := func.(source := Some(TextSplit.Split(s.source, TextSplit.CrLfThenCrOrLf)), sourceName := s.sourceName);
          Done(Store(popped, cp, outer, true), [])
  }

  /** `this.functions[byteCodeCP] = func`, followed, when `publish`, by
      copying the whole table into the client's. */
  function Store(s: ParsedSource, cp: int, func: ParsedFunction, publish: bool): (r: ParsedSource)
    ensures r == s.(functions := r.functions, published := r.published)
    ensures r.functions.Keys == s.functions.Keys + {cp} && r.functions[cp] == func
    ensures forall k :: k in s.functions && k != cp ==> r.functions[k] == s.functions[k]
    ensures !publish ==> r.published == s.published
    ensures publish ==>
      && r.published.Keys == s.published.Keys + r.functions.Keys
      && (forall k :: k in r.functions ==> r.published[k] == r.functions[k])
      && (forall k :: k in s.published && k !in r.functions ==> r.published[k] == s.published[k])
  {
    var functions := s.functions[cp := func];
    s.(functions := functions, published := if publish then s.published + functions else s.published)
  }

  /** `receive(message)`. An empty message reads type `undefined` and,
      like any type without a case, is only logged. */
  function Receive(s: ParsedSource, message: Bytes): (r: Transition)
    ensures r.sent == [] && r.state.config == s.config
    ensures |message| == 0 || !Handled(message[0]) ==> r == Done(s, [])
    ensures r.state.published != s.published ==> |message| > 0 && message[0] == ByteCodeCp && !r.Threw() && r.state.stack == []
    ensures r.state.lastScriptID == s.lastScriptID + |r.events|
    ensures forall i :: 0 <= i < |r.events| ==> r.events[i].scriptId == s.lastScriptID + 1 + i
    ensures s.published.Keys <= r.state.published.Keys
  {
    if |message| == 0 then Done(s, [])
    else
      var code := message[0];
      if code == SourceCode || code == SourceCodeEnd then OnSourceCode(s, message)
      else if code == SourceCodeName || code == SourceCodeNameEnd then OnSourceCodeName(s, message)
      else if code == FunctionName || code == FunctionNameEnd then OnFunctionName(s, message)
      else if code == ParseFunction then OnParseFunction(s, message)
      else if code == BreakpointList || code == BreakpointOffsetList then OnBreakpointList(s, message)
      else if code == ByteCodeCp then OnByteCodeCP(s, message)
      else Done(s, [])
  }

  /** The messages received one after another, up to the first throw. */
  function Run(s: ParsedSource, messages: seq<Bytes>): (r: Transition)
    decreases |messages|
  {
    if |messages| == 0 then Done(s, [])
    else
      var first := Receive(s, messages[0]);
      if first.Threw() then first
      else Then(first, Run(first.state, messages[1..]))
  }

  // ---------------------------------------------------------------------
  // Properties

  /** Over any run, scripts are numbered one after another from the last
      id, and the client's table only gains keys. */
  lemma {:induction false} RunNumbersScripts(s: ParsedSource, messages: seq<Bytes>)
    ensures var r := Run(s, messages);
      && r.state.lastScriptID == s.lastScriptID + |r.events|
      && (forall i :: 0 <= i < |r.events| ==> r.events[i].scriptId == s.lastScriptID + 1 + i)
      && s.published.Keys <= r.state.published.Keys
    decreases |messages|
  {
    if |messages| > 0 {
      var first := Receive(s, messages[0]);
      if !first.Threw() {
        var rest := Run(first.state, messages[1..]);
        RunNumbersScripts(first.state, messages[1..]);
        assert Run(s, messages) == Then(first, rest);
        NumberedAppend(first.events, rest.events, s.lastScriptID + 1);
      }
    }
  }

  lemma NumberedAppend(a: seq<Event>, b: seq<Event>, from: int)
    requires forall i :: 0 <= i < |a| ==> a[i].scriptId == from + i
    requires forall i :: 0 <= i < |b| ==> b[i].scriptId == from + |a| + i
    ensures forall i :: 0 <= i < |a + b| ==> (a + b)[i].scriptId == from + i
  {
    forall i | 0 <= i < |a + b|
      ensures (a + b)[i].scriptId == from + i
    {
      if i >= |a| {
        assert (a + b)[i] == b[i - |a|];
      }
    }
  }

  /** The pop that empties the stack publishes every function parsed so
      far (`Receive` says no other message touches the client's table). */
  lemma EmptyingPopPublishes(s: ParsedSource, message: Bytes)
    requires |s.stack| == 1
    requires ByteCodec.Decode(s.config, "C", message, 1).Success?
    ensures var r := OnByteCodeCP(s, message);
      && !r.Threw() && r.state.stack == []
      && (forall k :: k in s.functions ==> k in r.state.published)
      && (forall k :: k in r.state.functions ==> r.state.published[k] == r.state.functions[k])
  {
    var r := OnByteCodeCP(s, message);
    assert |r.state.stack| == 0;
    forall k | k in s.functions
      ensures k in r.state.published
    {
      assert k in r.state.functions;
    }
  }

  /** Once the seeded top-level frame has been popped, nothing pushes
      another one: the next script's top-level breakpoint list throws. */
  lemma StackNotReseeded(s: ParsedSource, cp: Bytes, list: Bytes)
    requires |s.stack| == 1 && |cp| > 0 && cp[0] == ByteCodeCp
    requires ByteCodec.Decode(s.config, "C", cp, 1).Success?
    requires |list| == 5 && list[0] == BreakpointList
    ensures Run(s, [cp, list]).fault == Some(UndefinedAccess)
  {
    ReceiveByteCodeCp(s, cp);
    EmptyingPopPublishes(s, cp);
    ListWithoutFrame(Receive(s, cp).state, list);
    RunOfTwo(s, cp, list);
  }

  lemma ReceiveByteCodeCp(s: ParsedSource, message: Bytes)
    requires |message| > 0 && message[0] == ByteCodeCp
    ensures Receive(s, message) == OnByteCodeCP(s, message)
  {
  }

  lemma ListWithoutFrame(s: ParsedSource, list: Bytes)
    requires s.stack == [] && |list| == 5 && list[0] == BreakpointList
    ensures Receive(s, list).fault == Some(UndefinedAccess)
  {
    assert Receive(s, list) == OnBreakpointList(s, list);
  }

  /** Two messages: the second is received in the state the first leaves,
      and the run's fault is the second's, unless the first threw. */
  lemma RunOfTwo(s: ParsedSource, a: Bytes, b: Bytes)
    ensures var first := Receive(s, a);
      !first.Threw() ==> Run(s, [a, b]).fault == Receive(first.state, b).fault
  {
    var first := Receive(s, a);
    if !first.Threw() {
      assert [a, b][1..] == [b] && [b][1..] == [];
      assert Run(s, [a, b]).fault == Run(first.state, [b]).fault;
      var second := Receive(first.state, b);
      assert !second.Threw() ==> Run(first.state, [b]) == Then(second, Run(second.state, []));
    }
  }

  /** The source buffer is never cleared: the second of two scripts, each
      sent as one END packet, is decoded from both packets' payloads. */
  lemma SourceDataNeverCleared(s: ParsedSource, first: Bytes, second: Bytes)
    requires s.sourceData.None?
    requires |first| >= 2 && first[0] == SourceCodeEnd
    requires |second| >= 2 && second[0] == SourceCodeEnd
    ensures var r1 := Receive(s, first);
      var r2 := Receive(r1.state, second);
      && !r1.Threw() && !r2.Threw()
      && r1.events == [ScriptParsed(s.lastScriptID + 1, s.sourceName, ProtocolParser.EndLine(TextCodec.Cesu8ToString(Some(first[1..]))), 0, false)]
      && r2.state.source == TextCodec.Cesu8ToString(Some(first[1..] + second[1..]))
  {
  }

  /** The receiver and the later handler, holding the same parse state. */
  predicate SameParse(s: ParsedSource, h: ProtocolHandler.Handler) {
    && s.config == h.byteConfig && s.stack == h.stack && s.source == h.source
    && s.sourceName == h.sourceName && s.functionName == h.functionName && s.functions == h.functions
  }

  /** PARSE_FUNCTION does to the parser stack what the later handler
      does, and throws on the same messages. */
  lemma ParseFunctionAgrees(s: ParsedSource, h: ProtocolHandler.Handler, message: Bytes)
    requires SameParse(s, h)
    ensures var r := OnParseFunction(s, message);
      var t := ProtocolHandler.OnParseFunction(h, message);
      r.fault == t.fault && SameParse(r.state, t.state)
  {
  }

  /** So do the breakpoint lists. */
  lemma BreakpointListAgrees(s: ParsedSource, h: ProtocolHandler.Handler, message: Bytes)
    requires SameParse(s, h)
    ensures var r := OnBreakpointList(s, message);
      var t := ProtocolHandler.OnBreakpointList(h, message);
      r.fault == t.fault && SameParse(r.state, t.state)
  {
  }

  /** BYTE_CODE_CP registers the same function as the later handler while
      frames remain; the outermost function's lines differ only in the
      line separator they are split on. */
  lemma ByteCodeCpAgrees(s: ParsedSource, h: ProtocolHandler.Handler, message: Bytes)
    requires SameParse(s, h)
    ensures var r := OnByteCodeCP(s, message);
      var t := ProtocolHandler.OnByteCodeCP(h, message);
      && r.fault == t.fault && r.state.stack == t.state.stack
      && (|h.stack| != 1 ==> r.state.functions == t.state.functions)
      && (|h.stack| == 1 && !t.Threw() ==>
            var cp := ByteCodec.Decode(h.byteConfig, "C", message, 1).value[0];
            && t.state.functions[cp].source == Some(TextSplit.Split(h.source, TextSplit.DoubleLineFeed))
            && r.state.functions == t.state.functions[cp := t.state.functions[cp].(
                 source := Some(TextSplit.Split(h.source, TextSplit.CrLfThenCrOrLf)))])
  {
  }
}

=== FILE: parser_properties.dfy ===
/** How the earlier protocol machine of
    jerry-debugger/src/lib/protocol-parser.ts relates to the codec of
    utils.ts and to the later handler of protocol-handler.ts: where they
    agree, and the inputs on which they differ. */
module ParserProperties {

  import opened Wrappers
  import opened JsValues
  import opened Protocol
  import opened Breakpoints
  import ByteCodec
  import TextCodec
  import TextSplit
  import ProtocolHandler
  import opened ProtocolParser

  // ---------------------------------------------------------------------
  // Codec

  /** With a stored width, the parser's `getFormatSize` is the one of
      utils.ts: the same sum, and the same throw on an unknown character. */
  lemma {:induction false} FormatSizeAgrees(config: ByteCodec.ByteConfig, format: string)
    ensures var old_ := FormatSize(Some(config.cpointerSize), format);
      var new_ := ByteCodec.FormatSize(config, format);
      && (old_.Success? <==> new_.Success?)
      && (new_.Success? ==> old_.value == Some(new_.value))
    decreases |format|
  {
    if |format| > 0 {
      FormatSizeAgrees(config, format[1..]);
    }
  }

  /** Every value wrapped as defined. */
  function Lift(values: seq<int>): (r: seq<Option<int>>)
    ensures |r| == |values| && forall k :: 0 <= k < |values| ==> r[k] == Some(values[k])
  {
    seq(|values|, k requires 0 <= k < |values| => Some(values[k]))
  }

  /** No field of the format is read as four big-endian bytes. */
  predicate NoWideField(width: int, format: string) {
    forall k :: 0 <= k < |format| ==> format[k] == 'B' || (format[k] == 'C' && width == 2)
  }

  /** The parser mirrors a configuration. */
  predicate SameConfig(p: Parser, config: ByteCodec.ByteConfig) {
    p.cpointerSize == Some(config.cpointerSize) && p.littleEndian == config.littleEndian
  }

  lemma {:induction false} FieldsAgree(p: Parser, config: ByteCodec.ByteConfig, format: string, m: Bytes, offset: nat)
    requires SameConfig(p, config) && (config.cpointerSize == 2 || config.cpointerSize == 4)
    requires ByteCodec.KnownFormat(format)
    requires offset + ByteCodec.FormatSize(config, format).value <= |m|
    requires config.littleEndian || NoWideField(config.cpointerSize, format)
    ensures ByteCodec.DecodeFields(config, format, m, offset).Success?
    ensures DecodeFields(p, format, m, offset) == Success(Lift(ByteCodec.DecodeFields(config, format, m, offset).value))
    decreases |format|
  {
    if |format| > 0 {
      var c := format[0];
      var width := if c == 'B' then 1 else if c == 'C' && config.cpointerSize == 2 then 2 else 4;
      assert ByteCodec.FormatSize(config, format).value == width + ByteCodec.FormatSize(config, format[1..]).value by {
        assert format == [c] + format[1..];
      }
      assert config.littleEndian || NoWideField(config.cpointerSize, format[1..]) by {
        if !config.littleEndian {
          NoWideFieldTail(config.cpointerSize, format);
        }
      }
      FieldsAgree(p, config, format[1..], m, offset + width);
      var rest := ByteCodec.DecodeFields(config, format[1..], m, offset + width).value;
      var v := ByteCodec.FieldValue(config, c, m, offset);
      assert FieldValue(p, c, m, offset) == Some(v) by {
        assert c == 'B' ==> offset < |m|;
      }
      LiftCons(v, rest);
    }
  }

  lemma LiftCons(v: int, rest: seq<int>)
    ensures Lift([v] + rest) == [Some(v)] + Lift(rest)
  {
    var left := Lift([v] + rest);
    var right := [Some(v)] + Lift(rest);
    assert |left| == |right|;
    forall k | 0 <= k < |left|
      ensures left[k] == right[k]
    {
      if k > 0 {
        assert ([v] + rest)[k] == rest[k - 1];
      }
    }
  }

  lemma NoWideFieldTail(width: int, format: string)
    requires |format| > 0 && NoWideField(width, format)
    ensures NoWideField(width, format[1..])
  {
    forall k | 0 <= k < |format[1..]|
      ensures format[1..][k] == 'B' || (format[1..][k] == 'C' && width == 2)
    {
      assert format[1..][k] == format[k + 1];
    }
  }

  /** Wherever the codec of utils.ts succeeds in little-endian, or on
      fields narrower than four bytes, the parser's `decodeMessage` makes
      no report and returns the same values. */
  lemma DecodeAgrees(p: Parser, config: ByteCodec.ByteConfig, format: string, m: Bytes, offset: nat)
    requires SameConfig(p, config)
    requires ByteCodec.Decode(config, format, m, offset).Success?
    requires config.littleEndian || NoWideField(config.cpointerSize, format)
    ensures Decode(p, format, m, offset) == Decoded([], Success(Lift(ByteCodec.Decode(config, format, m, offset).value)))
  {
    FormatSizeAgrees(config, format);
    if 'C' in format {
      var k :| 0 <= k < |format| && format[k] == 'C';
    } else {
      FieldsAgreeWithoutPointer(p, config, format, m, offset);
      return;
    }
    FieldsAgree(p, config, format, m, offset);
  }

  /** A format without `C` does not depend on the pointer width. */
  lemma FieldsAgreeWithoutPointer(p: Parser, config: ByteCodec.ByteConfig, format: string, m: Bytes, offset: nat)
    requires SameConfig(p, config) && 'C' !in format
    requires ByteCodec.Decode(config, format, m, offset).Success?
    requires config.littleEndian || NoWideField(config.cpointerSize, format)
    ensures DecodeFields(p, format, m, offset) == Success(Lift(ByteCodec.Decode(config, format, m, offset).value))
  {
    var config' := config.(cpointerSize := 2);
    var p' := p.(cpointerSize := Some(2));
    NoPointerWidthFree(config, format);
    NoPointerWidthFreeParser(p, format, m, offset);
    FieldsAgree(p', config', format, m, offset);
    NoPointerDecodeFree(config, format, m, offset);
  }

  lemma {:induction false} NoPointerWidthFree(config: ByteCodec.ByteConfig, format: string)
    requires 'C' !in format
    ensures ByteCodec.FormatSize(config, format) == ByteCodec.FormatSize(config.(cpointerSize := 2), format)
    decreases |format|
  {
    if |format| > 0 {
      assert format == [format[0]] + format[1..];
      NoPointerWidthFree(config, format[1..]);
    }
  }

  lemma {:induction false} NoPointerDecodeFree(config: ByteCodec.ByteConfig, format: string, m: Bytes, offset: nat)
    requires 'C' !in format && ByteCodec.KnownFormat(format)
    ensures ByteCodec.DecodeFields(config, format, m, offset) == ByteCodec.DecodeFields(config.(cpointerSize := 2), format, m, offset)
    decreases |format|
  {
    if |format| > 0 {
      assert format == [format[0]] + format[1..];
      NoPointerDecodeFree(config, format[1..], m, offset + (if format[0] == 'B' then 1 else 4));
    }
  }

  lemma {:induction false} NoPointerWidthFreeParser(p: Parser, format: string, m: Bytes, offset: nat)
    requires 'C' !in format
    ensures DecodeFields(p, format, m, offset) == DecodeFields(p.(cpointerSize := Some(2)), format, m, offset)
    decreases |format|
  {
    if |format| > 0 {
      assert format == [format[0]] + format[1..];
      NoPointerWidthFreeParser(p, format[1..], m, offset + (if format[0] == 'B' then 1 else 4));
    }
  }

  /** The parser's big-endian 4-byte field always has a zero low byte,
      and its top byte is the first byte OR-ed with the fourth. */
  lemma BigEndianLowByteLost(p: Parser, m: Bytes, i: int)
    requires !p.littleEndian
    ensures Read4(false, m, i) % 0x100 == 0
    ensures Read4(false, m, i) % TwoTo32 / 0x100_0000 == Or8(At(m, i), At(m, i + 3))
  {
    var u := Or8(At(m, i), At(m, i + 3)) * 0x100_0000 + At(m, i + 1) * 0x1_0000 + At(m, i + 2) * 0x100;
    assert u % 0x100 == 0 by {
      assert u == 0x100 * (Or8(At(m, i), At(m, i + 3)) * 0x1_0000 + At(m, i + 1) * 0x100 + At(m, i + 2));
    }
    var r := ToInt32(u);
    assert r == u || r == u - TwoTo32;
  }

  /** The big-endian integer [1, 2, 3, 4]: utils.ts reads 0x01020304, the
      parser reads 0x05020300 (0x01 | 0x04 on top, nothing in the low
      byte). */
  lemma BigEndianIntAsWritten(p: Parser, m: Bytes)
    requires !p.littleEndian && (p.cpointerSize == Some(2) || p.cpointerSize == Some(4))
    requires m == [1, 2, 3, 4]
    ensures Decode(p, "I", m, 0) == Decoded([], Success([Some(0x0502_0300)]))
    ensures ByteCodec.Decode(ByteCodec.ByteConfig(p.cpointerSize.value, false), "I", m, 0) == Success([0x0102_0304])
  {
    assert "I" == ['I'];
    assert Decode(p, "I", m, 0) == Decoded([], Success([Some(0x0502_0300)])) by {
      DecodeOneField(p, 'I', m, 0);
      assert Or8(1, 4) == 5 by {
        assert (1 as bv8) | (4 as bv8) == 5;
      }
    }
    ByteCodec.DecodeOneField(ByteCodec.ByteConfig(p.cpointerSize.value, false), 'I', m, 0);
  }

  /** A message too short for its format is reported once and decoded
      anyway: no throw, and a `B` past the end reads `undefined`. */
  lemma TooShortIsReportedNotThrown(p: Parser, format: string, m: Bytes, offset: nat)
    requires p.delegate.hasOnError && (p.cpointerSize == Some(2) || p.cpointerSize == Some(4))
    requires ByteCodec.KnownFormat(format)
    requires offset + ByteCodec.FormatSize(ByteCodec.ByteConfig(p.cpointerSize.value, p.littleEndian), format).value > |m|
    ensures Decode(p, format, m, offset).events == [Error(ReceivedTooShort)]
    ensures Decode(p, format, m, offset).values.Success?
  {
    FormatSizeAgrees(ByteCodec.ByteConfig(p.cpointerSize.value, p.littleEndian), format);
  }

  lemma ShortByteIsUndefined(p: Parser)
    requires p.delegate.hasOnError
    ensures Decode(p, "B", [], 0) == Decoded([Error(ReceivedTooShort)], Success([None]))
  {
    assert "B" == ['B'];
    DecodeOneField(p, 'B', [], 0);
    assert FormatSize(p.cpointerSize, "B") == Success(Some(1)) by {
      assert "B"[1..] == "";
    }
  }

  // ---------------------------------------------------------------------
  // Configuration

  /** A fresh parser reports an invalid pointer width for EVERY
      configuration message, valid ones included, because it checks the
      width stored before the message (0); and a valid configuration
      following it silences the check for any later one. */
  lemma ConfigurationChecksOldWidth(d: Delegate, data: Bytes, later: Bytes)
    requires d.hasOnError
    ensures Error(PointerWidthInvalid) in OnConfiguration(New(d), data).events
    ensures |data| >= 3 && (data[2] == 2 || data[2] == 4) ==>
      Error(PointerWidthInvalid) !in OnConfiguration(OnConfiguration(New(d), data).state, later).events
  {
  }

  /** The configuration of the protocol tests, [CONFIGURATION, 128, 2, 1,
      1], on a fresh parser: the width report is made although the width
      is 2. */
  lemma ValidConfigurationReported(d: Delegate)
    requires d.hasOnError
    ensures OnConfiguration(New(d), [Configuration, 128, 2, 1, 1]).events == [Error(PointerWidthInvalid)]
    ensures ProtocolHandler.OnConfiguration(ProtocolHandler.New(ProtocolHandler.Delegate(true, false, false)),
                                            [Configuration, 128, 2, 1, 2]).events == []
  {
  }

  /** A configuration of the wrong length is reported, but its bytes are
      stored all the same: missing bytes store `undefined`. */
  lemma WrongLengthStillStored(p: Parser)
    requires p.delegate.hasOnError && p.cpointerSize == Some(2)
    ensures var r := OnConfiguration(p, [Configuration, 200, 4]);
      && r.events == [Error(ConfigurationWrongSize), Error(VersionMismatch)]
      && r.state.cpointerSize == Some(4) && r.state.version.None? && !r.state.littleEndian
  {
  }

  // ---------------------------------------------------------------------
  // Dispatch

  /** The first message of a fresh parser need not be CONFIGURATION: a
      script END packet is reported as out of order and then handled,
      while the later handler reports it and handles nothing. */
  lemma NonConfigurationFirstStillHandled(d: Delegate)
    requires d.hasOnError && d.hasOnScriptParsed
    ensures var r := ParseData(New(d), [SourceCodeEnd, 97]);
      && !r.Threw()
      && r.events == [Error(ConfigurationNotFirst), ScriptParsed(1, [], 1, 0, false)]
      && r.state.source == [97]
    ensures var h := ProtocolHandler.New(ProtocolHandler.Delegate(true, true, false));
      ProtocolHandler.OnMessage(h, [SourceCodeEnd, 97]) == ProtocolHandler.Done(h, [ProtocolHandler.Error(0, ConfigurationNotFirst)])
  {
    var p := New(d);
    var m: Bytes := [SourceCodeEnd, 97];
    assert TextCodec.Assemble(None, m) == Success([97]);
    TextCodec.AsciiIsCopied([97], 0, TextCodec.SourceLeadMin);
    var text: JsString := [97];
    assert TextCodec.Cesu8ToString(Some([97])) == text;
    TextSplit.SplitWithoutMatch(text, TextSplit.CrLfThenCrOrLf);
    assert EndLine(text) == 1;
  }

  /** A message type without a handler (a breakpoint hit, for one) is
      only logged: nothing is reported and nothing changes. */
  lemma UnhandledTypeOnlyLogged(p: Parser, message: Bytes)
    requires |message| > 0 && HandlerFor(message[0]).None?
    requires p.cpointerSize != Some(0)
    ensures ParseData(p, message) == Done(p, [])
  {
  }

  // ---------------------------------------------------------------------
  // Script text

  /** The source buffer is never cleared: the second of two scripts, each
      sent as one END packet, is reported with the first script's bytes in
      front of its own. */
  lemma SourceDataNeverCleared(p: Parser, first: Bytes, second: Bytes)
    requires p.sourceData.None?
    requires |first| >= 2 && first[0] == SourceCodeEnd
    requires |second| >= 2 && second[0] == SourceCodeEnd
    ensures var r1 := OnSourceCode(p, first);
      var r2 := OnSourceCode(r1.state, second);
      && !r1.Threw() && !r2.Threw()
      && r1.state.source == TextCodec.Cesu8ToString(Some(first[1..]))
      && r2.state.source == TextCodec.Cesu8ToString(Some(first[1..] + second[1..]))
  {
  }

  /** Two one-letter scripts 'a' and 'b': the second is reported as 'ab'. */
  lemma SecondScriptAsWritten(p: Parser)
    requires p.sourceData.None?
    ensures var r1 := OnSourceCode(p, [SourceCodeEnd, 97]);
      OnSourceCode(r1.state, [SourceCodeEnd, 98]).state.source == [97, 98]
  {
    SourceDataNeverCleared(p, [SourceCodeEnd, 97], [SourceCodeEnd, 98]);
    TextCodec.AsciiIsCopied([97, 98], 0, TextCodec.SourceLeadMin);
    assert [SourceCodeEnd as Byte, 97][1..] + [SourceCodeEnd as Byte, 98][1..] == [97, 98];
  }

  // ---------------------------------------------------------------------
  // Parser stack

  /** A parser and a later handler holding the same parse state. */
  predicate SameParse(p: Parser, h: ProtocolHandler.Handler) {
    && SameConfig(p, h.byteConfig)
    && p.stack == h.stack && p.source == h.source && p.sourceName == h.sourceName
    && p.functionName == h.functionName && p.functions == h.functions
  }

  /** The two handlers' entries for the same operation. */
  predicate SameHandler(k: Kind, hk: ProtocolHandler.HandlerKind) {
    match k
    case ConfigurationKind => hk == ProtocolHandler.ConfigurationHandler
    case ByteCodeCpKind => hk == ProtocolHandler.ByteCodeCpHandler
    case ParseFunctionKind => hk == ProtocolHandler.ParseFunctionHandler
    case BreakpointListKind => hk == ProtocolHandler.BreakpointListHandler
    case SourceCodeKind => hk == ProtocolHandler.SourceCodeHandler
    case SourceCodeNameKind => hk == ProtocolHandler.SourceCodeNameHandler
  }

  /** The earlier handler's table is the later one's without breakpoint hits
      and backtraces: every other type reaches the same operation. */
  lemma TablesAgree(code: Byte)
    ensures HandlerFor(code).Some? <==>
      ProtocolHandler.HandlerFor(code).Some? && code != BreakpointHit && code != Backtrace && code != BacktraceEnd
    ensures HandlerFor(code).Some? ==> SameHandler(HandlerFor(code).value, ProtocolHandler.HandlerFor(code).value)
  {
  }

  /** On a long enough message, PARSE_FUNCTION pushes the same frame in
      both machines. */
  lemma ParseFunctionAgrees(p: Parser, h: ProtocolHandler.Handler, data: Bytes)
    requires SameParse(p, h) && h.byteConfig.littleEndian && |data| >= 9
    ensures var r := OnParseFunction(p, data);
      var s := ProtocolHandler.OnParseFunction(h, data);
      && !s.Threw() && r.events == []
      && SameParse(r.state, s.state)
  {
    var config := h.byteConfig;
    assert ByteCodec.Decode(config, "II", data, 1).Success? by {
      assert "II" == ['I'] + "I" && "I" == ['I'];
      ByteCodec.FormatSizeAppend(config, "I", "I");
      ByteCodec.DecodeOneField(config, 'I', data, 1);
    }
    var s := ProtocolHandler.OnParseFunction(h, data);
    var top := s.state.stack[|h.stack|];
    ByteCodec.DecodeValues(config, "II", data, 1);
    assert ByteCodec.FieldPosition(config, "II", 1, 1) == 5 by {
      assert "II"[..1] == "I" && "I"[1..] == "";
    }
    assert ByteCodec.FieldPosition(config, "II", 1, 0) == 1 by {
      assert "II"[..0] == "";
    }
  }

  /** With little-endian values, a breakpoint list appends the same values
      in both machines, and both throw on the same messages. */
  lemma BreakpointListAgrees(p: Parser, h: ProtocolHandler.Handler, data: Bytes)
    requires SameParse(p, h) && h.byteConfig.littleEndian
    ensures var r := OnBreakpointList(p, data);
      var s := ProtocolHandler.OnBreakpointList(h, data);
      && r.fault == s.fault
      && SameParse(r.state, s.state)
  {
    if |data| % 4 == 1 && |data| >= 5 {
      ListValuesAgree(h.byteConfig, data, 1);
    }
  }

  lemma {:induction false} ListValuesAgree(config: ByteCodec.ByteConfig, data: Bytes, i: nat)
    requires config.littleEndian
    requires (|data| - i) % 4 == 0 || i >= |data|
    ensures ListValues(true, data, i) == ProtocolHandler.ListValues(config, data, i)
    decreases |data| - i
  {
    if i < |data| {
      ListValuesAgree(config, data, i + 4);
    }
  }

  /** BYTE_CODE_CP pops the same frame in both machines; below the
      outermost frame it registers the same function. */
  lemma ByteCodeCpAgrees(p: Parser, h: ProtocolHandler.Handler, data: Bytes)
    requires SameParse(p, h)
    requires h.byteConfig.cpointerSize == 2 || h.byteConfig.cpointerSize == 4
    requires |data| >= 1 + h.byteConfig.cpointerSize
    requires h.byteConfig.littleEndian || h.byteConfig.cpointerSize == 2
    ensures var r := OnByteCodeCP(p, data);
      var s := ProtocolHandler.OnByteCodeCP(h, data);
      && r.fault == s.fault && r.events == []
      && r.state.stack == s.state.stack
      && (|h.stack| >= 2 ==> r.state.functions == s.state.functions)
  {
    if |h.stack| > 0 {
      PoppedDecodesSame(p, h, data);
      if |h.stack| >= 2 {
        var values := ByteCodec.Decode(h.byteConfig, "C", data, 1).value;
        assert values == [values[0]];
        ParserStoresInner(p, data, values[0]);
        HandlerStoresInner(h, data, values[0]);
      }
    }
  }

  /** The pop that empties the stack registers the same function in both
      machines except for its lines: the earlier handler splits the script
      on CR LF, the later one on two line feeds. */
  lemma OuterByteCodeCpAgrees(p: Parser, h: ProtocolHandler.Handler, data: Bytes)
    requires SameParse(p, h) && |h.stack| == 1
    requires h.byteConfig.cpointerSize == 2 || h.byteConfig.cpointerSize == 4
    requires |data| >= 1 + h.byteConfig.cpointerSize
    requires h.byteConfig.littleEndian || h.byteConfig.cpointerSize == 2
    ensures ByteCodec.Decode(h.byteConfig, "C", data, 1).Success?
    ensures var r := OnByteCodeCP(p, data);
      var s := ProtocolHandler.OnByteCodeCP(h, data);
      var cp := ByteCodec.Decode(h.byteConfig, "C", data, 1).value[0];
      && !r.Threw() && !s.Threw()
      && s.state.functions[cp].source == Some(TextSplit.Split(h.source, TextSplit.DoubleLineFeed))
      && r.state.functions == s.state.functions[cp := s.state.functions[cp].(
           source := Some(TextSplit.Split(h.source, TextSplit.CrLfThenCrOrLf)))]
  {
    PoppedDecodesSame(p, h, data);
  }

  /** Below the outermost frame each machine stores the function the
      popped frame describes under the decoded pointer. */
  lemma ParserStoresInner(p: Parser, data: Bytes, cp: int)
    requires |p.stack| >= 2
    requires Decode(p.(stack := p.stack[..|p.stack| - 1]), "C", data, 1) == Decoded([], Success([Some(cp)]))
    ensures OnByteCodeCP(p, data).state.functions == p.functions[cp := NewParsedFunction(cp, p.stack[|p.stack| - 1])]
  {
  }

  lemma HandlerStoresInner(h: ProtocolHandler.Handler, data: Bytes, cp: int)
    requires |h.stack| >= 2
    requires ByteCodec.Decode(h.byteConfig, "C", data, 1) == Success([cp])
    ensures ProtocolHandler.OnByteCodeCP(h, data).state.functions == h.functions[cp := NewParsedFunction(cp, h.stack[|h.stack| - 1])]
  {
  }

  /** After the pop, both machines read the same compressed pointer. */
  lemma PoppedDecodesSame(p: Parser, h: ProtocolHandler.Handler, data: Bytes)
    requires SameParse(p, h) && |h.stack| > 0
    requires h.byteConfig.cpointerSize == 2 || h.byteConfig.cpointerSize == 4
    requires |data| >= 1 + h.byteConfig.cpointerSize
    requires h.byteConfig.littleEndian || h.byteConfig.cpointerSize == 2
    ensures var decoded := ByteCodec.Decode(h.byteConfig, "C", data, 1);
      && decoded.Success? && |decoded.value| == 1
      && Decode(p.(stack := p.stack[..|p.stack| - 1]), "C", data, 1) == Decoded([], Success([Some(decoded.value[0])]))
  {
    var config := h.byteConfig;
    assert "C" == ['C'];
    ByteCodec.DecodeOneField(config, 'C', data, 1);
    var popped := p.(stack := p.stack[..|p.stack| - 1]);
    assert NoWideField(config.cpointerSize, "C") || config.littleEndian;
    DecodeAgrees(popped, config, "C", data, 1);
    var values := ByteCodec.Decode(config, "C", data, 1).value;
    assert Lift(values) == [Some(values[0])];
  }
}

=== FILE: protocol.dfy ===
/** Vocabulary shared by the three versions of the debugger client's
    protocol machine: message type codes, the tags of the errors they report
    and the shape of one transition's outcome.

    The numeric codes come from a constants module that is not part of this
    model; the values below are stand-ins and only their distinctness
    matters. */
module Protocol {

  import opened Wrappers
  import opened JsValues

  // Messages from the debugged engine to the client.
  const Configuration: Byte := 1
  const ByteCodeCp: Byte := 3
  const ParseFunction: Byte := 4
  const BreakpointList: Byte := 5
  const BreakpointOffsetList: Byte := 6
  const SourceCode: Byte := 7
  const SourceCodeEnd: Byte := 8
  const SourceCodeName: Byte := 9
  const SourceCodeNameEnd: Byte := 10
  const FunctionName: Byte := 11
  const FunctionNameEnd: Byte := 12
  const BreakpointHit: Byte := 16
  const Backtrace: Byte := 21
  const BacktraceEnd: Byte := 22

  // Commands from the client to the engine.
  const Stop: Byte := 6
  const Continue: Byte := 12
  const Step: Byte := 13
  const Next: Byte := 14

  /** Whether a packet carries the END variant `endCode` of its opcode
      (`data[0] === endCode`; `undefined` for an empty packet). */
  predicate IsEnd(data: Bytes, endCode: Byte) {
    |data| > 0 && data[0] == endCode
  }

  /** What an `abort(...)` call reports; the message texts are not modelled. */
  datatype Report =
    | ConfigurationWrongSize
    | PointerWidthInvalid
    | VersionMismatch
    | MessageTooShort
    | ConfigurationNotFirst
    | UnhandledMessage
    | ReceivedTooShort

  /** The outcome of handling one message or command: the state afterwards,
      the events delivered to the delegate, the packets sent to the engine,
      and the exception thrown, if any. A throw does not undo assignments
      made before it, so `state` is the state at the moment of the throw. */
  datatype Outcome<S, E> = Outcome(state: S, events: seq<E>, sent: seq<Bytes>, fault: Option<Fault>)
  {
    predicate Threw() {
      fault.Some?
    }
  }

  /** `first` followed by `rest`, started from the state `first` ends in:
      the run of a message sequence in terms of its first step. */
  function Then<S, E>(first: Outcome<S, E>, rest: Outcome<S, E>): Outcome<S, E> {
    Outcome(rest.state, first.events + rest.events, first.sent + rest.sent, rest.fault)
  }
}

=== FILE: protocol_handler.dfy ===
/** jerry-debugger/src/lib/protocol-handler.ts: `JerryDebugProtocolHandler`,
    the client's protocol state machine. Each handler is a pure function from
    the handler state and one message to an `Outcome`. */
module ProtocolHandler {

  import opened Wrappers
  import opened JsValues
  import opened Protocol
  import opened Breakpoints
  import ByteCodec
  import TextCodec
  import TextSplit

  /** `JERRY_DEBUGGER_VERSION` this client accepts. It is defined in a
      constants module that is not part of this model; 2 is the value the
      handler's unit tests treat as accepted (protocol-handler.test.ts:45-67
      reject version 3 and accept version 2). */
  const Version: int := 2

  /** Which optional callbacks the delegate object defines. */
  datatype Delegate = Delegate(hasOnError: bool, hasOnScriptParsed: bool, hasOnBreakpointHit: bool)

  /** A call of one of the delegate's callbacks. */
  datatype Event =
    | Error(code: int, report: Report)
    | ScriptParsed(id: int, name: JsString, lineCount: nat)
    | HitBreakpoint(breakpoint: Breakpoint, exact: bool)

  /** The handler's fields. `hasClient` says whether `debuggerClient` has
      been attached. */
  datatype Handler = Handler(
    delegate: Delegate,
    hasClient: bool,
    maxMessageSize: int,
    byteConfig: ByteCodec.ByteConfig,
    version: int,
    stack: seq<Frame>,
    source: JsString,
    sourceData: Option<Bytes>,
    sourceName: Option<JsString>,
    sourceNameData: Option<Bytes>,
    functionName: Option<Bytes>,
    functions: map<int, ParsedFunction>,
    lastScriptID: int,
    lastBreakpointHit: Option<Breakpoint>,
    lastBreakpointExact: bool)

  type Transition = Outcome<Handler, Event>

  /** The constructor. */
  function New(delegate: Delegate): (r: Handler)
    ensures r.stack == [TopLevelFrame] && !r.stack[0].isFunc
    ensures r.byteConfig.cpointerSize == 0 && r.byteConfig.littleEndian
    ensures r.lastScriptID == 0 && r.lastBreakpointHit.None? && !r.hasClient
    ensures r.functions == map[] && r.delegate == delegate
  {
    Handler(delegate, false, 0, ByteCodec.ByteConfig(0, true), 0, [TopLevelFrame],
            [], None, None, None, None, map[], 0, None, true)
  }

  function Done(h: Handler, events: seq<Event>): Transition {
    Outcome(h, events, [], None)
  }

  function Throw(h: Handler, fault: Fault): Transition {
    Outcome(h, [], [], Some(fault))
  }

  /** `abort(message)`: `onError(0, message)` if the delegate defines it. */
  function Abort(h: Handler, report: Report): (r: seq<Event>)
    ensures h.delegate.hasOnError ==> r == [Error(0, report)]
    ensures !h.delegate.hasOnError ==> r == []
  {
    if h.delegate.hasOnError then [Error(0, report)] else []
  }

  /** `onConfiguration`: a message shorter than 5 bytes is reported and
      ignored; otherwise bytes 1 to 4 are stored first and then checked. */
  function OnConfiguration(h: Handler, data: Bytes): (r: Transition)
    ensures !r.Threw() && r.sent == []
    ensures |data| < 5 ==> r.state == h && r.events == Abort(h, ConfigurationWrongSize)
    ensures |data| >= 5 ==>
      && r.state == h.(maxMessageSize := data[1], byteConfig := ByteCodec.ByteConfig(data[2], data[3] != 0), version := data[4])
      && r.events ==
           (if data[2] != 2 && data[2] != 4 then Abort(h, PointerWidthInvalid) else [])
         + (if data[4] != Version then Abort(h, VersionMismatch) else [])
  {
    if |data| < 5 then Done(h, Abort(h, ConfigurationWrongSize))
    else
      var h1 := h.(maxMessageSize := data[1],
                   byteConfig := ByteCodec.ByteConfig(data[2], data[3] != 0),
                   version := data[4]);
      var widthReport := if h1.byteConfig.cpointerSize != 2 && h1.byteConfig.cpointerSize != 4
                         then Abort(h1, PointerWidthInvalid) else [];
      var versionReport := if h1.version != Version then Abort(h1, VersionMismatch) else [];
      Done(h1, widthReport + versionReport)
  }

  /** `onByteCodeCP`: pops the parser frame, then decodes the pointer (a
      decoding throw leaves the frame popped) and registers the function.
      When the pop empties the stack, the function also receives the
      script's lines and name. */
  function OnByteCodeCP(h: Handler, data: Bytes): (r: Transition)
    ensures |h.stack| == 0 <==> r.fault == Some(MissingStackFrame)
    ensures |h.stack| == 0 ==> r.state == h
    ensures |h.stack| > 0 ==> r.state.stack == h.stack[..|h.stack| - 1]
    ensures |h.stack| > 0 ==> (r.Threw() <==> ByteCodec.Decode(h.byteConfig, "C", data, 1).Failure?)
    ensures r.Threw() ==> r.state == h.(stack := r.state.stack)
    ensures !r.Threw() ==>
      var cp := ByteCodec.Decode(h.byteConfig, "C", data, 1).value[0];
      var func := NewParsedFunction(cp, h.stack[|h.stack| - 1]);
      && r.state == h.(stack := r.state.stack, functions := r.state.functions)
      && r.state.functions.Keys == h.functions.Keys + {cp}
      && (forall k :: k in h.functions && k != cp ==> r.state.functions[k] == h.functions[k])
      && (|r.state.stack| > 0 ==> r.state.functions[cp] == func)
      && (|r.state.stack| == 0 ==>
            r.state.functions[cp] == func.(source := Some(TextSplit.Split(h.source, TextSplit.DoubleLineFeed)),
                                           sourceName := h.sourceName))
    ensures r.events == [] && r.sent == []
  {
    if |h.stack| == 0 then Throw(h, MissingStackFrame)
    else
      var frame := h.stack[|h.stack| - 1];
      var popped := h.(stack := h.stack[..|h.stack| - 1]);
      match ByteCodec.Decode(h.byteConfig, "C", data, 1)
      case Failure(e) => Throw(popped, e)
      case Success(values) =>
        var cp := values[0];
        var func := NewParsedFunction(cp, frame);
        if |popped.stack| > 0 then Done(popped.(functions := h.functions[cp := func]), [])
        else
          var outer := func.(source := Some(TextSplit.Split(h.source, TextSplit.DoubleLineFeed)),
                             sourceName := h.sourceName);
          Done(popped.(functions := h.functions[cp := outer]), [])
  }

  /** `onParseFunction`: decodes the function's line and column and pushes
      a function frame with empty breakpoint lists. */
  function OnParseFunction(h: Handler, data: Bytes): (r: Transition)
    ensures r.events == [] && r.sent == []
    ensures r.Threw() <==> ByteCodec.Decode(h.byteConfig, "II", data, 1).Failure?
    ensures r.Threw() <==> |data| < 9
    ensures r.Threw() ==> r.state == h && r.fault == Some(TooShort)
    ensures !r.Threw() ==>
      && r.state == h.(stack := r.state.stack, functionName := None)
      && |r.state.stack| == |h.stack| + 1 && r.state.stack[..|h.stack|] == h.stack
      && var top := r.state.stack[|h.stack|];
         top == Frame(true, ByteCodec.Read4(h.byteConfig.littleEndian, data, 1),
                      ByteCodec.Read4(h.byteConfig.littleEndian, data, 5),
                      TextCodec.Cesu8ToString(h.functionName), h.source, h.sourceName, [], [])
  {
    assert "II" == ['I'] + "I" && "I" == ['I'];
    ByteCodec.FormatSizeAppend(h.byteConfig, "I", "I");
    match ByteCodec.Decode(h.byteConfig, "II", data, 1)
    case Failure(e) => Throw(h, e)
    case Success(position) =>
      assert position == [ByteCodec.Read4(h.byteConfig.littleEndian, data, 1), ByteCodec.Read4(h.byteConfig.littleEndian, data, 5)] by {
        ByteCodec.DecodeValues(h.byteConfig, "II", data, 1);
        assert "II"[..0] == "" && "II"[..1] == "I" && "I"[1..] == "";
      }
      var frame := Frame(true, position[0], position[1], TextCodec.Cesu8ToString(h.functionName),
                         h.source, h.sourceName, [], []);
      Done(h.(stack := h.stack + [frame], functionName := None), [])
  }

  /** The 4-byte values of a breakpoint list from byte `i` on. */
  function ListValues(config: ByteCodec.ByteConfig, data: Bytes, i: nat): (r: seq<int>)
    requires (|data| - i) % 4 == 0 || i >= |data|
    ensures i <= |data| ==> |r| == (|data| - i) / 4
    decreases |data| - i
  {
    if i >= |data| then []
    else [ByteCodec.FieldValue(config, 'I', data, i)] + ListValues(config, data, i + 4)
  }

  /** Element `k` of the list is what `decodeMessage('I', data, 1 + 4k)[0]`
      returns. */
  lemma {:induction false} ListValuesDecode(config: ByteCodec.ByteConfig, data: Bytes, i: nat, k: nat)
    requires i <= |data| && (|data| - i) % 4 == 0
    requires k < (|data| - i) / 4
    ensures ByteCodec.Decode(config, "I", data, i + 4 * k).Success?
    ensures ListValues(config, data, i)[k] == ByteCodec.Decode(config, "I", data, i + 4 * k).value[0]
    decreases k
  {
    if k == 0 {
      assert "I" == ['I'];
      ByteCodec.DecodeOneField(config, 'I', data, i);
    } else {
      ListValuesDecode(config, data, i + 4, k - 1);
      assert i + 4 + 4 * (k - 1) == i + 4 * k;
    }
  }

  /** `onBreakpointList`: the length must be 1 plus a positive multiple of
      4; the values go to the top frame's `lines` (BREAKPOINT_LIST) or
      `offsets` (BREAKPOINT_OFFSET_LIST). With no frame on the stack the
      property access throws a TypeError. */
  function OnBreakpointList(h: Handler, data: Bytes): (r: Transition)
    ensures r.events == [] && r.sent == []
    ensures r.fault == Some(BreakpointListLength) <==> |data| % 4 != 1 || |data| < 5
    ensures r.fault == Some(UndefinedAccess) <==> |data| % 4 == 1 && |data| >= 5 && |h.stack| == 0
    ensures r.Threw() ==> r.state == h
    ensures !r.Threw() ==>
      var n := |h.stack|;
      var top := h.stack[n - 1];
      var values := ListValues(h.byteConfig, data, 1);
      && |values| == (|data| - 1) / 4
      && r.state == h.(stack := r.state.stack)
      && |r.state.stack| == n && r.state.stack[..n - 1] == h.stack[..n - 1]
      && (data[0] == BreakpointList ==> r.state.stack[n - 1] == top.(lines := top.lines + values))
      && (data[0] != BreakpointList ==> r.state.stack[n - 1] == top.(offsets := top.offsets + values))
  {
    if |data| % 4 != 1 || |data| < 5 then Throw(h, BreakpointListLength)
    else if |h.stack| == 0 then Throw(h, UndefinedAccess)
    else
      var values := ListValues(h.byteConfig, data, 1);
      var top := h.stack[|h.stack| - 1];
      var top' := if data[0] == BreakpointList then top.(lines := top.lines + values)
                  else top.(offsets := top.offsets + values);
      Done(h.(stack := h.stack[..|h.stack| - 1] + [top']), [])
  }

  /** The line count reported for a script: pieces of a split on two
      consecutive line feeds. */
  function LineCount(text: JsString): nat {
    |TextSplit.Split(text, TextSplit.DoubleLineFeed)|
  }

  /** `onSourceCode`: appends the fragment; the END fragment decodes the
      whole text, clears the buffer and, if the delegate listens, reports
      the script under the next id. */
  function OnSourceCode(h: Handler, data: Bytes): (r: Transition)
    ensures r.sent == []
    ensures r.Threw() <==> TextCodec.Assemble(h.sourceData, data).Failure?
    ensures r.Threw() ==> r.state == h
    ensures !r.Threw() && !IsEnd(data, SourceCodeEnd) ==>
      r.state == h.(sourceData := Some(TextCodec.Assemble(h.sourceData, data).value)) && r.events == []
    ensures !r.Threw() && IsEnd(data, SourceCodeEnd) ==>
      var text := TextCodec.Cesu8ToString(Some(TextCodec.Assemble(h.sourceData, data).value));
      && r.state.source == text && r.state.sourceData.None?
      && (h.delegate.hasOnScriptParsed ==>
            && r.state == h.(source := text, sourceData := None, lastScriptID := h.lastScriptID + 1)
            && r.events == [ScriptParsed(h.lastScriptID + 1, h.sourceName.GetOr([]), LineCount(text))])
      && (!h.delegate.hasOnScriptParsed ==>
            r.state == h.(source := text, sourceData := None) && r.events == [])
  {
    match TextCodec.Assemble(h.sourceData, data)
    case Failure(e) => Throw(h, e)
    case Success(assembled) =>
      var h1 := h.(sourceData := Some(assembled));
      if IsEnd(data, SourceCodeEnd) then
        var text := TextCodec.Cesu8ToString(h1.sourceData);
        var h2 := h1.(source := text, sourceData := None);
        if h.delegate.hasOnScriptParsed then
          var id := h2.lastScriptID + 1;
          Done(h2.(lastScriptID := id), [ScriptParsed(id, h2.sourceName.GetOr([]), LineCount(text))])
        else Done(h2, [])
      else Done(h1, [])
  }

  /** `onSourceCodeName`: appends the fragment; the END fragment sets the
      name and clears the buffer. */
  function OnSourceCodeName(h: Handler, data: Bytes): (r: Transition)
    ensures r.events == [] && r.sent == []
    ensures r.Threw() <==> TextCodec.Assemble(h.sourceNameData, data).Failure?
    ensures r.Threw() ==> r.state == h
    ensures !r.Threw() && !IsEnd(data, SourceCodeNameEnd) ==>
      r.state == h.(sourceNameData := Some(TextCodec.Assemble(h.sourceNameData, data).value))
    ensures !r.Threw() && IsEnd(data, SourceCodeNameEnd) ==>
      r.state == h.(sourceName := Some(TextCodec.Cesu8ToString(Some(TextCodec.Assemble(h.sourceNameData, data).value))),
                    sourceNameData := None)
  {
    match TextCodec.Assemble(h.sourceNameData, data)
    case Failure(e) => Throw(h, e)
    case Success(assembled) =>
      var h1 := h.(sourceNameData := Some(assembled));
      if IsEnd(data, SourceCodeNameEnd) then
        Done(h1.(sourceName := Some(TextCodec.Cesu8ToString(h1.sourceNameData)), sourceNameData := None), [])
      else Done(h1, [])
  }

  /** `getBreakpoint`'s result: the breakpoint may be `undefined`. */
  datatype BreakpointRef = BreakpointRef(breakpoint: Option<Breakpoint>, exact: bool)

  /** `m[k]` of a JavaScript object: `undefined` for a missing key. */
  function Lookup(m: map<Option<int>, Breakpoint>, k: Option<int>): (r: Option<Breakpoint>)
    ensures r.Some? <==> k in m
    ensures r.Some? ==> r.value == m[k]
  {
    if k in m then Some(m[k]) else None
  }

  /** The `for...in` scan for the nearest offset: the greatest key in
      [0, offset], or -1 when there is none. Keys below 0 (and the key
      `undefined`, whose `Number` is NaN) never beat the initial -1. */
  function NearestBelow(offsets: map<Option<int>, Breakpoint>, offset: int): (r: int)
    ensures r == -1 || (0 <= r <= offset && Some(r) in offsets)
    ensures forall k :: r < k <= offset && k >= 0 ==> Some(k) !in offsets
    decreases offset + 1
  {
    if offset < 0 then -1
    else if Some(offset) in offsets then offset
    else NearestBelow(offsets, offset - 1)
  }

  /** `getBreakpoint([cp, offset])`. An unknown `cp` makes the property
      access on `undefined` throw. */
  function GetBreakpoint(h: Handler, cp: int, offset: int): (r: Outcome<BreakpointRef, Event>)
    ensures r.events == [] && r.sent == []
    ensures r.Threw() <==> cp !in h.functions
    ensures r.Threw() ==> r.fault == Some(UndefinedAccess)
  {
    if cp !in h.functions then Outcome(BreakpointRef(None, false), [], [], Some(UndefinedAccess))
    else
      var func := h.functions[cp];
      var ref :=
        if Some(offset) in func.offsets then BreakpointRef(Some(func.offsets[Some(offset)]), true)
        else if func.firstBreakpointOffset.Some? && offset < func.firstBreakpointOffset.value then
          BreakpointRef(Lookup(func.offsets, func.firstBreakpointOffset), true)
        else BreakpointRef(Lookup(func.offsets, Some(NearestBelow(func.offsets, offset))), false);
      Outcome(ref, [], [], None)
  }

  /** `onBreakpointHit`: decodes the pointer and offset, resolves the
      breakpoint and records it in `lastBreakpointHit`, even when it is
      `undefined` (the following property access then throws). */
  function OnBreakpointHit(h: Handler, data: Bytes): (r: Transition)
    ensures r.sent == []
    ensures ByteCodec.Decode(h.byteConfig, "CI", data, 1).Failure? ==> r.Threw() && r.state == h
    ensures ByteCodec.Decode(h.byteConfig, "CI", data, 1).Success? ==>
      var values := ByteCodec.Decode(h.byteConfig, "CI", data, 1).value;
      var ref := GetBreakpoint(h, values[0], values[1]);
      && (ref.Threw() ==> r == Throw(h, UndefinedAccess))
      && (!ref.Threw() ==>
            && r.state == h.(lastBreakpointHit := ref.state.breakpoint, lastBreakpointExact := ref.state.exact)
            && (ref.state.breakpoint.None? ==> r.fault == Some(UndefinedAccess))
            && (ref.state.breakpoint.Some? ==>
                  && !r.Threw()
                  && r.events == (if h.delegate.hasOnBreakpointHit
                                  then [HitBreakpoint(ref.state.breakpoint.value, ref.state.exact)] else [])))
  {
    match ByteCodec.Decode(h.byteConfig, "CI", data, 1)
    case Failure(e) => Throw(h, e)
    case Success(values) =>
      var ref := GetBreakpoint(h, values[0], values[1]);
      if ref.Threw() then Throw(h, UndefinedAccess)
      else
        var h1 := h.(lastBreakpointHit := ref.state.breakpoint, lastBreakpointExact := ref.state.exact);
        match ref.state.breakpoint
        case None => Throw(h1, UndefinedAccess)
        case Some(bp) => Done(h1, if h.delegate.hasOnBreakpointHit then [HitBreakpoint(bp, ref.state.exact)] else [])
  }

  /** The entries of the constructor's `functionMap`. */
  datatype HandlerKind =
    | ConfigurationHandler
    | ByteCodeCpHandler
    | ParseFunctionHandler
    | BreakpointListHandler
    | SourceCodeHandler
    | SourceCodeNameHandler
    | BreakpointHitHandler
    | BacktraceHandler

  /** `functionMap[type]`: twelve message types have a handler, and the
      list, source and backtrace handlers each serve a pair of types. */
  function HandlerFor(code: Byte): (r: Option<HandlerKind>)
    ensures r.Some? <==> code in {Configuration, ByteCodeCp, ParseFunction, BreakpointList, BreakpointOffsetList,
                                  SourceCode, SourceCodeEnd, SourceCodeName, SourceCodeNameEnd,
                                  BreakpointHit, Backtrace, BacktraceEnd}
    ensures r == Some(BreakpointListHandler) <==> code == BreakpointList || code == BreakpointOffsetList
    ensures r == Some(SourceCodeHandler) <==> code == SourceCode || code == SourceCodeEnd
    ensures r == Some(SourceCodeNameHandler) <==> code == SourceCodeName || code == SourceCodeNameEnd
    ensures r == Some(BacktraceHandler) <==> code == Backtrace || code == BacktraceEnd
  {
    if code == Configuration then Some(ConfigurationHandler)
    else if code == ByteCodeCp then Some(ByteCodeCpHandler)
    else if code == ParseFunction then Some(ParseFunctionHandler)
    else if code == BreakpointList || code == BreakpointOffsetList then Some(BreakpointListHandler)
    else if code == SourceCode || code == SourceCodeEnd then Some(SourceCodeHandler)
    else if code == SourceCodeName || code == SourceCodeNameEnd then Some(SourceCodeNameHandler)
    else if code == BreakpointHit then Some(BreakpointHitHandler)
    else if code == Backtrace || code == BacktraceEnd then Some(BacktraceHandler)
    else None
  }

  function Dispatch(kind: HandlerKind, h: Handler, message: Bytes): Transition {
    match kind
    case ConfigurationHandler => OnConfiguration(h, message)
    case ByteCodeCpHandler => OnByteCodeCP(h, message)
    case ParseFunctionHandler => OnParseFunction(h, message)
    case BreakpointListHandler => OnBreakpointList(h, message)
    case SourceCodeHandler => OnSourceCode(h, message)
    case SourceCodeNameHandler => OnSourceCodeName(h, message)
    case BreakpointHitHandler => OnBreakpointHit(h, message)
    case BacktraceHandler => Done(h, [])  // `onBacktrace` only logs
  }

  /** `onMessage`: an empty message, a first message other than
      CONFIGURATION, and an unmapped type are each reported once and
      dispatch nothing. */
  function OnMessage(h: Handler, message: Bytes): (r: Transition)
    ensures |message| == 0 ==> r == Done(h, Abort(h, MessageTooShort))
    ensures |message| > 0 && h.byteConfig.cpointerSize == 0 && message[0] != Configuration ==>
      r == Done(h, Abort(h, ConfigurationNotFirst))
    ensures |message| > 0 && (h.byteConfig.cpointerSize != 0 || message[0] == Configuration) ==>
      match HandlerFor(message[0])
      case None => r == Done(h, Abort(h, UnhandledMessage))
      case Some(kind) => r == Dispatch(kind, h, message)
  {
    if |message| < 1 then Done(h, Abort(h, MessageTooShort))
    else if h.byteConfig.cpointerSize == 0 && message[0] != Configuration then
      Done(h, Abort(h, ConfigurationNotFirst))
    else
      match HandlerFor(message[0])
      case None => Done(h, Abort(h, UnhandledMessage))
      case Some(kind) => Dispatch(kind, h, message)
  }

  /** Messages handled one after another; a throw ends the run. */
  function Run(h: Handler, messages: seq<Bytes>): (r: Transition)
    decreases |messages|
  {
    if |messages| == 0 then Done(h, [])
    else
      var first := OnMessage(h, messages[0]);
      if first.Threw() then first
      else Then(first, Run(first.state, messages[1..]))
  }

  /** `resumeExec(code)`: needs an attached client and a current
      breakpoint; sends the single byte `code`. */
  function ResumeExec(h: Handler, code: Byte): (r: Transition)
    ensures r.state == h && r.events == []
    ensures !h.hasClient ==> r.fault == Some(NoDebugger) && r.sent == []
    ensures h.hasClient && h.lastBreakpointHit.None? ==> r.fault == Some(ResumeNotAtBreakpoint) && r.sent == []
    ensures h.hasClient && h.lastBreakpointHit.Some? ==> !r.Threw() && r.sent == [[code]]
  {
    if !h.hasClient then Throw(h, NoDebugger)
    else if h.lastBreakpointHit.None? then Throw(h, ResumeNotAtBreakpoint)
    else Outcome(h, [], [ByteCodec.EncodeByte(code)], None)
  }

  /** `stepOver`: resumes with NEXT. */
  function StepOver(h: Handler): (r: Transition)
    ensures r.state == h && r.events == []
    ensures r.Threw() <==> !h.hasClient || h.lastBreakpointHit.None?
    ensures !r.Threw() ==> r.sent == [[Next]]
  {
    ResumeExec(h, Next)
  }

  /** `stepInto`: resumes with STEP. */
  function StepInto(h: Handler): (r: Transition)
    ensures r.state == h && r.events == []
    ensures r.Threw() <==> !h.hasClient || h.lastBreakpointHit.None?
    ensures !r.Threw() ==> r.sent == [[Step]]
  {
    ResumeExec(h, Step)
  }

  /** `resume`: resumes with CONTINUE. */
  function Resume(h: Handler): (r: Transition)
    ensures r.state == h && r.events == []
    ensures r.Threw() <==> !h.hasClient || h.lastBreakpointHit.None?
    ensures !r.Threw() ==> r.sent == [[Continue]]
  {
    ResumeExec(h, Continue)
  }

  /** `stepOut`: only logs that the engine does not support it. */
  function StepOut(h: Handler): (r: Transition)
    ensures r == Done(h, [])
  {
    Done(h, [])
  }

  /** `pause`: needs an attached client and NO current breakpoint. */
  function Pause(h: Handler): (r: Transition)
    ensures r.state == h && r.events == []
    ensures !h.hasClient ==> r.fault == Some(NoDebugger) && r.sent == []
    ensures h.hasClient && h.lastBreakpointHit.Some? ==> r.fault == Some(PauseAtBreakpoint) && r.sent == []
    ensures h.hasClient && h.lastBreakpointHit.None? ==> !r.Threw() && r.sent == [[Stop]]
  {
    if !h.hasClient then Throw(h, NoDebugger)
    else if h.lastBreakpointHit.Some? then Throw(h, PauseAtBreakpoint)
    else Outcome(h, [], [ByteCodec.EncodeByte(Stop)], None)
  }
}

=== FILE: protocol_parser.dfy ===
/** jerry-debugger/src/lib/protocol-parser.ts: the earlier
    `JerryDebugProtocolHandler`. It keeps its own copy of `getFormatSize`
    and `decodeMessage`, stores configuration bytes that may be `undefined`
    (None), reports a too-short message instead of throwing, never clears
    its source buffers, and knows fewer message types than the later
    handler. */
module ProtocolParser {

  import opened Wrappers
  import opened JsValues
  import opened Protocol
  import opened Breakpoints
  import ByteCodec
  import TextCodec
  import TextSplit

  /** The protocol version this client expects (`JERRY_DEBUGGER_VERSION`,
      declared in protocol-parser.ts itself). */
  const Version: int := 1

  /** Which optional callbacks the delegate defines. */
  datatype Delegate = Delegate(hasOnError: bool, hasOnScriptParsed: bool)

  /** A call of one of the delegate's callbacks. */
  datatype Event =
    | Error(report: Report)
    | ScriptParsed(scriptId: int, name: JsString, endLine: nat, endColumn: int, hasSourceURL: bool)

  /** The handler's fields. The configuration fields hold whatever byte
      the configuration message had at their index: None is `undefined`. */
  datatype Parser = Parser(
    delegate: Delegate,
    maxMessageSize: Option<int>,
    cpointerSize: Option<int>,
    littleEndian: bool,
    version: Option<int>,
    stack: seq<Frame>,
    source: JsString,
    sourceData: Option<Bytes>,
    sourceName: Option<JsString>,
    sourceNameData: Option<Bytes>,
    functionName: Option<Bytes>,
    functions: map<int, ParsedFunction>,
    lastScriptID: int)

  type Transition = Outcome<Parser, Event>

  /** The constructor. */
  function New(delegate: Delegate): (r: Parser)
    ensures r.stack == [TopLevelFrame] && r.cpointerSize == Some(0) && r.littleEndian
    ensures r.sourceData.None? && r.functions == map[] && r.lastScriptID == 0
  {
    Parser(delegate, Some(0), Some(0), true, Some(0), [TopLevelFrame], [], None, None, None, None, map[], 0)
  }

  function Done(p: Parser, events: seq<Event>): Transition {
    Outcome(p, events, [], None)
  }

  function Throw(p: Parser, fault: Fault): Transition {
    Outcome(p, [], [], Some(fault))
  }

  /** `abort(message)`: `onError(message)` if the delegate defines it. */
  function Abort(p: Parser, report: Report): (r: seq<Event>)
    ensures p.delegate.hasOnError ==> r == [Error(report)]
    ensures !p.delegate.hasOnError ==> r == []
  {
    if p.delegate.hasOnError then [Error(report)] else []
  }

  // ---------------------------------------------------------------------
  // The parser's own codec

  /** JavaScript `+` on sizes where `undefined` (None) makes the sum NaN. */
  function AddSize(a: Option<int>, b: Option<int>): (r: Option<int>)
    ensures r.Some? <==> a.Some? && b.Some?
    ensures r.Some? ==> r.value == a.value + b.value
  {
    if a.Some? && b.Some? then Some(a.value + b.value) else None
  }

  /** `getFormatSize` with the parser's own `cpointerSize`: a `C` adds the
      stored width, which is NaN (None) when the configuration had no
      byte 2; an unknown character throws. */
  function FormatSize(cpointerSize: Option<int>, format: string): (r: Result<Option<int>>)
    ensures r.Success? <==> ByteCodec.KnownFormat(format)
    ensures r.Failure? ==> r.error == FormatUnsupported
    ensures r.Success? ==> (r.value.None? <==> cpointerSize.None? && 'C' in format)
  {
    if |format| == 0 then Success(Some(0))
    else
      assert format == [format[0]] + format[1..];
      var c := format[0];
      if c != 'B' && c != 'C' && c != 'I' then Failure(FormatUnsupported)
      else
        var width := if c == 'B' then Some(1) else if c == 'I' then Some(4) else cpointerSize;
        var rest :- FormatSize(cpointerSize, format[1..]);
        Success(AddSize(width, rest))
  }

  /** `a | b` on two bytes. */
  function Or8(a: Byte, b: Byte): Byte {
    ((a as bv8) | (b as bv8)) as int
  }

  /** The parser's 4-byte field. Little-endian matches the later codec;
      big-endian shifts the fourth byte by 24 instead of 0, so it is OR-ed
      into the top byte and the low byte is always 0. */
  function Read4(littleEndian: bool, m: Bytes, i: int): (r: int)
    ensures littleEndian ==> r == ByteCodec.Read4(true, m, i)
    ensures !littleEndian ==>
      r == ToInt32(Or8(At(m, i), At(m, i + 3)) * 0x100_0000 + At(m, i + 1) * 0x1_0000 + At(m, i + 2) * 0x100)
  {
    if littleEndian then ByteCodec.Read4(true, m, i)
    else ToInt32(Or8(At(m, i), At(m, i + 3)) * 0x100_0000 + At(m, i + 1) * 0x1_0000 + At(m, i + 2) * 0x100)
  }

  /** The value of a field of kind `c` whose first byte is at `pos`; a `B`
      past the end is `undefined` (None), while the shifts and ORs of the
      wider fields turn missing bytes into 0. */
  function FieldValue(p: Parser, c: char, message: Bytes, pos: int): Option<int> {
    if c == 'B' then Element(message, pos)
    else if c == 'C' && p.cpointerSize == Some(2) then Some(ByteCodec.Read2(p.littleEndian, message, pos))
    else Some(Read4(p.littleEndian, message, pos))
  }

  /** The decoding loop from byte `offset`: `B` pushes `message[offset]`;
      `C` with a stored width of 2 reads two bytes; anything else must be
      `I` or `C` with width 4, or the `assert` throws. */
  function DecodeFields(p: Parser, format: string, message: Bytes, offset: nat): (r: Result<seq<Option<int>>>)
    ensures r.Success? <==> forall k :: 0 <= k < |format| ==>
      format[k] == 'B' || format[k] == 'I' || (format[k] == 'C' && (p.cpointerSize == Some(2) || p.cpointerSize == Some(4)))
    ensures r.Failure? ==> r.error == AssertionFailed
    ensures r.Success? ==> |r.value| == |format|
    ensures r.Success? ==> forall k :: 0 <= k < |format| && format[k] != 'B' ==> r.value[k].Some?
  {
    if |format| == 0 then Success([])
    else
      var c := format[0];
      var width := if c == 'B' then 1 else if c == 'C' && p.cpointerSize == Some(2) then 2 else 4;
      if c != 'B' && !(c == 'C' && p.cpointerSize == Some(2)) && !(c == 'I' || (c == 'C' && p.cpointerSize == Some(4))) then
        Failure(AssertionFailed)
      else
        match DecodeFields(p, format[1..], message, offset + width)
        case Failure(e) => Failure(e)
        case Success(rest) =>
          assert forall k :: 1 <= k < |format| ==> format[k] == format[1..][k - 1];
          Success([FieldValue(p, c, message, offset)] + rest)
  }

  lemma DecodeOneField(p: Parser, c: char, message: Bytes, offset: nat)
    requires c == 'B' || c == 'I' || (c == 'C' && (p.cpointerSize == Some(2) || p.cpointerSize == Some(4)))
    ensures DecodeFields(p, [c], message, offset) == Success([FieldValue(p, c, message, offset)])
  {
    var width := if c == 'B' then 1 else if c == 'C' && p.cpointerSize == Some(2) then 2 else 4;
    assert [c][0] == c && [c][1..] == [];
    assert DecodeFields(p, [], message, offset + width) == Success([]);
    assert DecodeFields(p, [c], message, offset) == Success([FieldValue(p, c, message, offset)] + []);
    assert [FieldValue(p, c, message, offset)] + [] == [FieldValue(p, c, message, offset)];
  }

  /** What one `decodeMessage` call does: the reports it makes through the
      delegate and the values it returns (or the exception it throws). */
  datatype Decoded = Decoded(events: seq<Event>, values: Result<seq<Option<int>>>)

  /** `decodeMessage`: a too-short message is reported, not refused, and
      the loop goes on reading `undefined` bytes. A NaN size (no stored
      width) never compares greater, so it is not reported. */
  function Decode(p: Parser, format: string, message: Bytes, offset: nat): (r: Decoded)
    ensures !ByteCodec.KnownFormat(format) ==> r == Decoded([], Failure(FormatUnsupported))
    ensures ByteCodec.KnownFormat(format) ==>
      var size := FormatSize(p.cpointerSize, format).value;
      && r.values == DecodeFields(p, format, message, offset)
      && r.events == (if size.Some? && offset + size.value > |message| then Abort(p, ReceivedTooShort) else [])
  {
    match FormatSize(p.cpointerSize, format)
    case Failure(e) => Decoded([], Failure(e))
    case Success(size) =>
      var events := if size.Some? && offset + size.value > |message| then Abort(p, ReceivedTooShort) else [];
      Decoded(events, DecodeFields(p, format, message, offset))
  }

  // ---------------------------------------------------------------------
  // Message handlers

  /** `onConfiguration`: a length other than 5 is reported but the fields
      are stored anyway; the pointer width checked is the one stored
      BEFORE this message; the version is checked after storing. */
  function OnConfiguration(p: Parser, data: Bytes): (r: Transition)
    ensures !r.Threw() && r.sent == []
    ensures r.state == p.(maxMessageSize := Element(data, 1), cpointerSize := Element(data, 2),
                          littleEndian := Element(data, 3).Some? && Element(data, 3).value != 0,
                          version := Element(data, 4))
    ensures r.events ==
        (if |data| != 5 then Abort(p, ConfigurationWrongSize) else [])
      + (if p.cpointerSize != Some(2) && p.cpointerSize != Some(4) then Abort(p, PointerWidthInvalid) else [])
      + (if Element(data, 4) != Some(Version) then Abort(p, VersionMismatch) else [])
  {
    var sizeReport := if |data| != 5 then Abort(p, ConfigurationWrongSize) else [];
    var widthReport := if p.cpointerSize != Some(2) && p.cpointerSize != Some(4) then Abort(p, PointerWidthInvalid) else [];
    var p1 := p.(maxMessageSize := Element(data, 1),
                 cpointerSize := Element(data, 2),
                 littleEndian := Element(data, 3).Some? && Element(data, 3).value != 0,
                 version := Element(data, 4));
    var versionReport := if p1.version != Some(Version) then Abort(p1, VersionMismatch) else [];
    Done(p1, sizeReport + widthReport + versionReport)
  }

  /** The number of lines reported for a script: pieces of a split on
      CR LF followed by CR or LF. */
  function EndLine(text: JsString): nat {
    |TextSplit.Split(text, TextSplit.CrLfThenCrOrLf)|
  }

  /** `onByteCodeCP`: pops, decodes the pointer (reports go out, an
      assertion failure leaves the frame popped) and registers the
      function; when the stack is left empty the function also receives
      the script's lines and name. */
  function OnByteCodeCP(p: Parser, data: Bytes): (r: Transition)
    ensures |p.stack| == 0 <==> r.fault == Some(MissingStackFrame)
    ensures |p.stack| == 0 ==> r.state == p && r.events == []
    ensures |p.stack| > 0 ==>
      && r.state.stack == p.stack[..|p.stack| - 1]
      && r.events == Decode(p, "C", data, 1).events
      && (r.Threw() <==> p.cpointerSize != Some(2) && p.cpointerSize != Some(4))
    ensures r.Threw() ==> r.state == p.(stack := r.state.stack)
    ensures !r.Threw() ==>
      var popped := p.(stack := p.stack[..|p.stack| - 1]);
      var cp := Decode(popped, "C", data, 1).values.value[0].value;
      var func := NewParsedFunction(cp, p.stack[|p.stack| - 1]);
      && r.state == p.(stack := r.state.stack, functions := r.state.functions)
      && r.state.functions.Keys == p.functions.Keys + {cp}
      && (forall k :: k in p.functions && k != cp ==> r.state.functions[k] == p.functions[k])
      && (|r.state.stack| > 0 ==> r.state.functions[cp] == func)
      && (|r.state.stack| == 0 ==>
            r.state.functions[cp] == func.(source := Some(TextSplit.Split(p.source, TextSplit.CrLfThenCrOrLf)),
                                           sourceName := p.sourceName))
    ensures r.sent == []
  {
    if |p.stack| == 0 then Throw(p, MissingStackFrame)
    else
      var frame := p.stack[|p.stack| - 1];
      var popped := p.(stack := p.stack[..|p.stack| - 1]);
      assert "C"[0] == 'C';
      var decoded := Decode(popped, "C", data, 1);
      match decoded.values
      case Failure(e) => Outcome(popped, decoded.events, [], Some(e))
      case Success(values) =>
        var cp := values[0].value;
        var func := NewParsedFunction(cp, frame);
        if |popped.stack| > 0 then Done(popped.(functions := p.functions[cp := func]), decoded.events)
        else
          var outer := func.(source := Some(TextSplit.Split(p.source, TextSplit.CrLfThenCrOrLf)),
                             sourceName := p.sourceName);
          Done(popped.(functions := p.functions[cp := outer]), decoded.events)
  }

  /** `onParseFunction`: decodes line and column (a short message is
      reported and read as zeros) and pushes a function frame. */
  function OnParseFunction(p: Parser, data: Bytes): (r: Transition)
    ensures !r.Threw() && r.sent == []
    ensures r.events == (if |data| < 9 then Abort(p, ReceivedTooShort) else [])
    ensures r.state == p.(stack := r.state.stack, functionName := None)
    ensures |r.state.stack| == |p.stack| + 1 && r.state.stack[..|p.stack|] == p.stack
    ensures var top := r.state.stack[|p.stack|];
      && top.isFunc && top.lines == [] && top.offsets == []
      && top.line == Read4(p.littleEndian, data, 1) && top.column == Read4(p.littleEndian, data, 5)
      && top.name == TextCodec.Cesu8ToString(p.functionName)
  {
    var decoded := Decode(p, "II", data, 1);
    assert FormatSize(p.cpointerSize, "II") == Success(Some(8)) by {
      assert "II"[1..] == "I" && "I"[1..] == "";
      assert FormatSize(p.cpointerSize, "") == Success(Some(0));
      assert FormatSize(p.cpointerSize, "I") == Success(Some(4));
    }
    assert decoded.values == Success([Some(Read4(p.littleEndian, data, 1)), Some(Read4(p.littleEndian, data, 5))]) by {
      assert "II"[0] == 'I' && "II"[1..] == "I" && "I" == ['I'];
      DecodeOneField(p, 'I', data, 5);
      assert DecodeFields(p, "II", data, 1) == Success([FieldValue(p, 'I', data, 1)] + DecodeFields(p, "I", data, 5).value);
      assert [FieldValue(p, 'I', data, 1)] + [FieldValue(p, 'I', data, 5)]
          == [Some(Read4(p.littleEndian, data, 1)), Some(Read4(p.littleEndian, data, 5))];
    }
    match decoded.values
    case Failure(e) => Outcome(p, decoded.events, [], Some(e))
    case Success(position) =>
      var frame := Frame(true, position[0].value, position[1].value, TextCodec.Cesu8ToString(p.functionName),
                         p.source, p.sourceName, [], []);
      Done(p.(stack := p.stack + [frame], functionName := None), decoded.events)
  }

  /** The values of a breakpoint list from byte `i` on, each read by a
      `decodeMessage('I', data, i)` call that stays inside the message. */
  function ListValues(littleEndian: bool, data: Bytes, i: nat): (r: seq<int>)
    requires (|data| - i) % 4 == 0 || i >= |data|
    ensures i <= |data| ==> |r| == (|data| - i) / 4
    decreases |data| - i
  {
    if i >= |data| then []
    else [Read4(littleEndian, data, i)] + ListValues(littleEndian, data, i + 4)
  }

  /** `onBreakpointList`: the same length check and append as the later
      handler, with the parser's own 4-byte read. */
  function OnBreakpointList(p: Parser, data: Bytes): (r: Transition)
    ensures r.events == [] && r.sent == []
    ensures r.fault == Some(BreakpointListLength) <==> |data| % 4 != 1 || |data| < 5
    ensures r.fault == Some(UndefinedAccess) <==> |data| % 4 == 1 && |data| >= 5 && |p.stack| == 0
    ensures r.Threw() ==> r.state == p
    ensures !r.Threw() ==>
      var n := |p.stack|;
      var top := p.stack[n - 1];
      var values := ListValues(p.littleEndian, data, 1);
      && |values| == (|data| - 1) / 4
      && r.state == p.(stack := r.state.stack)
      && |r.state.stack| == n && r.state.stack[..n - 1] == p.stack[..n - 1]
      && (data[0] == BreakpointList ==> r.state.stack[n - 1] == top.(lines := top.lines + values))
      && (data[0] != BreakpointList ==> r.state.stack[n - 1] == top.(offsets := top.offsets + values))
  {
    if |data| % 4 != 1 || |data| < 5 then Throw(p, BreakpointListLength)
    else if |p.stack| == 0 then Throw(p, UndefinedAccess)
    else
      var values := ListValues(p.littleEndian, data, 1);
      var top := p.stack[|p.stack| - 1];
      var top' := if data[0] == BreakpointList then top.(lines := top.lines + values)
                  else top.(offsets := top.offsets + values);
      Done(p.(stack := p.stack[..|p.stack| - 1] + [top']), [])
  }

  /** `onSourceCode`: appends the fragment; the END fragment decodes the
      WHOLE buffer, which is never cleared, and reports it if the delegate
      listens. */
  function OnSourceCode(p: Parser, data: Bytes): (r: Transition)
    ensures r.sent == []
    ensures r.Threw() <==> TextCodec.Assemble(p.sourceData, data).Failure?
    ensures r.Threw() ==> r.state == p
    ensures !r.Threw() ==> r.state.sourceData == Some(TextCodec.Assemble(p.sourceData, data).value)
    ensures !r.Threw() && !IsEnd(data, SourceCodeEnd) ==>
      r.state == p.(sourceData := r.state.sourceData) && r.events == []
    ensures !r.Threw() && IsEnd(data, SourceCodeEnd) ==>
      var text := TextCodec.Cesu8ToString(r.state.sourceData);
      && r.state.source == text
      && (p.delegate.hasOnScriptParsed ==>
            && r.state == p.(sourceData := r.state.sourceData, source := text, lastScriptID := p.lastScriptID + 1)
            && r.events == [ScriptParsed(p.lastScriptID + 1, p.sourceName.GetOr([]), EndLine(text), 0, false)])
      && (!p.delegate.hasOnScriptParsed ==>
            r.state == p.(sourceData := r.state.sourceData, source := text) && r.events == [])
  {
    match TextCodec.Assemble(p.sourceData, data)
    case Failure(e) => Throw(p, e)
    case Success(assembled) =>
      var p1 := p.(sourceData := Some(assembled));
      if IsEnd(data, SourceCodeEnd) then
        var text := TextCodec.Cesu8ToString(p1.sourceData);
        var p2 := p1.(source := text);
        if p.delegate.hasOnScriptParsed then
          var id := p2.lastScriptID + 1;
          Done(p2.(lastScriptID := id), [ScriptParsed(id, p2.sourceName.GetOr([]), EndLine(text), 0, false)])
        else Done(p2, [])
      else Done(p1, [])
  }

  /** `onSourceCodeName`: appends the fragment; the END fragment sets the
      name from the whole buffer, which is never cleared. */
  function OnSourceCodeName(p: Parser, data: Bytes): (r: Transition)
    ensures r.events == [] && r.sent == []
    ensures r.Threw() <==> TextCodec.Assemble(p.sourceNameData, data).Failure?
    ensures r.Threw() ==> r.state == p
    ensures !r.Threw() ==>
      var buffer := TextCodec.Assemble(p.sourceNameData, data).value;
      r.state == p.(sourceNameData := Some(buffer),
                    sourceName := if IsEnd(data, SourceCodeNameEnd) then Some(TextCodec.Cesu8ToString(Some(buffer)))
                                  else p.sourceName)
  {
    match TextCodec.Assemble(p.sourceNameData, data)
    case Failure(e) => Throw(p, e)
    case Success(assembled) =>
      var p1 := p.(sourceNameData := Some(assembled));
      if IsEnd(data, SourceCodeNameEnd) then Done(p1.(sourceName := Some(TextCodec.Cesu8ToString(p1.sourceNameData))), [])
      else Done(p1, [])
  }

  // ---------------------------------------------------------------------
  // Dispatch

  /** The entries of the constructor's `functionMap`. */
  datatype Kind =
    | ConfigurationKind
    | ByteCodeCpKind
    | ParseFunctionKind
    | BreakpointListKind
    | SourceCodeKind
    | SourceCodeNameKind

  /** `functionMap[type]`: no entry for function names, breakpoint hits or
      backtraces. */
  function HandlerFor(code: Byte): (r: Option<Kind>)
    ensures r.Some? <==> code in {Configuration, ByteCodeCp, ParseFunction, BreakpointList, BreakpointOffsetList,
                                  SourceCode, SourceCodeEnd, SourceCodeName, SourceCodeNameEnd}
    ensures r == Some(BreakpointListKind) <==> code == BreakpointList || code == BreakpointOffsetList
    ensures r == Some(SourceCodeKind) <==> code == SourceCode || code == SourceCodeEnd
    ensures r == Some(SourceCodeNameKind) <==> code == SourceCodeName || code == SourceCodeNameEnd
  {
    if code == Configuration then Some(ConfigurationKind)
    else if code == ByteCodeCp then Some(ByteCodeCpKind)
    else if code == ParseFunction then Some(ParseFunctionKind)
    else if code == BreakpointList || code == BreakpointOffsetList then Some(BreakpointListKind)
    else if code == SourceCode || code == SourceCodeEnd then Some(SourceCodeKind)
    else if code == SourceCodeName || code == SourceCodeNameEnd then Some(SourceCodeNameKind)
    else None
  }

  function Dispatch(kind: Kind, p: Parser, message: Bytes): Transition {
    match kind
    case ConfigurationKind => OnConfiguration(p, message)
    case ByteCodeCpKind => OnByteCodeCP(p, message)
    case ParseFunctionKind => OnParseFunction(p, message)
    case BreakpointListKind => OnBreakpointList(p, message)
    case SourceCodeKind => OnSourceCode(p, message)
    case SourceCodeNameKind => OnSourceCodeName(p, message)
  }

  /** `parseData`: an empty message and a first message other than
      CONFIGURATION are reported, but neither stops the dispatch; a type
      without a handler is only logged. */
  function ParseData(p: Parser, message: Bytes): (r: Transition)
    ensures |message| == 0 ==>
      r == Done(p, Abort(p, MessageTooShort) + (if p.cpointerSize == Some(0) then Abort(p, ConfigurationNotFirst) else []))
    ensures |message| > 0 && HandlerFor(message[0]).None? ==>
      r == Done(p, if p.cpointerSize == Some(0) && message[0] != Configuration then Abort(p, ConfigurationNotFirst) else [])
    ensures |message| > 0 && HandlerFor(message[0]).Some? ==>
      var handled := Dispatch(HandlerFor(message[0]).value, p, message);
      && r.state == handled.state && r.fault == handled.fault && r.sent == handled.sent
      && r.events == (if p.cpointerSize == Some(0) && message[0] != Configuration then Abort(p, ConfigurationNotFirst) else [])
                     + handled.events
  {
    if |message| == 0 then
      Done(p, Abort(p, MessageTooShort) + (if p.cpointerSize == Some(0) then Abort(p, ConfigurationNotFirst) else []))
    else
      var notFirst := if p.cpointerSize == Some(0) && message[0] != Configuration
                      then Abort(p, ConfigurationNotFirst) else [];
      match HandlerFor(message[0])
      case None => Done(p, notFirst)
      case Some(kind) =>
        var handled := Dispatch(kind, p, message);
        Outcome(handled.state, notFirst + handled.events, handled.sent, handled.fault)
  }
}

=== FILE: string_utils.dfy ===
/** jerry-debugger/src/lib/string-utils.ts: the earlier copies of the CESU-8
    decoder and of the fragment concatenation, written here as the loops
    the source runs and proved to compute what the `TextCodec` definitions
    compute. */
module StringUtils {

  import opened Wrappers
  import opened JsValues
  import TextCodec

  /** `cesu8ToString`: the index loop, with `array[i]` past the end read as
      0 (`undefined & 0x3f`). The index may overshoot the length by one
      when a 3-byte form is cut short. */
  method Cesu8ToString(bytes: Option<Bytes>) returns (result: JsString)
    ensures result == TextCodec.Cesu8ToString(bytes)
  {
    if bytes.None? {
      return [];
    }
    var a := bytes.value;
    var length := |a|;
    var i := 0;
    result := [];
    while i < length
      invariant 0 <= i
      invariant result + TextCodec.DecodeFrom(a, i, TextCodec.SourceLeadMin) == TextCodec.DecodeFrom(a, 0, TextCodec.SourceLeadMin)
      decreases length - i
    {
      var start := i;
      var chr := a[i];
      i := i + 1;
      if chr >= 0x7f {
        if TextCodec.HasBit5(chr) {
          chr := (chr % 0x10) * 0x1000 + (At(a, i) % 0x40) * 0x40 + At(a, i + 1) % 0x40;
          i := i + 2;
        } else {
          chr := (chr % 0x20) * 0x40 + At(a, i) % 0x40;
          i := i + 1;
        }
      }
      assert chr == TextCodec.CodeAt(a, start, TextCodec.SourceLeadMin);
      assert i == start + TextCodec.SequenceLength(a[start], TextCodec.SourceLeadMin);
      assert TextCodec.DecodeFrom(a, start, TextCodec.SourceLeadMin) == [chr] + TextCodec.DecodeFrom(a, i, TextCodec.SourceLeadMin);
      assert (result + [chr]) + TextCodec.DecodeFrom(a, i, TextCodec.SourceLeadMin) == result + ([chr] + TextCodec.DecodeFrom(a, i, TextCodec.SourceLeadMin));
      result := result + [chr];
    }
  }

  /** `Uint8Array.prototype.set` as an element-by-element copy after the
      range check. */
  method SetBytes(target: Bytes, src: Bytes, offset: int) returns (r: Result<Bytes>)
    ensures r == TextCodec.TypedArraySet(target, src, offset)
  {
    if offset < 0 || offset + |src| > |target| {
      return Failure(OffsetOutOfRange);
    }
    var out := target;
    var k := 0;
    while k < |src|
      invariant 0 <= k <= |src|
      invariant |out| == |target|
      invariant forall j :: 0 <= j < |out| && !(offset <= j < offset + k) ==> out[j] == target[j]
      invariant forall j :: 0 <= j < k ==> out[offset + j] == src[j]
    {
      out := out[offset + k := src[k]];
      k := k + 1;
    }
    assert out == target[..offset] + src + target[offset + |src|..];
    return Success(out);
  }

  /** `concatUint8Arrays`: the same steps as `assembleUint8Arrays`. */
  method ConcatUint8Arrays(baseArray: Option<Bytes>, nextArray: Bytes) returns (r: Result<Bytes>)
    ensures r == TextCodec.Assemble(baseArray, nextArray)
  {
    if baseArray.None? {
      return Success(if |nextArray| == 0 then [] else nextArray[1..]);
    }
    var base := baseArray.value;
    if |nextArray| <= 1 {
      return Success(base);
    }
    var baseLength := |base|;
    var nextLength := |nextArray| - 1;
    var result := seq(baseLength + nextLength, _ => 0);
    var withNext :- SetBytes(result, nextArray, baseLength - 1);
    r := SetBytes(withNext, base, 0);
  }
}

=== FILE: text_codec.dfy ===
/** The text side of jerry-debugger/src/lib/utils.ts: the lenient CESU-8
    decoder `cesu8ToString` (1-, 2- and 3-byte forms of Unicode Technical
    Report #26, continuation bytes not validated) and `assembleUint8Arrays`,
    which reassembles a field sent in several opcode-prefixed packets. */
module TextCodec {

  import opened Wrappers
  import opened JsValues

  /** The least byte `cesu8ToString` takes as the lead of a multi-byte
      sequence: the source tests `chr >= 0x7f`. */
  const SourceLeadMin: Byte := 0x7f

  /** The least lead byte of a multi-byte sequence in CESU-8 (Unicode
      Technical Report #26), where U+007F is the single byte 0x7f. */
  const Cesu8LeadMin: Byte := 0x80

  /** `chr & 0x20` is non-zero: the lead byte of a 3-byte form. */
  predicate HasBit5(lead: Byte) {
    (lead / 0x20) % 2 == 1
  }

  /** Number of bytes the sequence led by `lead` consumes when multi-byte
      sequences start at `leadMin`. */
  function SequenceLength(lead: Byte, leadMin: Byte): nat {
    if lead < leadMin then 1 else if HasBit5(lead) then 3 else 2
  }

  /** The character code decoded from the sequence starting at `i`; bytes
      past the end read as 0 (`undefined & 0x3f`). `x & (2^k - 1)` is
      written `x % 2^k`, and `|` of shifted disjoint bit fields is a sum. */
  function CodeAt(a: Bytes, i: nat, leadMin: Byte): (r: CodeUnit)
    requires i < |a|
  {
    var lead := a[i];
    if lead < leadMin then lead
    else if HasBit5(lead) then (lead % 0x10) * 0x1000 + (At(a, i + 1) % 0x40) * 0x40 + At(a, i + 2) % 0x40
    else (lead % 0x20) * 0x40 + At(a, i + 1) % 0x40
  }

  /** The decoding loop from byte index `i`. */
  function DecodeFrom(a: Bytes, i: nat, leadMin: Byte): (r: JsString)
    ensures i <= |a| ==> |r| <= |a| - i && 3 * |r| >= |a| - i
    ensures i >= |a| ==> r == []
    decreases |a| - i
  {
    if i >= |a| then []
    else [CodeAt(a, i, leadMin)] + DecodeFrom(a, i + SequenceLength(a[i], leadMin), leadMin)
  }

  /** `cesu8ToString`: `undefined` gives the empty string. */
  function Cesu8ToString(a: Option<Bytes>): (r: JsString)
    ensures a.None? ==> r == []
    ensures a.Some? ==> |r| <= |a.value| && 3 * |r| >= |a.value|
    ensures a.Some? && |a.value| > 0 && a.value[0] < SourceLeadMin ==> r[0] == a.value[0]
    ensures a.Some? && |a.value| >= 2 && a.value[0] >= SourceLeadMin ==> |r| < |a.value|
    ensures a.Some? && (forall k :: 0 <= k < |a.value| ==> a.value[k] < SourceLeadMin) ==> r == a.value
  {
    match a
    case None => []
    case Some(bytes) =>
      CopiedWhenAllBelow(bytes, SourceLeadMin);
      DecodeFrom(bytes, 0, SourceLeadMin)
  }

  /** `cesu8ToString` with the test `chr >= 0x80` that CESU-8 calls for:
      the corrected decoder, which reads the byte 0x7f as U+007F. */
  function Cesu8ToStringCorrected(a: Option<Bytes>): (r: JsString)
    ensures a.None? ==> r == []
    ensures a.Some? ==> |r| <= |a.value| && 3 * |r| >= |a.value|
    ensures a.Some? && |a.value| > 0 && a.value[0] < Cesu8LeadMin ==> r[0] == a.value[0]
    ensures a.Some? && |a.value| >= 2 && a.value[0] >= Cesu8LeadMin ==> |r| < |a.value|
    ensures a.Some? && (forall k :: 0 <= k < |a.value| ==> a.value[k] < Cesu8LeadMin) ==> r == a.value
  {
    match a
    case None => []
    case Some(bytes) =>
      CopiedWhenAllBelow(bytes, Cesu8LeadMin);
      DecodeFrom(bytes, 0, Cesu8LeadMin)
  }

  /** `CodeAt` and `HasBit5` compute what the source's bitwise operators
      compute on bytes: `chr & 0x20`, `((chr & 0xf) << 12) | ((b1 & 0x3f) << 6)
      | (b2 & 0x3f)` and `((chr & 0x1f) << 6) | (b1 & 0x3f)` (16-bit vectors
      are wide enough for every intermediate value). */
  lemma BitOpsAsArithmetic(lead: bv16, b1: bv16, b2: bv16)
    requires lead < 0x100 && b1 < 0x100 && b2 < 0x100
    ensures (lead & 0x20 != 0) == HasBit5(lead as int)
    ensures (((lead & 0xf) << 12) | ((b1 & 0x3f) << 6) | (b2 & 0x3f)) as int
         == (lead as int % 0x10) * 0x1000 + (b1 as int % 0x40) * 0x40 + b2 as int % 0x40
    ensures (((lead & 0x1f) << 6) | (b1 & 0x3f)) as int == (lead as int % 0x20) * 0x40 + b1 as int % 0x40
  {
    Mask(lead);
    Mask(b1);
    Mask(b2);
    Or3(lead & 0xf, b1 & 0x3f, b2 & 0x3f);
    Or2(lead & 0x1f, b1 & 0x3f);
  }

  lemma Mask(x: bv16)
    requires x < 0x100
    ensures (x & 0x3f) as int == x as int % 0x40
    ensures (x & 0x1f) as int == x as int % 0x20
    ensures (x & 0x0f) as int == x as int % 0x10
    ensures (x & 0x20 != 0) == ((x as int / 0x20) % 2 == 1)
  {
    Mask6(x);
    Mask5(x);
    Mask4(x);
    Bit5(x);
  }

  lemma Mask6(x: bv16)
    requires x < 0x100
    ensures (x & 0x3f) as int == x as int % 0x40
  {
  }

  lemma Mask5(x: bv16)
    requires x < 0x100
    ensures (x & 0x1f) as int == x as int % 0x20
  {
  }

  lemma Mask4(x: bv16)
    requires x < 0x100
    ensures (x & 0x0f) as int == x as int % 0x10
  {
  }

  lemma Bit5(x: bv16)
    requires x < 0x100
    ensures (x & 0x20 != 0) == ((x as int / 0x20) % 2 == 1)
  {
  }

  lemma Or3(a: bv16, b: bv16, c: bv16)
    requires a < 0x10 && b < 0x40 && c < 0x40
    ensures ((a << 12) | (b << 6) | c) as int == a as int * 0x1000 + b as int * 0x40 + c as int
  {
  }

  lemma Or2(a: bv16, b: bv16)
    requires a < 0x20 && b < 0x40
    ensures ((a << 6) | b) as int == a as int * 0x40 + b as int
  {
  }

  /** Bytes below the least lead byte are copied one-for-one as character
      codes. */
  lemma {:induction false} AsciiIsCopied(a: Bytes, i: nat, leadMin: Byte)
    requires i <= |a|
    requires forall k :: i <= k < |a| ==> a[k] < leadMin
    ensures DecodeFrom(a, i, leadMin) == a[i..]
    decreases |a| - i
  {
    if i < |a| {
      AsciiIsCopied(a, i + 1, leadMin);
    }
  }

  lemma CopiedWhenAllBelow(a: Bytes, leadMin: Byte)
    ensures (forall k :: 0 <= k < |a| ==> a[k] < leadMin) ==> DecodeFrom(a, 0, leadMin) == a
  {
    if forall k :: 0 <= k < |a| ==> a[k] < leadMin {
      AsciiIsCopied(a, 0, leadMin);
    }
  }

  /** Decoding from index `i` depends only on the bytes from `i` on. */
  lemma {:induction false} DecodeFromSuffix(a: Bytes, i: nat, leadMin: Byte)
    requires i <= |a|
    ensures DecodeFrom(a, i, leadMin) == DecodeFrom(a[i..], 0, leadMin)
    decreases |a| - i
  {
    if i < |a| {
      var b := a[i..];
      var n := SequenceLength(a[i], leadMin);
      assert CodeAt(b, 0, leadMin) == CodeAt(a, i, leadMin) by { CodeAtSuffix(a, i, leadMin); }
      assert DecodeFrom(a, i + n, leadMin) == DecodeFrom(b, n, leadMin) by {
        if i + n <= |a| {
          DecodeFromSuffix(a, i + n, leadMin);
          DecodeFromSuffix(b, n, leadMin);
          assert b[n..] == a[i + n..];
        }
      }
    }
  }

  lemma CodeAtSuffix(a: Bytes, i: nat, leadMin: Byte)
    requires i < |a|
    ensures CodeAt(a[i..], 0, leadMin) == CodeAt(a, i, leadMin)
  {
    assert a[i..][0] == a[i];
    assert At(a[i..], 1) == At(a, i + 1) && At(a[i..], 2) == At(a, i + 2);
  }

  /** A reference encoder, the inverse the decoders are checked against (the
      debugger client itself only decodes): a code unit below `leadMin` is
      one byte, one below 0x800 the 2-byte form, any other the 3-byte form.
      With `Cesu8LeadMin` this is CESU-8; with `SourceLeadMin` it writes
      U+007F as the overlong `[0xC1, 0xBF]`, the only form `cesu8ToString`
      reads back as U+007F. */
  function EncodeUnit(c: CodeUnit, leadMin: Byte): (r: Bytes)
    requires leadMin <= 0xC0
    ensures 1 <= |r| <= 3
    ensures |r| == 1 <==> c < leadMin
    ensures |r| == 3 <==> c >= 0x800
  {
    if c < leadMin then [c]
    else if c < 0x800 then [0xC0 + c / 0x40, 0x80 + c % 0x40]
    else [0xE0 + c / 0x1000, 0x80 + (c / 0x40) % 0x40, 0x80 + c % 0x40]
  }

  function Encode(s: JsString, leadMin: Byte): Bytes
    requires leadMin <= 0xC0
  {
    if |s| == 0 then [] else EncodeUnit(s[0], leadMin) + Encode(s[1..], leadMin)
  }

  lemma DecodeEncodedUnit(c: CodeUnit, rest: Bytes, leadMin: Byte)
    requires leadMin <= 0xC0
    ensures |EncodeUnit(c, leadMin)| == SequenceLength(EncodeUnit(c, leadMin)[0], leadMin)
    ensures CodeAt(EncodeUnit(c, leadMin) + rest, 0, leadMin) == c
  {
    if c >= 0x800 {
      DecodeThreeBytes(c, rest, leadMin);
    } else if c >= leadMin {
      DecodeTwoBytes(c, rest, leadMin);
    }
  }

  lemma DecodeThreeBytes(c: CodeUnit, rest: Bytes, leadMin: Byte)
    requires leadMin <= 0xC0 && c >= 0x800
    ensures |EncodeUnit(c, leadMin)| == SequenceLength(EncodeUnit(c, leadMin)[0], leadMin) == 3
    ensures CodeAt(EncodeUnit(c, leadMin) + rest, 0, leadMin) == c
  {
    var e := EncodeUnit(c, leadMin) + rest;
    var q, lo := c / 0x40, c % 0x40;
    assert c == q * 0x40 + lo;
    var hi, mid := q / 0x40, q % 0x40;
    assert q == hi * 0x40 + mid;
    assert c / 0x1000 == hi;
    assert 0 <= hi < 0x10;
    assert e[0] == 0xE0 + hi && e[1] == 0x80 + mid && e[2] == 0x80 + lo;
    assert (0xE0 + hi) / 0x20 == 7;
    assert (0xE0 + hi) % 0x10 == hi;
    assert (0x80 + mid) % 0x40 == mid && (0x80 + lo) % 0x40 == lo;
    assert At(e, 1) == e[1] && At(e, 2) == e[2];
    assert CodeAt(e, 0, leadMin) == hi * 0x1000 + mid * 0x40 + lo;
  }

  lemma DecodeTwoBytes(c: CodeUnit, rest: Bytes, leadMin: Byte)
    requires leadMin <= c < 0x800 && leadMin <= 0xC0
    ensures |EncodeUnit(c, leadMin)| == SequenceLength(EncodeUnit(c, leadMin)[0], leadMin) == 2
    ensures CodeAt(EncodeUnit(c, leadMin) + rest, 0, leadMin) == c
  {
    var e := EncodeUnit(c, leadMin) + rest;
    var q, lo := c / 0x40, c % 0x40;
    assert c == q * 0x40 + lo;
    assert 0 <= q < 0x20;
    assert e[0] == 0xC0 + q && e[1] == 0x80 + lo;
    assert (0xC0 + q) / 0x20 == 6;
    assert (0xC0 + q) % 0x20 == q;
    assert (0x80 + lo) % 0x40 == lo;
    assert At(e, 1) == e[1];
  }

  /** Every string survives the reference encoder followed by the decoding
      loop with the same least lead byte. */
  lemma {:induction false} DecodeEncode(s: JsString, leadMin: Byte)
    requires leadMin <= 0xC0
    ensures DecodeFrom(Encode(s, leadMin), 0, leadMin) == s
    decreases |s|
  {
    if |s| > 0 {
      var e := EncodeUnit(s[0], leadMin);
      var tail := Encode(s[1..], leadMin);
      DecodeEncodedUnit(s[0], tail, leadMin);
      DecodeEncode(s[1..], leadMin);
      DecodeFromSuffix(e + tail, |e|, leadMin);
      assert (e + tail)[|e|..] == tail;
      assert (e + tail)[0] == e[0];
    }
  }

  /** The corrected decoder reads back every string in its CESU-8 form,
      U+007F included. */
  lemma CorrectedReadsCesu8(s: JsString)
    ensures Cesu8ToStringCorrected(Some(Encode(s, Cesu8LeadMin))) == s
  {
    DecodeEncode(s, Cesu8LeadMin);
  }

  /** `cesu8ToString` as written reads back every string only in the form
      that writes U+007F as two bytes. */
  lemma SourceReadsOverlongForm(s: JsString)
    ensures Cesu8ToString(Some(Encode(s, SourceLeadMin))) == s
  {
    DecodeEncode(s, SourceLeadMin);
  }

  /** As written, the CESU-8 byte 0x7f (U+007F) is taken for the lead of a
      3-byte form: "\x7fAB" decodes to the single code unit U+F042. */
  lemma DelSwallowsNextBytes()
    ensures Encode([0x7f, 0x41, 0x42], Cesu8LeadMin) == [0x7f, 0x41, 0x42]
    ensures Cesu8ToString(Some([0x7f, 0x41, 0x42])) == [0xF042]
    ensures Cesu8ToStringCorrected(Some([0x7f, 0x41, 0x42])) == [0x7f, 0x41, 0x42]
  {
    var a: Bytes := [0x7f, 0x41, 0x42];
    assert DecodeFrom(a, 0, SourceLeadMin) == [CodeAt(a, 0, SourceLeadMin)];
    AsciiIsCopied(a, 0, Cesu8LeadMin);
  }

  /** `Uint8Array.prototype.set(src, offset)` on `target`: a RangeError when
      `src` does not fit at `offset`. */
  function TypedArraySet(target: Bytes, src: Bytes, offset: int): (r: Result<Bytes>)
    ensures r.Success? <==> 0 <= offset && offset + |src| <= |target|
    ensures r.Success? ==> |r.value| == |target|
    ensures r.Success? ==> forall k :: 0 <= k < |src| ==> r.value[offset + k] == src[k]
    ensures r.Success? ==> forall k :: 0 <= k < |target| && !(offset <= k < offset + |src|) ==> r.value[k] == target[k]
    ensures r.Failure? ==> r.error == OffsetOutOfRange
  {
    if offset < 0 || offset + |src| > |target| then Failure(OffsetOutOfRange)
    else Success(target[..offset] + src + target[offset + |src|..])
  }

  /** `next.slice(1)`: everything after the opcode byte. */
  function Payload(next: Bytes): (r: Bytes)
    ensures |next| > 0 ==> r == next[1..]
    ensures |next| == 0 ==> r == []
  {
    if |next| == 0 then [] else next[1..]
  }

  /** `assembleUint8Arrays`, through the same two `set` calls as the source:
      `next` is written at `|base| - 1` so that its opcode lands on the last
      byte of `base`, which the second `set` then restores. */
  function Assemble(base: Option<Bytes>, next: Bytes): (r: Result<Bytes>)
    ensures base.None? ==> r == Success(Payload(next))
    ensures base.Some? && |next| <= 1 ==> r == Success(base.value)
    ensures base.Some? && |base.value| >= 1 && |next| > 1 ==> r == Success(base.value + next[1..])
    ensures base.Some? && |base.value| == 0 && |next| > 1 ==> r == Failure(OffsetOutOfRange)
  {
    match base
    case None => Success(Payload(next))
    case Some(b) =>
      if |next| <= 1 then Success(b)
      else
        var blank := seq(|b| + |next| - 1, _ => 0);
        var withNext :- TypedArraySet(blank, next, |b| - 1);
        var result := TypedArraySet(withNext, b, 0);
        assert result.Success? ==> result.value == b + next[1..] by {
          if result.Success? {
            forall k | 0 <= k < |result.value|
              ensures result.value[k] == (b + next[1..])[k]
            {
              if k >= |b| {
                assert withNext[|b| - 1 + (k - |b| + 1)] == next[k - |b| + 1];
              }
            }
          }
        }
        result
  }

  /** Concatenation of the payloads of a list of fragments. */
  function Payloads(frags: seq<Bytes>): Bytes {
    if |frags| == 0 then [] else Payloads(frags[..|frags| - 1]) + Payload(frags[|frags| - 1])
  }

  /** Feeding fragments one by one into `assembleUint8Arrays`, starting
      from `base` (or from nothing). */
  function AssembleAll(base: Option<Bytes>, frags: seq<Bytes>): Result<Bytes>
    decreases |frags|
  {
    if |frags| == 0 then
      match base
      case None => Success([])
      case Some(b) => Success(b)
    else
      var next :- Assemble(base, frags[0]);
      AssembleAll(Some(next), frags[1..])
  }

  lemma {:induction false} AssembleAllFrom(base: Bytes, frags: seq<Bytes>)
    requires |base| >= 1
    ensures AssembleAll(Some(base), frags) == Success(base + Payloads(frags))
    decreases |frags|
  {
    if |frags| == 0 {
      assert base + Payloads(frags) == base;
    } else {
      AssembleAllFrom(base + Payload(frags[0]), frags[1..]);
      AssembleAllCons(base, frags);
    }
  }

  /** One fragment fed into a non-empty buffer: if the rest assembles from
      the grown buffer, the whole list assembles from the original one. */
  lemma AssembleAllCons(base: Bytes, frags: seq<Bytes>)
    requires |base| >= 1 && |frags| > 0
    requires AssembleAll(Some(base + Payload(frags[0])), frags[1..]) == Success(base + Payload(frags[0]) + Payloads(frags[1..]))
    ensures AssembleAll(Some(base), frags) == Success(base + Payloads(frags))
  {
    AssembleStep(base, frags[0]);
    PayloadsFirst(frags);
    AppendAssociative(base, Payload(frags[0]), Payloads(frags[1..]));
  }

  lemma AppendAssociative(a: Bytes, b: Bytes, c: Bytes)
    ensures a + b + c == a + (b + c)
  {
  }

  lemma PayloadsFirst(frags: seq<Bytes>)
    requires |frags| > 0
    ensures Payloads(frags) == Payload(frags[0]) + Payloads(frags[1..])
  {
    PayloadsCons(frags[0], frags[1..]);
    assert frags == [frags[0]] + frags[1..];
  }

  lemma AssembleStep(base: Bytes, f: Bytes)
    requires |base| >= 1
    ensures Assemble(Some(base), f) == Success(base + Payload(f))
  {
    if |f| <= 1 {
      assert base + Payload(f) == base;
    }
  }

  lemma {:induction false} PayloadsCons(f: Bytes, rest: seq<Bytes>)
    ensures Payloads([f] + rest) == Payload(f) + Payloads(rest)
    decreases |rest|
  {
    var all := [f] + rest;
    if |rest| == 0 {
      assert all[..|all| - 1] == [];
    } else {
      var init, last := rest[..|rest| - 1], rest[|rest| - 1];
      assert all[..|all| - 1] == [f] + init && all[|all| - 1] == last;
      assert Payloads([f] + init) == Payload(f) + Payloads(init) by {
        PayloadsCons(f, init);
      }
      AppendAssociative(Payload(f), Payloads(init), Payload(last));
    }
  }

  /** Reassembling a field from its packets concatenates the packets'
      payloads, every opcode byte dropped, as long as the first packet
      carries payload; if it carries none, the first later packet that does
      makes `set` throw. */
  lemma AssembleFragments(frags: seq<Bytes>)
    requires |frags| >= 1
    ensures |frags[0]| >= 2 ==> AssembleAll(None, frags) == Success(Payloads(frags))
    ensures |frags[0]| <= 1 ==>
      (AssembleAll(None, frags).Failure? <==> exists k :: 1 <= k < |frags| && |frags[k]| > 1)
  {
    var first := Payload(frags[0]);
    assert AssembleAll(None, frags) == AssembleAll(Some(first), frags[1..]);
    if |frags[0]| >= 2 {
      AssembleAllFrom(first, frags[1..]);
      PayloadsCons(frags[0], frags[1..]);
      assert [frags[0]] + frags[1..] == frags;
    } else {
      EmptyBaseAssembly(frags[1..]);
      if AssembleAll(None, frags).Failure? {
        var j :| 0 <= j < |frags[1..]| && |frags[1..][j]| > 1;
        assert |frags[j + 1]| > 1;
      }
      if exists k :: 1 <= k < |frags| && |frags[k]| > 1 {
        var k :| 1 <= k < |frags| && |frags[k]| > 1;
        assert frags[1..][k - 1] == frags[k];
      }
    }
  }

  lemma {:induction false} EmptyBaseAssembly(frags: seq<Bytes>)
    ensures AssembleAll(Some([]), frags).Failure? <==> exists k :: 0 <= k < |frags| && |frags[k]| > 1
    decreases |frags|
  {
    if |frags| > 0 {
      if |frags[0]| <= 1 {
        EmptyBaseAssembly(frags[1..]);
        if exists k :: 0 <= k < |frags| && |frags[k]| > 1 {
          var k :| 0 <= k < |frags| && |frags[k]| > 1;
          assert frags[1..][k - 1] == frags[k];
        }
        if exists k :: 0 <= k < |frags[1..]| && |frags[1..][k]| > 1 {
          var k :| 0 <= k < |frags[1..]| && |frags[1..][k]| > 1;
          assert frags[k + 1] == frags[1..][k];
        }
      }
    }
  }
}

=== FILE: text_split.dfy ===
/** `String.prototype.split` for the three separators the core uses: the
    string ':' and the regular expressions /\n[\n]/ and /\r\n[\r\n]/.
    Each has a fixed match width, so the ECMAScript split algorithm reduces
    to a left-to-right scan for non-overlapping matches. */
module TextSplit {

  import opened JsValues

  datatype Separator =
    | Colon           // ':'
    | DoubleLineFeed  // /\n[\n]/ : two consecutive line feeds
    | CrLfThenCrOrLf  // /\r\n[\r\n]/ : CR LF followed by CR or LF

  const LF: CodeUnit := 10
  const CR: CodeUnit := 13
  const ColonUnit: CodeUnit := ':' as int

  function Width(sep: Separator): nat {
    match sep
    case Colon => 1
    case DoubleLineFeed => 2
    case CrLfThenCrOrLf => 3
  }

  /** Does `sep` match `s` starting at index `i`? */
  predicate MatchesAt(sep: Separator, s: JsString, i: nat) {
    i + Width(sep) <= |s| &&
    match sep
    case Colon => s[i] == ColonUnit
    case DoubleLineFeed => s[i] == LF && s[i + 1] == LF
    case CrLfThenCrOrLf => s[i] == CR && s[i + 1] == LF && (s[i + 2] == CR || s[i + 2] == LF)
  }

  /** `s.split(sep)`. */
  function Split(s: JsString, sep: Separator): (r: seq<JsString>)
    ensures |r| >= 1
  {
    SplitFrom(s, sep, 0, 0)
  }

  /** The split loop: `p` is the start of the current piece, `q` the next
      position tried for a match. */
  function SplitFrom(s: JsString, sep: Separator, p: nat, q: nat): (r: seq<JsString>)
    requires p <= q <= |s|
    ensures |r| >= 1
    decreases |s| - q
  {
    if q == |s| then [s[p..]]
    else if MatchesAt(sep, s, q) then [s[p..q]] + SplitFrom(s, sep, q + Width(sep), q + Width(sep))
    else SplitFrom(s, sep, p, q + 1)
  }

  /** `pieces.join(text)`. */
  function Join(pieces: seq<JsString>, text: JsString): JsString
    requires |pieces| >= 1
  {
    if |pieces| == 1 then pieces[0] else pieces[0] + text + Join(pieces[1..], text)
  }

  /** The text every match of `sep` consists of, when it is a fixed string. */
  function SeparatorText(sep: Separator): (r: JsString)
    requires sep != CrLfThenCrOrLf
    ensures |r| == Width(sep)
  {
    match sep
    case Colon => [ColonUnit]
    case DoubleLineFeed => [LF, LF]
  }

  predicate NoMatch(sep: Separator, s: JsString) {
    forall i: nat :: i < |s| ==> !MatchesAt(sep, s, i)
  }

  lemma {:induction false} SplitFromJoin(s: JsString, sep: Separator, p: nat, q: nat)
    requires sep != CrLfThenCrOrLf
    requires p <= q <= |s|
    ensures Join(SplitFrom(s, sep, p, q), SeparatorText(sep)) == s[p..]
    decreases |s| - q
  {
    if q == |s| {
    } else if MatchesAt(sep, s, q) {
      SplitFromJoin(s, sep, q + Width(sep), q + Width(sep));
      JoinAtMatch(s, sep, p, q);
    } else {
      SplitFromJoin(s, sep, p, q + 1);
    }
  }

  lemma JoinAtMatch(s: JsString, sep: Separator, p: nat, q: nat)
    requires sep != CrLfThenCrOrLf
    requires p <= q < |s| && MatchesAt(sep, s, q)
    requires var next := q + Width(sep);
      Join(SplitFrom(s, sep, next, next), SeparatorText(sep)) == s[next..]
    ensures Join(SplitFrom(s, sep, p, q), SeparatorText(sep)) == s[p..]
  {
    var w := Width(sep);
    var t := SeparatorText(sep);
    var rest := SplitFrom(s, sep, q + w, q + w);
    var piece := s[p..q];
    assert SplitFrom(s, sep, p, q) == [piece] + rest;
    JoinCons(piece, rest, t);
    assert s[q..q + w] == t;
    SliceAround(s, p, q, q + w);
  }

  lemma JoinCons(piece: JsString, rest: seq<JsString>, text: JsString)
    requires |rest| >= 1
    ensures Join([piece] + rest, text) == piece + text + Join(rest, text)
  {
    assert ([piece] + rest)[1..] == rest;
  }

  lemma SliceAround(s: JsString, p: nat, q: nat, r: nat)
    requires p <= q <= r <= |s|
    ensures s[p..] == s[p..q] + s[q..r] + s[r..]
  {
  }

  /** Splitting on a fixed separator and joining back with it is the identity. */
  lemma JoinSplit(s: JsString, sep: Separator)
    requires sep != CrLfThenCrOrLf
    ensures Join(Split(s, sep), SeparatorText(sep)) == s
  {
    SplitFromJoin(s, sep, 0, 0);
  }

  lemma {:induction false} SplitFromPiecesHaveNoMatch(s: JsString, sep: Separator, p: nat, q: nat)
    requires p <= q <= |s|
    requires forall i: nat :: p <= i < q ==> !MatchesAt(sep, s, i)
    ensures forall k :: 0 <= k < |SplitFrom(s, sep, p, q)| ==> NoMatch(sep, SplitFrom(s, sep, p, q)[k])
    decreases |s| - q
  {
    if q == |s| {
      PieceHasNoMatch(s, sep, p, q);
      assert s[p..] == s[p..q];
    } else if MatchesAt(sep, s, q) {
      PieceHasNoMatch(s, sep, p, q);
      SplitFromPiecesHaveNoMatch(s, sep, q + Width(sep), q + Width(sep));
    } else {
      SplitFromPiecesHaveNoMatch(s, sep, p, q + 1);
    }
  }

  lemma PieceHasNoMatch(s: JsString, sep: Separator, p: nat, q: nat)
    requires p <= q <= |s|
    requires forall i: nat :: p <= i < q ==> !MatchesAt(sep, s, i)
    ensures NoMatch(sep, s[p..q])
  {
    forall i: nat | i < q - p
      ensures !MatchesAt(sep, s[p..q], i)
    {
      assert !MatchesAt(sep, s, p + i);
    }
  }

  /** No piece of a split contains a match of the separator. */
  lemma SplitPiecesHaveNoMatch(s: JsString, sep: Separator)
    ensures forall k :: 0 <= k < |Split(s, sep)| ==> NoMatch(sep, Split(s, sep)[k])
  {
    SplitFromPiecesHaveNoMatch(s, sep, 0, 0);
  }

  /** A string without a match is a single piece. */
  lemma {:induction false} SplitWithoutMatch(s: JsString, sep: Separator)
    requires NoMatch(sep, s)
    ensures Split(s, sep) == [s]
  {
    var q := 0;
    while q < |s|
      invariant q <= |s|
      invariant SplitFrom(s, sep, 0, q) == SplitFrom(s, sep, 0, 0)
      decreases |s| - q
    {
      q := q + 1;
    }
  }

  /** The first piece of a colon split is the text before the first ':'. */
  lemma {:induction false} SplitAtFirstColon(a: JsString, b: JsString)
    requires ColonUnit !in a
    ensures Split(a + [ColonUnit] + b, Colon) == [a] + Split(b, Colon)
  {
    var s := a + [ColonUnit] + b;
    var q := 0;
    while q < |a|
      invariant q <= |a|
      invariant SplitFrom(s, Colon, 0, q) == SplitFrom(s, Colon, 0, 0)
      decreases |a| - q
    {
      assert s[q] == a[q];
      q := q + 1;
    }
    assert s[|a|] == ColonUnit;
    assert s[..|a|] == a;
    SplitFromShift(a + [ColonUnit], b, Colon, 0, 0);
  }

  /** Splitting a suffix `b` of `pre + b` from its start is splitting `b`. */
  lemma {:induction false} SplitFromShift(pre: JsString, b: JsString, sep: Separator, p: nat, j: nat)
    requires p <= j <= |b|
    ensures SplitFrom(pre + b, sep, |pre| + p, |pre| + j) == SplitFrom(b, sep, p, j)
    decreases |b| - j
  {
    if j == |b| {
      ShiftAtEnd(pre, b, sep, p);
    } else if MatchesAt(sep, b, j) {
      SplitFromShift(pre, b, sep, j + Width(sep), j + Width(sep));
      ShiftAtMatch(pre, b, sep, p, j);
    } else {
      SplitFromShift(pre, b, sep, p, j + 1);
      ShiftPastMiss(pre, b, sep, p, j);
    }
  }

  lemma ShiftAtEnd(pre: JsString, b: JsString, sep: Separator, p: nat)
    requires p <= |b|
    ensures SplitFrom(pre + b, sep, |pre| + p, |pre| + |b|) == SplitFrom(b, sep, p, |b|)
  {
    assert (pre + b)[|pre| + p..] == b[p..];
  }

  lemma ShiftAtMatch(pre: JsString, b: JsString, sep: Separator, p: nat, j: nat)
    requires p <= j < |b| && MatchesAt(sep, b, j)
    requires var next := j + Width(sep);
      SplitFrom(pre + b, sep, |pre| + next, |pre| + next) == SplitFrom(b, sep, next, next)
    ensures SplitFrom(pre + b, sep, |pre| + p, |pre| + j) == SplitFrom(b, sep, p, j)
  {
    var s := pre + b;
    MatchShift(pre, b, sep, j);
    assert s[|pre| + p..|pre| + j] == b[p..j];
  }

  lemma ShiftPastMiss(pre: JsString, b: JsString, sep: Separator, p: nat, j: nat)
    requires p <= j < |b| && !MatchesAt(sep, b, j)
    requires SplitFrom(pre + b, sep, |pre| + p, |pre| + (j + 1)) == SplitFrom(b, sep, p, j + 1)
    ensures SplitFrom(pre + b, sep, |pre| + p, |pre| + j) == SplitFrom(b, sep, p, j)
  {
    MatchShift(pre, b, sep, j);
  }

  /** A match in `b` is a match at the same place in `pre + b`. */
  lemma MatchShift(pre: JsString, b: JsString, sep: Separator, j: nat)
    requires j < |b|
    ensures MatchesAt(sep, pre + b, |pre| + j) == MatchesAt(sep, b, j)
  {
    var s := pre + b;
    assert s[|pre| + j] == b[j];
    if j + 1 < |b| {
      assert s[|pre| + j + 1] == b[j + 1];
    }
    if j + 2 < |b| {
      assert s[|pre| + j + 2] == b[j + 2];
    }
  }
}

=== FILE: wrappers.dfy ===
/** Failure-compatible result types shared by every module of the model.

    A JavaScript `throw` is modelled as a `Fault`; a protocol error that the
    source only reports through its delegate is a `Report` (see module Protocol). */
module Wrappers {

  datatype Option<+T> = None | Some(value: T) {
    function GetOr(default: T): T {
      match this
      case Some(v) => v
      case None => default
    }
  }

  /** Why a JavaScript (or C) operation threw. Message texts are not modelled. */
  datatype Fault =
    | FormatUnsupported        // getFormatSize: a character other than B, C or I
    | TooShort                 // decodeMessage: offset + size exceeds the buffer
    | UnexpectedDecodeRequest  // decodeMessage: C with a pointer width other than 2 or 4
    | AssertionFailed          // the older decoder's assert() on the same condition
    | OffsetOutOfRange         // Uint8Array.prototype.set with a negative offset
    | MissingStackFrame        // byte-code CP with an empty parser stack
    | BreakpointListLength     // breakpoint list length not 1 + 4k, k >= 1
    | UndefinedAccess          // property read on `undefined` (a TypeError)
    | NoDebugger               // command without a debugger client
    | ResumeNotAtBreakpoint    // step/resume while not stopped
    | PauseAtBreakpoint        // pause while stopped

  datatype Result<+R> = Success(value: R) | Failure(error: Fault) {
    predicate IsFailure() {
      Failure?
    }

    function PropagateFailure<U>(): Result<U>
      requires Failure?
    {
      Failure(error)
    }

    function Extract(): R
      requires Success?
    {
      value
    }
  }
}
